=== FILE: README.md ===
# Vuex module composition and dispatch resolution, in Dafny

This project models the module-composition and dispatch-resolution engine of
Vuex, the state-management library for Vue.js. The model has these parts:

- **The module tree** (`ModuleCollection`, `Modules`). The tree is a
  recursive datatype, and paths are sequences of keys. The model covers:
  - lookup by path and the namespace fold;
  - registration, with runtime/static flags;
  - removal, which only touches runtime modules;
  - hot update, which never grows the tree;
  - raw-module shape validation with its error message.
- **The registries** (`Registry`). `_mutations` and `_actions` map a type to
  a list of handlers. `_wrappedGetters` maps a type to one handler.
  `_modulesNamespaceMap` maps a namespace to a module path. Each
  registration is a `Decl`, and `RegisterAll` applies a list of them in
  order.
- **The store** (`Store`, `Installation`, `LocalContext`):
  - `installModule` is described by the preorder list of registrations it
    makes (`TreeDecls`);
  - `commit`, `_withCommit`, `genericSubscribe`, `resetStore`,
    `makeLocalGetters`, `getNestedState`, `unifyObjectStyle`;
  - handler selection in `dispatch`;
  - the local `commit`/`dispatch` a module's handlers receive.
- **The component helpers** (`Helpers`): `normalizeNamespace`,
  `normalizeMap`, `isValidMap`, and the namespace lookup and key
  qualification behind `mapState`, `mapGetters`, `mapMutations` and
  `mapActions`.
- **The utilities** (`Util`): `find`, `isObject`, `assert`, `partial`, and
  `deepCopy` on acyclic values.

## JavaScript values, errors and user code

- **Values.** JavaScript values are the datatype `Js.Value`: `undefined`,
  `null`, booleans, numbers, strings, functions, arrays, and objects whose
  own properties are kept in insertion order. A function is an opaque
  identifier.
- **Errors.** Reading a property of `undefined` or `null` is a `TypeError`.
  An `assert` failure is `VuexError("[vuex] " + msg)`. Every exception is a
  `Failure`/`Threw` result, not a crash. The model runs with the
  development flag `__DEV__` on.
- **User code.** Mutation handlers, action handlers and subscribers are
  user code. The model does not interpret them. A `World` value is the
  oracle that says what a call returns, or whether it throws. Each call
  the store makes into user code is recorded, in order, in the store's
  `log`, and the ordering properties of `commit` and `dispatch` are stated
  on that log. User code is not re-entrant here: a callback cannot
  subscribe, unsubscribe, commit or dispatch. An action's own commits are
  folded into the state it returns, and they are not logged (see
  "## Left out").
- **State initializers.** A module whose `state` is a function gets the
  value of the `invoke` parameter for that function.

## Behaviour kept as the code has it

- `commit` does not guard its subscribers. A subscriber that is not a
  function throws a `TypeError`, and a throwing subscriber stops the
  rest.
- `_withCommit` has no `finally`. When a mutation handler throws,
  `_committing` stays `true` (`Store.CommitThrowLeavesFlagSet`).
- The before-action subscribers share one `try`. The first one that throws
  skips the rest, and the error is swallowed.
- The store's bound `dispatch` passes on only `(type, payload)`. A
  `mapActions` call with an empty namespace therefore drops its options.
- `normalizeNamespace("")` yields `"/"`.
- `makeLocalGetters` caches its result even when it is empty. Getters
  registered later under the same namespace are not seen until the cache
  is cleared (`Store.LocalGettersCached`).

## Model

| member | source | states |
|---|---|---|
| Modules.NewModule | myVuex/module/module.js:4-10 | A new module has no children. Its state is the initializer's result when the raw `state` is a function, and the raw `state` otherwise. |
| Modules.AddChild | myVuex/module/module.js:16-22 | After `appendChild(k, m)`, `getChild(k)` is `m`. Every other key keeps its child, and the module's own fields are unchanged. |
| Modules.RemoveChild | src/module/module-collection.js:80 | Removing a key leaves no child under it and keeps every other key's child. |
| Modules.UpdateRaw | src/module/module-collection.js:102 | `namespaced` follows the new raw module. Mutations, actions and getters are replaced only where the new raw module has them. State, runtime flag and children are kept. This is the module's own `update`, as upstream Vuex defines it (see "## Left out"). |
| Modules.BuildShape | src/module/module-collection.js:36-58 | A built tree carries one runtime flag throughout, and every node's children have distinct keys. |
| Modules.BuildChildAt | src/module/module-collection.js:49-57 | The j-th child of a built module is the j-th raw child built with the same flag, under the same key. |
| ModuleCollection.Accepts | src/module/module-collection.js:125-140 | Only a `null` action throws (reading its `handler`). Otherwise a value is accepted exactly when its type test holds. |
| ModuleCollection.AcceptsValid | src/module/module-collection.js:125-140 | The acceptance test agrees with the shape rule: getters and mutations are functions; an action is a function or an object whose `handler` is a function. |
| ModuleCollection.Location | src/module/module-collection.js:157-161 | The ` in module "…"` part of the message is empty exactly for the root path. |
| ModuleCollection.CheckHandler | src/module/module-collection.js:148-153 | Checking one handler passes exactly when it has the required shape: a function, or for actions an object whose `handler` is a function. |
| ModuleCollection.CheckKindPasses | src/module/module-collection.js:142-155 | Checking a handler map passes exactly when every entry from the start index has the required shape. |
| ModuleCollection.AssertRawModuleAccepts | src/module/module-collection.js:142-155 | `assertRawModule` passes exactly when the getters, mutations and actions all have the required shapes. |
| ModuleCollection.Get | src/module/module-collection.js:11-15 | `get([])` is the root. A failed walk is always a `TypeError`: a property read on `undefined`. |
| ModuleCollection.GetSnoc | src/module/module-collection.js:11-15 | Looking up `path + [key]` is one more child step from the module at `path`. A missing intermediate module throws. |
| ModuleCollection.ExistsPrefix | src/module/module-collection.js:11-15 | Every prefix of an existing path exists. |
| ModuleCollection.NamespaceOf | src/module/module-collection.js:23-29 | The namespace is defined exactly when the path exists; it is `''` for the root path. |
| ModuleCollection.NamespaceOfSnoc | src/module/module-collection.js:23-29 | Extending the path by one key appends `key + '/'` if that module is namespaced, and nothing otherwise. A non-namespaced ancestor does not suppress a descendant's segment. |
| ModuleCollection.NamespaceEmptyIff | src/module/module-collection.js:23-29 | The namespace is `''` exactly when no module on the path is namespaced. |
| ModuleCollection.GetNamespace | src/module/module-collection.js:23-29 | The loop computes the same namespace as the recursive fold. |
| ModuleCollection.Replace | src/module/module-collection.js:11-15 | Replacing the module at a path succeeds exactly when the path exists. |
| ModuleCollection.ReplaceThenGet | src/module/module-collection.js:11-15 | After replacing the module at a path, looking that path up gives the new module. |
| ModuleCollection.ReplaceFrame | src/module/module-collection.js:11-15 | Replacing at one path leaves every path that branches off it unchanged. |
| ModuleCollection.AttachThenGet | src/module/module-collection.js:43-46 | Attaching under an existing parent adds exactly that key to the parent, and the new module is found at the path. |
| ModuleCollection.RegisterBuilds | src/module/module-collection.js:36-58 | For a valid raw tree, `register([])` replaces the root with the built tree. Below the root it attaches the built tree under the last key of the parent. Children get `path + [key]` and the same runtime flag. |
| ModuleCollection.RegisterRejectsInvalid | src/module/module-collection.js:36-40 | A raw tree with an ill-shaped handler anywhere makes `register` throw. |
| ModuleCollection.NewCollectionIsStatic | src/module/module-collection.js:5-8 | The constructor's tree is the built raw tree, and every module in it is static (not runtime). |
| ModuleCollection.Unregister | src/module/module-collection.js:61-81 | `unregister` throws only when the parent is missing. It is a no-op when the child is absent or static; otherwise the parent loses exactly that key. |
| ModuleCollection.UnregisterRemovesOnlyTarget | src/module/module-collection.js:61-81 | Unregistering an existing runtime module removes it and leaves every path that branches off it unchanged. A static module is kept. |
| ModuleCollection.IsRegisteredIffExists | src/module/module-collection.js:84-93 | For a non-empty path, `isRegistered(path)` is true exactly when a module exists at the path, and it throws only where none does. For the root path it asks the root for a child named "undefined", since `path[-1]` is `undefined`. |
| ModuleCollection.UpdateKeepsSkeleton | src/module/module-collection.js:96-123 | A hot update never adds or removes modules, and keeps each module's state and runtime flag. |
| ModuleCollection.UpdateApplies | src/module/module-collection.js:101-121 | A successful hot update gives the node the new raw module's flag and handler maps, and keeps its state and runtime flag. Each nested key up to the first one the live tree lacks gets its child replaced by that child's own hot update. Children under keys the new definition does not name are unchanged. |
| ModuleCollection.UpdateStopsAtFirstMissing | src/module/module-collection.js:105-121 | At the first new child key missing from the live tree, `update` returns: later sibling keys are not updated. |
| Registry.RegisterHandler | src/store.js:535-540 | Registering appends the handler to its type's list. Other types are untouched. |
| Registry.MutationsAfterRegisterAll | src/store.js:535-540 | After a sequence of registrations, a type's mutation list is the old list followed by the declared handlers in order. |
| Registry.ActionsAfterRegisterAll | src/store.js:543-567 | The same append rule holds for actions. |
| Registry.GettersAfterRegisterAll | src/store.js:570-586 | The first getter registered for a type wins; later ones are ignored. |
| Registry.NamespacesAfterRegisterAll | src/store.js:389-394 | The last namespace entry for a name overwrites earlier ones. |
| Registry.RegisterAllConcat | src/store.js:384-450 | Registering two lists in a row is registering their concatenation. |
| Registry.DeclaredMutationsHas | src/store.js:535-540 | Every declared mutation handler is in the list declared for its type. |
| Registry.FirstGetterFound | src/store.js:570-586 | A type with any declared getter has a first getter. |
| Registry.LastNamespaceFound | src/store.js:389-394 | A declared namespace has a last entry. |
| State.GetNestedState | src/store.js:598-600 | The empty path gives the state itself. A failure is always a `TypeError`. |
| State.GetNestedStateSnoc | src/store.js:598-600 | Reading `path + [key]` is reading `path`, then the property `key`. |
| State.SetField | src/store.js:402-409 | Setting a property succeeds exactly on a settable target, and the new value is read back. On an object no other property changes. A primitive, `undefined` or `null` throws a `TypeError` (the `in` test). |
| State.SetNestedThenGet | src/store.js:397-411 | Nesting a module's state succeeds exactly when the parent state resolves to a settable value. Afterwards `getNestedState(path + [key])` is the module's state. |
| Store.UnifyObjectStyle | src/store.js:603-615 | An object with a truthy `type` yields `(type, object, payload)`; otherwise the arguments are kept. A type that is not a string is a `VuexError`. |
| Store.WithCommit | src/store.js:301-306 | When the body returns, `_committing` is restored to its prior value. When the body throws, the throw escapes unchanged. |
| Store.WithCommitNested | src/store.js:301-306 | Nested `_withCommit` calls restore the outer value. |
| Store.CommitUnknownType | src/store.js:134-141 | Committing an unregistered type runs no handler, notifies no subscriber and changes nothing. |
| Store.CommitRunsHandlersThenSubscribers | src/store.js:144-152 | A commit that returns has run every handler of the type once, in registration order, with `_committing` set. It then called every subscriber in order with `{type, payload}`, and restored `_committing`. Registries, subscribers and modules are unchanged. |
| Store.CommitThrowLeavesFlagSet | src/store.js:144-148 | When the first handler throws, the commit throws with `_committing` still set. |
| Store.RunMutationsOk | src/store.js:145-147 | Running a handler list records one call per handler, in order, each with the current committing flag, and changes only the state and the log. |
| Store.NotifySubscribersOk | src/store.js:150-152 | Notifying records one call per subscriber, in order, and changes nothing else. |
| Store.LocalGetterMap | src/store.js:509-532 | The local getters are exactly the global getter types that start with the namespace, each under its name with the namespace stripped. |
| Store.MakeLocalGetters | src/store.js:509-532 | A cached view is returned as is. Otherwise the view is built and cached under the namespace, and no other cache entry changes. |
| Store.LocalGettersCached | src/store.js:511-531 | Once cached, a namespace's view does not change when the getters do. |
| Store.BeforeHooks | src/store.js:183-186 | Filtering reads `sub.before`, which throws exactly when some subscriber is `undefined` or `null`. Otherwise the hooks are exactly the truthy `before` fields of the subscribers, in order. |
| Store.CallBefores | src/store.js:182-192 | Calling before-subscribers changes nothing but the log; hooks are modelled as unable to touch the store (see "## Left out"). |
| Store.CallBeforesPrefix | src/store.js:182-192 | Whatever the hooks do, the log gains one call for each hook of some prefix of the remaining hooks, in order, and nothing else. |
| Store.CallBeforesAll | src/store.js:182-192 | When every hook is callable and returns, each one is called once, in order, with the action and the root state. |
| Store.CallBeforesStops | src/store.js:182-192 | At the first hook that throws or is not a function, calling stops. A throwing hook is logged as called and a non-function is not. No later hook is called, and the error is swallowed. |
| Store.RunActionThrows | src/store.js:545-553 | In the model, a throwing action call keeps the state as it was: writes the handler made before the throw, such as its own commits, are not modelled (see "## Left out"). It keeps the local getters cached while its context was built. The call is logged exactly when the local state could be read, that is, when the user function was reached. |
| Store.RunActions | src/store.js:194-195 | With several handlers that all return, the results are joined, one value per handler. Which value comes from which handler is stated by `Store.RunActionsResults`. |
| Store.RunActionsResults | src/store.js:194-195 | The j-th joined value is the result of the j-th handler, run on the store the handlers before it left. The final store is the one the last handler leaves. |
| Store.RunActionsOk | src/store.js:194-195 | Running several actions records one call per handler, in registration order. |
| Store.DispatchSelectsHandlers | src/store.js:165-196 | An unregistered type does nothing. Otherwise the before-subscribers run first, then the type's handlers in order. The result is joined exactly when there are several handlers, and single exactly when there is one. |
| Store.Unsubscribe | src/store.js:316-321 | Unsubscribing removes exactly one occurrence of the function; nothing changes when it is absent. |
| Store.Subscribe | src/store.js:310-315 | A function already in the list leaves it as is. A new one goes to the front with `prepend` and to the back otherwise. |
| Store.StoreSubscribe | src/store.js:310-315 | `subscribe` puts a new function first with `prepend` and last otherwise, keeping the others in order. Nothing but the mutation subscribers changes. |
| Store.SubscribeKeepsNoDup | src/store.js:310-315 | Subscribing never duplicates a function: an existing function leaves the list as is, and a new one is added once. |
| Store.SubscribeThenUnsubscribe | src/store.js:310-322 | The unsubscribe returned by subscribe restores the list, prepended or appended. |
| Store.UnsubscribeSplices | src/store.js:316-321 | Unsubscribing cuts out the first occurrence and keeps the order of the rest. |
| Store.UnsubscribeIdempotent | src/store.js:316-321 | Calling the unsubscribe twice is the same as calling it once. |
| Store.SubscribeAction | src/store.js:233-236 | A function is wrapped as a fresh `{ before: fn }` object; anything else is subscribed as is. A new subscriber goes to the front with `prepend` and to the back otherwise. A subscriber already present leaves the list as is. Nothing but the action subscribers and the reference counter changes. |
| Store.SubscribeActionTwice | src/store.js:233-236 | Wrapping the same function twice makes two distinct subscriptions, both kept in order. |
| Installation.ActionType | src/store.js:423-438 | Reading `action.root` throws exactly on `undefined` or `null`. The action keeps its plain key exactly when `root` is truthy or the namespace is empty. |
| Installation.MutationDecls | src/store.js:417-420 | Each mutation is registered under `namespace + key`, in key order, with the module's local context. |
| Installation.GetterDecls | src/store.js:441-444 | Each getter is registered under `namespace + key`, in key order. |
| Installation.ActionDecls | src/store.js:423-438 | Registration throws exactly when some action is `undefined` or `null`. Otherwise each action is registered under its type with its handler. |
| Installation.InstallRegistersTree | src/store.js:384-450 | Installing a tree makes exactly the registrations of a preorder walk, and changes nothing but the registries and the state. A hot install leaves the state alone. |
| Installation.InstallQualifiesMutations | src/store.js:417-420 | Every mutation of an installed module is in the list under `namespace + key`. |
| Installation.InstallQualifiesActions | src/store.js:423-438 | Every action of an installed module is in the list under `key` when `root` is set, and `namespace + key` otherwise. |
| Installation.InstallQualifiesGetters | src/store.js:441-444 | Every getter key of an installed module is registered under `namespace + key`. |
| Installation.InstallRecordsNamespace | src/store.js:389-394 | An installed namespaced module has its namespace in the namespace map. |
| Installation.ResetStoreRebuilds | src/store.js:325-343 | `resetStore` clears all four registries and reinstalls the whole tree hot. The state is kept, the local-getters cache is cleared, and nothing else changes. |
| Installation.ResetStoreIdempotent | src/store.js:325-335 | Resetting twice is resetting once. |
| Installation.NewStoreRegistersTree | src/store.js:65-99 | A new store holds the static tree built from the options and exactly the registrations of that tree. It is not committing and has no subscribers. |
| LocalContext.UnifyFixpoint | src/store.js:603-615 | Unified arguments passed on with a string type unify to themselves. |
| LocalContext.LocalCommitResolves | src/store.js:473-487 | A local commit is the global commit of `namespace + type`, or of `type` with `root` or an empty namespace. It does nothing when that type has no mutation. |
| LocalContext.LocalCommitRunsTarget | src/store.js:473-487 | A local commit that returns ran the target's handlers in order, then every subscriber, and restored `_committing`. |
| LocalContext.LocalDispatchResolves | src/store.js:457-471 | A local dispatch is the global dispatch of its target type, and does nothing when that type has no action. |
| Helpers.NormalizeNamespace | src/helpers.js:178-206 | A non-string first argument is the map, with namespace `''`. A string namespace gets exactly one trailing `/` unless it already has one. |
| Helpers.NormalizeNamespaceIdempotent | src/helpers.js:201-204 | Normalising twice is normalising once, and `''` becomes `/`. |
| Helpers.NormalizeMap | src/helpers.js:154-171 | An array maps each element to itself, in order. An object maps each own key to its value, in key order. Anything else gives `[]`. |
| Helpers.Resolve | src/helpers.js:215-221 | An empty namespace means the store itself. A registered namespace means that module's context, and an unregistered one means nothing. |
| Helpers.MappedStateReadsModuleState | src/helpers.js:15-40 | Under a registered namespace, a non-function value reads `state[val]` of that module. A function value gets the module's state and its local getters. |
| Helpers.MappedGetterQualifies | src/helpers.js:88-99 | A mapped getter reads `namespace + val` exactly when the namespace is known or empty and that getter exists. Otherwise it returns `undefined`. |
| Helpers.MissingNamespaceDoesNothing | src/helpers.js:9-135 | With an unregistered namespace, no mapped helper reads state, changes the store, commits or dispatches. |
| Helpers.MappedMutationCommitsQualified | src/helpers.js:58-72 | `mapMutations(namespace, [type])` commits exactly the handlers of `namespace + type`, then notifies the subscribers. |
| Helpers.MappedActionDispatchesQualified | src/helpers.js:118-132 | `mapActions(namespace, [type])` dispatches `namespace + type`, and does nothing when that type has no action. |
| Util.Find | src/util.js:11-13 | `find` returns the first element that passes the test, and nothing exactly when none does. |
| Util.FilterHead | src/util.js:11-13 | The head of `filter` is the first passing element. |
| Util.IsObject | src/util.js:55-57 | `isObject` holds exactly for arrays and objects: not for `null`, primitives or functions. |
| Util.Assert | src/util.js:65-67 | `assert` throws exactly when the condition is falsy, with the message `[vuex] ` + msg. |
| Util.Partial | src/util.js:70-74 | Calling the thunk is calling `fn(arg)`. |
| Util.DeepCopy | src/util.js:22-47 | Non-objects are returned as is. An array copies to an array of the same length, and an object to an object. |
| Util.DeepCopyIsIdentity | src/util.js:42-45 | On acyclic values the copy is structurally equal to the input. |
| Util.DeepCopyKeepsKeys | src/util.js:34-44 | An object's copy has the same keys in the same order. |

## Left out

- **Vue reactivity** is not modelled: `resetStoreVM` except its cache clear, the strict-mode watcher, `watch`, `replaceState`, the `state` accessors and `nextTick`. It is an external framework. `Vue.set` is modelled only as writing a property (`State.SetField`). `strict` is carried but never watched.
- **Promise settlement in `dispatch`** is left out: the wrapping in `registerAction`, `isPromise`, and the `after` and `error` action subscribers. It is asynchronous. `dispatch` is modelled up to handler selection and the calls it makes.
- **Plugins, devtools and `console` output** are left out; `console` output has no effect on the store. The `silent` option only warns.
- **Store-level `registerModule`, `unregisterModule`, `hasModule` and `hotUpdate`** are left out as store operations. Their tree and registry parts are the modelled `register`, `unregister`, `isRegistered`, `update`, `installModule` and `resetStore`.
- **`createNamespacedHelpers`** is left out; it only binds a namespace to the four helpers.
- **`forEachValue`** has no separate member: iterating a map in key order is the sequence order of `Dict.Entries`.
- **Handler bodies and getter values** are the `World` oracle, not computed. The getters object a mapped state function receives is modelled by the keys it exposes.
- **JavaScript details** are not modelled: floating-point numbers, the ordering of integer-like object keys, properties set on functions, array keys that are not canonical indices, and properties inherited from `Object.prototype`. In JavaScript, `'toString' in store.getters` is true, so `mapGetters` and `mapState` would read the inherited function where the model finds nothing. Likewise a module's `getChild('constructor')` is truthy. Writing through a function or an array with such a key is reported as `Unmodelled`.
- Util.DeepCopy: the circular-reference cache is left out. The model covers acyclic values only, and an object's identity is not observable in it.
- Installation.InstallRegistersTree: when installation throws part-way, the model returns only the error, not the partly installed store JavaScript leaves behind.
- ModuleCollection.RegisterBuilds: when a nested module fails validation, the model returns only the error. The modules already attached in JavaScript are not modelled.
- Installation.NewStoreRegistersTree: `Vue.set` writes each child's state into its parent module's own state object (src/store.js:399-409), which is shared with the module node. The model updates only the store's state tree. The `state` field of each parent module node, root or nested, keeps its declared value.
- `src/module/module.js` is not part of this model. The module node follows `myVuex/module/module.js`, plus the runtime flag and the child operations that `module-collection.js` uses.
- Modules.UpdateRaw: `myVuex/module/module.js` has no `update` method. The model follows upstream Vuex's `Module.update`: `namespaced` is always replaced, and the actions, mutations and getters maps are replaced only where the new raw module has them.
- ModuleCollection.UpdateKeepsSkeleton: when a nested module fails the raw-module assertion, the JS `update` has already changed the modules updated before it, in place. The model returns only the error and drops those partial updates.
- Store.StoreSubscribe: subscribers are compared by value, whereas `indexOf` and `splice` compare object references. Two distinct but equal functions count as one subscriber here.
- Store.CallBefores: before-hooks are modelled as non-re-entrant. A hook cannot write the state, subscribe, unsubscribe, commit or dispatch, so the copy of the subscriber list that `.slice()` takes (src/store.js:184) makes no observable difference here.
- Store.NotifySubscribersOk: mutation subscribers are modelled as non-re-entrant in the same way. "Changes nothing else" holds because a subscriber call in the model returns no store, whereas a JavaScript subscriber can write state, commit or unsubscribe.
- Store.CommitRunsHandlersThenSubscribers: the subscribers called are the list at the time of the commit. The model cannot show that this is the `.slice()` copy (src/store.js:151), because no subscriber can change the list.
- Store.RunActions, Store.RunActionThrows: an action's `context.commit` calls are folded into the state its handler returns, and the mutation handlers and subscribers they run are not logged. A mutation or action handler that writes state and then throws loses those writes, because `World` returns no state with a failure. In JavaScript, a commit made by an action before it throws synchronously stays in the state; `Store.RunActionThrows` states instead that a throwing action leaves the state unchanged.

=== FILE: base.dfy ===
/** Failure-carrying wrappers shared by every module of the model.

    JavaScript exceptions become `Failure` values: a thrown `TypeError` (a
    property read or an `in` test on `undefined`, `null` or a primitive), an
    `Error` raised by the store's own `assert` helper (its message already
    carries the `[vuex] ` prefix), or an exception escaping a user handler.
    `Unmodelled` marks a JavaScript behaviour the value model cannot express
    (own properties of arrays and functions beyond their indices).
 */
module Base {

  datatype Option<+T> = None | Some(value: T)

  datatype Error =
    | TypeError
    | VuexError(message: string)
    | HandlerThrew
    | Unmodelled

  datatype Result<+T> = Success(value: T) | Failure(error: Error)

  /** The outcome of a step that returns nothing but may throw. */
  datatype Outcome = Pass | Fail(error: Error)

  /** `s` starts with `p`. */
  predicate IsPrefix(p: string, s: string) {
    |p| <= |s| && s[..|p|] == p
  }

  /** Joins `parts` with `sep` between consecutive parts, as `Array.prototype.join`. */
  function Join(parts: seq<string>, sep: string): (r: string)
    ensures |parts| == 0 ==> r == ""
    ensures |parts| == 1 ==> r == parts[0]
  {
    if |parts| == 0 then ""
    else if |parts| == 1 then parts[0]
    else parts[0] + sep + Join(parts[1..], sep)
  }
}

=== FILE: collection.dfy ===
/** The module tree addressed by key paths: validation of raw definitions,
    lookup, namespace computation, registration, protected unregistration and
    in-place hot update. A path is a sequence of child keys from the root. */
module ModuleCollection {
  import opened Base
  import opened Js
  import Dict
  import Util
  import opened Modules

  // ---------------------------------------------------------------- validation

  datatype Kind = GettersKind | MutationsKind | ActionsKind

  function KindName(k: Kind): string {
    match k
    case GettersKind => "getters"
    case MutationsKind => "mutations"
    case ActionsKind => "actions"
  }

  function Expected(k: Kind): string {
    match k
    case ActionsKind => "function or object with \"handler\" function"
    case _ => "function"
  }

  function HandlerMap(raw: RawModule, k: Kind): Option<Dict.Entries<Value>> {
    match k
    case GettersKind => raw.getters
    case MutationsKind => raw.mutations
    case ActionsKind => raw.actions
  }

  /** The per-kind acceptance test. For actions, reading `.handler` of `null`
      (whose `typeof` is `object`) throws before the assertion can run. */
  function Accepts(k: Kind, v: Value): (r: Result<bool>)
    ensures r.Failure? <==> k == ActionsKind && v.Null?
  {
    match k
    case ActionsKind =>
      if TypeOf(v) == "function" then Success(true)
      else if TypeOf(v) == "object" then
        match GetProp(v, "handler")
        case Failure(e) => Failure(e)
        case Success(h) => Success(TypeOf(h) == "function")
      else Success(false)
    case _ => Success(TypeOf(v) == "function")
  }

  /** The part of the message naming the module: present only below the root. */
  function Location(path: seq<string>): (r: string)
    ensures r == "" <==> |path| == 0
    ensures |path| > 0 ==> IsPrefix(" in module \"", r) && r[|r| - 1] == '"'
  {
    if |path| > 0 then " in module \"" + Join(path, ".") + "\"" else ""
  }

  /** `makeAssertionMessage(path, key, type, value, expected)`. */
  function MakeAssertionMessage(path: seq<string>, key: string, typ: string, value: Value, expected: string): string {
    key + " should be " + expected + " but \"" + key + "." + typ + "\""
    + Location(path)
    + " is " + StringifiedText(value) + "."
  }

  /** Checks one handler: the test throws on its own, or the assertion
      throws with the message naming the key, the kind and the module. */
  function CheckHandler(path: seq<string>, k: Kind, key: string, v: Value): (r: Outcome)
    ensures r.Pass? <==> ValidHandler(k, v)
  {
    AcceptsValid(k, v);
    match Accepts(k, v)
    case Failure(e) => Fail(e)
    case Success(ok) => Util.Assert(Bool(ok), MakeAssertionMessage(path, KindName(k), key, v, Expected(k)))
  }

  /** The first handler from entry `i` on that fails the acceptance test,
      whether the test throws or returns false. */
  function FirstRejected(k: Kind, entries: Dict.Entries<Value>, i: nat): (r: Option<nat>)
    requires i <= |entries|
    ensures r.Some? ==> i <= r.value < |entries| && !ValidHandler(k, entries[r.value].1)
    decreases |entries| - i
  {
    if i == |entries| then None
    else if Accepts(k, entries[i].1) == Success(true) then FirstRejected(k, entries, i + 1)
    else
      AcceptsValid(k, entries[i].1);
      Some(i)
  }

  /** Checks one handler map from entry `i` on: every handler before the
      first rejected one passes, and that one throws. */
  function CheckKind(path: seq<string>, k: Kind, entries: Dict.Entries<Value>, i: nat): Outcome
    requires i <= |entries|
  {
    match FirstRejected(k, entries, i)
    case None => Pass
    case Some(j) => CheckHandler(path, k, entries[j].0, entries[j].1)
  }

  function CheckMap(path: seq<string>, raw: RawModule, k: Kind): Outcome {
    match HandlerMap(raw, k)
    case None => Pass
    case Some(entries) => CheckKind(path, k, entries, 0)
  }

  /** `assertRawModule(path, rawModule)`: getters, then mutations, then actions. */
  function AssertRawModule(path: seq<string>, raw: RawModule): Outcome {
    match CheckMap(path, raw, GettersKind)
    case Fail(e) => Fail(e)
    case Pass =>
      match CheckMap(path, raw, MutationsKind)
      case Fail(e) => Fail(e)
      case Pass => CheckMap(path, raw, ActionsKind)
  }

  /** The shape rules, stated directly: getters and mutations are functions;
      an action is a function or an object whose `handler` is a function. */
  predicate ValidHandler(k: Kind, v: Value) {
    match k
    case ActionsKind => v.Func? || (v.Obj? && match Dict.Lookup(v.fields, "handler") case Some(h) => h.Func? case None => false)
    case _ => v.Func?
  }

  /** Every handler from position `i` on has the shape `k` requires. */
  predicate ValidEntries(k: Kind, entries: Dict.Entries<Value>, i: nat)
    requires i <= |entries|
  {
    forall j :: i <= j < |entries| ==> ValidHandler(k, entries[j].1)
  }

  lemma ValidEntriesStep(k: Kind, entries: Dict.Entries<Value>, i: nat)
    requires i < |entries|
    ensures ValidEntries(k, entries, i) <==> ValidHandler(k, entries[i].1) && ValidEntries(k, entries, i + 1)
  {
  }

  predicate ValidMap(raw: RawModule, k: Kind) {
    match HandlerMap(raw, k)
    case None => true
    case Some(entries) => ValidEntries(k, entries, 0)
  }

  predicate ValidNode(raw: RawModule) {
    ValidMap(raw, GettersKind) && ValidMap(raw, MutationsKind) && ValidMap(raw, ActionsKind)
  }

  /** Every raw module of the tree passes validation. */
  predicate ValidTree(raw: RawModule)
    decreases raw
  {
    && ValidNode(raw)
    && forall i :: 0 <= i < |raw.modules| ==> ValidTree(raw.modules[i].1)
  }

  lemma {:induction false} CheckKindPasses(path: seq<string>, k: Kind, entries: Dict.Entries<Value>, i: nat)
    requires i <= |entries|
    ensures CheckKind(path, k, entries, i).Pass? <==> ValidEntries(k, entries, i)
  {
    NoneRejected(k, entries, i);
  }

  /** No handler is rejected exactly when every handler has its shape. */
  lemma {:induction false} NoneRejected(k: Kind, entries: Dict.Entries<Value>, i: nat)
    requires i <= |entries|
    ensures FirstRejected(k, entries, i).None? <==> ValidEntries(k, entries, i)
    decreases |entries| - i
  {
    if i < |entries| {
      AcceptsValid(k, entries[i].1);
      ValidEntriesStep(k, entries, i);
      NoneRejected(k, entries, i + 1);
    }
  }

  /** The acceptance test agrees with the shape rule. */
  lemma AcceptsValid(k: Kind, v: Value)
    ensures Accepts(k, v) == Success(true) <==> ValidHandler(k, v)
  {
  }

  /** Validation passes exactly when every handler has the required shape. */
  lemma AssertRawModuleAccepts(path: seq<string>, raw: RawModule)
    ensures AssertRawModule(path, raw).Pass? <==> ValidNode(raw)
  {
    forall k: Kind ensures CheckMap(path, raw, k).Pass? <==> ValidMap(raw, k) {
      if HandlerMap(raw, k).Some? {
        CheckKindPasses(path, k, HandlerMap(raw, k).value, 0);
      }
    }
  }

  // ---------------------------------------------------------------- lookup

  /** `path.slice(0, -1)`. */
  function Parent(path: seq<string>): seq<string> {
    if |path| == 0 then [] else path[..|path| - 1]
  }

  /** `path[path.length - 1]` used as a property key: `undefined` becomes the key "undefined". */
  function LastKey(path: seq<string>): string {
    if |path| == 0 then "undefined" else path[|path| - 1]
  }

  lemma ParentAndLast(path: seq<string>)
    requires |path| > 0
    ensures path == Parent(path) + [LastKey(path)]
  {
  }

  /** `get(path)`: walks children key by key from the root. A missing last key
      yields `undefined`; a missing earlier key makes the next step read
      `getChild` of `undefined` and throw. */
  function Get(root: Module, path: seq<string>): (r: Result<Option<Module>>)
    ensures |path| == 0 ==> r == Success(Some(root))
    ensures r.Failure? ==> r.error == TypeError
    decreases root
  {
    if |path| == 0 then Success(Some(root))
    else match Dict.IndexOf(root.children, path[0])
      case None => if |path| == 1 then Success(None) else Failure(TypeError)
      case Some(i) => Get(root.children[i].1, path[1..])
  }

  /** A module is registered at `path`. */
  predicate Exists(root: Module, path: seq<string>) {
    Get(root, path).Success? && Get(root, path).value.Some?
  }

  /** The module at `path`, where one is registered. */
  function At(root: Module, path: seq<string>): Module
    requires Exists(root, path)
  {
    Get(root, path).value.value
  }

  /** Looking one key further down is looking up that key among the children. */
  lemma {:induction false} GetSnoc(root: Module, path: seq<string>, key: string)
    ensures Get(root, path + [key]) ==
      match Get(root, path)
      case Failure(e) => Failure(e)
      case Success(None) => Failure(TypeError)
      case Success(Some(n)) => Success(GetChild(n, key))
    decreases root
  {
    if |path| == 0 {
      assert path + [key] == [key];
    } else {
      assert (path + [key])[1..] == path[1..] + [key];
      match Dict.IndexOf(root.children, path[0])
      case None =>
      case Some(i) => GetSnoc(root.children[i].1, path[1..], key);
    }
  }

  /** Every prefix of a registered path is registered. */
  lemma {:induction false} ExistsPrefix(root: Module, path: seq<string>, j: nat)
    requires Exists(root, path) && j <= |path|
    ensures Exists(root, path[..j])
    decreases root
  {
    if j > 0 {
      var i := Dict.IndexOf(root.children, path[0]).value;
      assert path[..j][1..] == path[1..][..j - 1];
      ExistsPrefix(root.children[i].1, path[1..], j - 1);
    }
  }

  // ---------------------------------------------------------------- namespaces

  /** The namespace segment a module under `key` contributes. */
  function Segment(m: Module, key: string): string {
    if Namespaced(m) then key + "/" else ""
  }

  /** The namespace of `path` as a right fold: each module on the path, root
      excluded, contributes `key + '/'` exactly when it is namespaced. Reading
      `namespaced` of a missing module throws. */
  function NamespaceOf(root: Module, path: seq<string>): (r: Result<string>)
    ensures r.Success? <==> Exists(root, path)
    ensures r.Failure? ==> r.error == TypeError
    ensures |path| == 0 ==> r == Success("")
    decreases root
  {
    if |path| == 0 then Success("")
    else match Dict.IndexOf(root.children, path[0])
      case None => Failure(TypeError)
      case Some(i) =>
        var c := root.children[i].1;
        match NamespaceOf(c, path[1..])
        case Failure(e) => Failure(e)
        case Success(s) => Success(Segment(c, path[0]) + s)
  }

  /** A deeper module's segment is appended whatever its ancestors declare:
      a non-namespaced ancestor does not suppress it. */
  lemma {:induction false} NamespaceOfSnoc(root: Module, path: seq<string>, key: string)
    requires Exists(root, path + [key])
    ensures Exists(root, path)
    ensures NamespaceOf(root, path + [key]) ==
      Success(NamespaceOf(root, path).value + Segment(At(root, path + [key]), key))
    decreases root
  {
    GetSnoc(root, path, key);
    if |path| == 0 {
      assert path + [key] == [key];
      NamespaceOfSingle(root, key);
      assert "" + Segment(At(root, [key]), key) == Segment(At(root, [key]), key);
    } else {
      var q := path + [key];
      assert q[0] == path[0] && q[1..] == path[1..] + [key];
      var i := NamespaceUnfold(root, q);
      var c := root.children[i].1;
      NamespaceOfSnoc(c, path[1..], key);
      var i' := NamespaceUnfold(root, path);
      var seg, rest, last := Segment(c, path[0]), NamespaceOf(c, path[1..]).value, Segment(At(root, q), key);
      assert seg + (rest + last) == (seg + rest) + last;
    }
  }

  /** One step of the namespace walk: the first child's segment, then the
      namespace of the rest of the path inside that child. */
  lemma NamespaceUnfold(root: Module, path: seq<string>) returns (i: nat)
    requires Exists(root, path) && |path| > 0
    ensures Dict.IndexOf(root.children, path[0]) == Some(i) && i < |root.children|
    ensures Exists(root.children[i].1, path[1..])
    ensures At(root, path) == At(root.children[i].1, path[1..])
    ensures NamespaceOf(root, path)
      == Success(Segment(root.children[i].1, path[0]) + NamespaceOf(root.children[i].1, path[1..]).value)
  {
    i := Dict.IndexOf(root.children, path[0]).value;
  }

  /** A top-level module's namespace is its own segment. */
  lemma NamespaceOfSingle(root: Module, key: string)
    requires Exists(root, [key])
    ensures NamespaceOf(root, [key]) == Success(Segment(At(root, [key]), key))
  {
    var i := NamespaceUnfold(root, [key]);
    assert [key][1..] == [];
    assert Segment(root.children[i].1, key) + "" == Segment(root.children[i].1, key);
  }

  /** The namespace is empty exactly when no module on the path is namespaced. */
  lemma {:induction false} NamespaceEmptyIff(root: Module, path: seq<string>)
    requires Exists(root, path)
    ensures NamespaceOf(root, path) == Success("") <==>
      forall j :: 1 <= j <= |path| ==> Exists(root, path[..j]) && !Namespaced(At(root, path[..j]))
    decreases |path|
  {
    if |path| > 0 {
      var p, k := path[..|path| - 1], path[|path| - 1];
      assert path == p + [k];
      NamespaceOfSnoc(root, p, k);
      NamespaceEmptyIff(root, p);
      var last := Segment(At(root, path), k);
      assert last == "" <==> !Namespaced(At(root, path));
      var before := NamespaceOf(root, p).value;
      assert before + last == "" <==> before == "" && last == "" by {
        if before + last == "" { assert |before + last| == 0; }
      }
      forall j | 1 <= j <= |path| ensures Exists(root, path[..j]) { ExistsPrefix(root, path, j); }
      assert path[..|path|] == path;
      forall j | 1 <= j <= |p| ensures path[..j] == p[..j] { }
    }
  }

  /** `getNamespace(path)`: a left-to-right reduce that reads `namespaced` of
      each module it walks into. */
  method GetNamespace(root: Module, path: seq<string>) returns (r: Result<string>)
    ensures r == NamespaceOf(root, path)
  {
    var node := root;
    var namespace := "";
    var i := 0;
    while i < |path|
      invariant 0 <= i <= |path|
      invariant Exists(root, path[..i]) && node == At(root, path[..i])
      invariant NamespaceOf(root, path[..i]) == Success(namespace)
    {
      GetSnoc(root, path[..i], path[i]);
      assert path[..i + 1] == path[..i] + [path[i]];
      var child := GetChild(node, path[i]);
      if child.None? {
        NotExistsExtension(root, path, i + 1);
        return Failure(TypeError);
      }
      node := child.value;
      NamespaceOfSnoc(root, path[..i], path[i]);
      namespace := namespace + Segment(node, path[i]);
      i := i + 1;
    }
    assert path[..i] == path;
    r := Success(namespace);
  }

  /** A path that passes through a missing module is not registered. */
  lemma NotExistsExtension(root: Module, path: seq<string>, j: nat)
    requires j <= |path| && !Exists(root, path[..j])
    ensures !Exists(root, path)
  {
    if Exists(root, path) {
      ExistsPrefix(root, path, j);
    }
  }

  // ---------------------------------------------------------------- editing

  /** The tree with the module at `path` replaced by `x`: an in-place change to
      one node seen from the root. Fails where `get(path)` finds nothing. */
  function Replace(root: Module, path: seq<string>, x: Module): (r: Result<Module>)
    ensures r.Success? <==> Exists(root, path)
    ensures r.Failure? ==> r.error == TypeError
    decreases root
  {
    if |path| == 0 then Success(x)
    else match Dict.IndexOf(root.children, path[0])
      case None => Failure(TypeError)
      case Some(i) =>
        match Replace(root.children[i].1, path[1..], x)
        case Failure(e) => Failure(e)
        case Success(c) => Success(root.(children := root.children[i := (path[0], c)]))
  }

  /** After a replacement the new module is found at its path. */
  lemma {:induction false} ReplaceThenGet(root: Module, path: seq<string>, x: Module)
    requires Exists(root, path)
    ensures Exists(Replace(root, path, x).value, path)
    ensures At(Replace(root, path, x).value, path) == x
    decreases root
  {
    if |path| > 0 {
      var i := Dict.IndexOf(root.children, path[0]).value;
      var c := Replace(root.children[i].1, path[1..], x).value;
      var cs := root.children[i := (path[0], c)];
      Dict.IndexOfSameKeys(cs, root.children, path[0]);
      ReplaceThenGet(root.children[i].1, path[1..], x);
    }
  }

  /** Replacing a module by itself changes nothing. */
  lemma {:induction false} ReplaceSame(root: Module, path: seq<string>)
    requires Exists(root, path)
    ensures Replace(root, path, At(root, path)) == Success(root)
    decreases root
  {
    if |path| > 0 {
      var i := Dict.IndexOf(root.children, path[0]).value;
      ReplaceSame(root.children[i].1, path[1..]);
      assert root.children[i := (path[0], root.children[i].1)] == root.children;
    }
  }

  /** A second replacement at the same path overrides the first. */
  lemma {:induction false} ReplaceTwice(root: Module, path: seq<string>, x: Module, y: Module)
    requires Exists(root, path)
    ensures Exists(Replace(root, path, x).value, path)
    ensures Replace(Replace(root, path, x).value, path, y) == Replace(root, path, y)
    decreases root
  {
    ReplaceThenGet(root, path, x);
    if |path| > 0 {
      var i := ReplaceUnfold(root, path, x);
      var child := root.children[i].1;
      var c := Replace(child, path[1..], x).value;
      var root' := root.(children := root.children[i := (path[0], c)]);
      ReplaceTwice(child, path[1..], x, y);
      Dict.IndexOfUpdate(root.children, i, c, path[0]);
      var i' := ReplaceUnfold(root', path, y);
      var i'' := ReplaceUnfold(root, path, y);
      assert root'.children[i := (path[0], Replace(child, path[1..], y).value)]
          == root.children[i := (path[0], Replace(child, path[1..], y).value)];
    }
  }

  /** One step of a replacement: the child under the first key is replaced
      along the rest of the path and written back. */
  lemma ReplaceUnfold(root: Module, path: seq<string>, x: Module) returns (i: nat)
    requires Exists(root, path) && |path| > 0
    ensures Dict.IndexOf(root.children, path[0]) == Some(i) && i < |root.children| && root.children[i].0 == path[0]
    ensures Exists(root.children[i].1, path[1..])
    ensures Replace(root, path, x)
      == Success(root.(children := root.children[i := (path[0], Replace(root.children[i].1, path[1..], x).value)]))
  {
    i := Dict.IndexOf(root.children, path[0]).value;
  }

  /** Paths that diverge from the edited one still find exactly what they found before. */
  lemma {:induction false} ReplaceFrame(root: Module, path: seq<string>, x: Module, q: seq<string>, j: nat)
    requires Exists(root, path)
    requires j < |path| && j < |q| && q[..j] == path[..j] && q[j] != path[j]
    ensures Get(Replace(root, path, x).value, q) == Get(root, q)
    decreases root
  {
    if j > 0 {
      assert q[0] == path[..j][0];
      assert q[1..][..j - 1] == path[1..][..j - 1];
      var i := ReplaceDescends(root, path, x, q);
      ReplaceFrame(root.children[i].1, path[1..], x, q[1..], j - 1);
    } else {
      ReplaceFrameHere(root, path, x, q);
    }
  }

  /** Replacing under the first key of `path` and then reading any path that
      starts with the same key is reading inside the replaced child. */
  lemma ReplaceDescends(root: Module, path: seq<string>, x: Module, q: seq<string>) returns (i: nat)
    requires Exists(root, path) && 0 < |path| && 0 < |q| && q[0] == path[0]
    ensures Dict.IndexOf(root.children, path[0]) == Some(i) && i < |root.children|
    ensures Exists(root.children[i].1, path[1..])
    ensures Get(root, q) == Get(root.children[i].1, q[1..])
    ensures Get(Replace(root, path, x).value, q) == Get(Replace(root.children[i].1, path[1..], x).value, q[1..])
  {
    i := Dict.IndexOf(root.children, path[0]).value;
    var c := Replace(root.children[i].1, path[1..], x).value;
    Dict.IndexOfUpdate(root.children, i, c, q[0]);
  }

  /** Replacing under one key leaves every path through another key as it was. */
  lemma ReplaceFrameHere(root: Module, path: seq<string>, x: Module, q: seq<string>)
    requires Exists(root, path) && 0 < |path| && 0 < |q| && q[0] != path[0]
    ensures Get(Replace(root, path, x).value, q) == Get(root, q)
  {
    var i := Dict.IndexOf(root.children, path[0]).value;
    var c := Replace(root.children[i].1, path[1..], x).value;
    var root' := root.(children := root.children[i := (path[0], c)]);
    assert Replace(root, path, x) == Success(root');
    Dict.IndexOfUpdate(root.children, i, c, q[0]);
    match Dict.IndexOf(root.children, q[0])
    case None =>
    case Some(l) => assert root'.children[l] == root.children[l];
  }

  /** Replacing deep inside a module is replacing that module by its edited copy. */
  lemma {:induction false} ReplaceNested(root: Module, p: seq<string>, q: seq<string>, y: Module)
    requires Exists(root, p) && Exists(At(root, p), q)
    ensures Exists(root, p + q)
    ensures Replace(root, p + q, y) == Replace(root, p, Replace(At(root, p), q, y).value)
    decreases root
  {
    if |p| == 0 {
      assert p + q == q;
    } else {
      var i := Dict.IndexOf(root.children, p[0]).value;
      assert (p + q)[1..] == p[1..] + q;
      ReplaceNested(root.children[i].1, p[1..], q, y);
    }
  }

  // ---------------------------------------------------------------- registration

  /** `parent.addChild(path[last], x)` on the parent found by `get(path.slice(0, -1))`;
      the empty path makes `x` the root. */
  function Attach(root: Module, path: seq<string>, x: Module): Result<Module>
    requires |path| > 0
  {
    match Get(root, Parent(path))
    case Failure(e) => Failure(e)
    case Success(None) => Failure(TypeError)
    case Success(Some(parent)) => Replace(root, Parent(path), AddChild(parent, LastKey(path), x))
  }

  /** After attaching, the new module is found at `path`, and the parent's other
      children are untouched. */
  lemma AttachThenGet(root: Module, path: seq<string>, x: Module)
    requires |path| > 0 && Exists(root, Parent(path))
    ensures Attach(root, path, x).Success?
    ensures Exists(Attach(root, path, x).value, path) && At(Attach(root, path, x).value, path) == x
    ensures Exists(Attach(root, path, x).value, Parent(path))
    ensures At(Attach(root, path, x).value, Parent(path)) == AddChild(At(root, Parent(path)), LastKey(path), x)
  {
    var parent := At(root, Parent(path));
    var added := AddChild(parent, LastKey(path), x);
    ReplaceThenGet(root, Parent(path), added);
    var t := Replace(root, Parent(path), added).value;
    assert Attach(root, path, x) == Success(t);
    ParentAndLast(path);
    GetSnoc(t, Parent(path), LastKey(path));
    assert GetChild(added, LastKey(path)) == Some(x);
  }

  /** `register(path, rawModule, runtime)`: validate, build the node, attach it
      (or make it the root), then register each nested raw module under
      `path + [key]` with the same `runtime` flag. `root` is `None` while the
      collection is being constructed. */
  function Register(root: Option<Module>, path: seq<string>, raw: RawModule, runtime: bool, invoke: nat -> Value): Result<Module>
    decreases raw, 1
  {
    match AssertRawModule(path, raw)
    case Fail(e) => Failure(e)
    case Pass =>
      var m := NewModule(raw, runtime, invoke);
      var attached :=
        if |path| == 0 then Success(m)
        else if root.None? then Failure(TypeError)
        else Attach(root.value, path, m);
      match attached
      case Failure(e) => Failure(e)
      case Success(t) => RegisterChildren(t, path, raw, 0, runtime, invoke)
  }

  function RegisterChildren(t: Module, path: seq<string>, raw: RawModule, i: nat, runtime: bool, invoke: nat -> Value): Result<Module>
    requires i <= |raw.modules|
    decreases raw, 0, |raw.modules| - i
  {
    if i == |raw.modules| then Success(t)
    else match Register(Some(t), path + [raw.modules[i].0], raw.modules[i].1, runtime, invoke)
      case Failure(e) => Failure(e)
      case Success(t') => RegisterChildren(t', path, raw, i + 1, runtime, invoke)
  }

  /** The built node for `raw` with only its first `i` children attached. */
  function PartlyBuilt(raw: RawModule, i: nat, runtime: bool, invoke: nat -> Value): Module
    requires i <= |raw.modules|
  {
    var b := Build(raw, runtime, invoke);
    b.(children := b.children[..i])
  }

  /** Registration of a valid raw tree places exactly the tree `Build` denotes at
      `path`: the root when the path is empty, otherwise a new child of the
      parent, replacing any child under the same key. */
  lemma {:induction false} RegisterBuilds(root: Option<Module>, path: seq<string>, raw: RawModule, runtime: bool, invoke: nat -> Value)
    requires WellFormedRaw(raw) && ValidTree(raw)
    requires |path| > 0 ==> root.Some? && Exists(root.value, Parent(path))
    ensures |path| == 0 ==> Register(root, path, raw, runtime, invoke) == Success(Build(raw, runtime, invoke))
    ensures |path| > 0 ==> Register(root, path, raw, runtime, invoke) == Attach(root.value, path, Build(raw, runtime, invoke))
    decreases raw, 1
  {
    AssertRawModuleAccepts(path, raw);
    var m := NewModule(raw, runtime, invoke);
    var b := Build(raw, runtime, invoke);
    assert m == PartlyBuilt(raw, 0, runtime, invoke);
    if |path| == 0 {
      assert Register(root, path, raw, runtime, invoke) == RegisterChildren(m, path, raw, 0, runtime, invoke);
      RegisterChildrenBuilds(m, path, raw, 0, runtime, invoke);
    } else {
      var r := root.value;
      AttachThenGet(r, path, m);
      var t := Attach(r, path, m).value;
      assert Register(root, path, raw, runtime, invoke) == RegisterChildren(t, path, raw, 0, runtime, invoke);
      RegisterChildrenBuilds(t, path, raw, 0, runtime, invoke);
      AttachTwice(r, path, m, b);
    }
  }

  /** Replacing a freshly attached module is attaching the replacement directly. */
  lemma AttachTwice(root: Module, path: seq<string>, m: Module, b: Module)
    requires |path| > 0 && Exists(root, Parent(path))
    ensures Attach(root, path, m).Success?
    ensures Replace(Attach(root, path, m).value, path, b) == Attach(root, path, b)
  {
    var parent := At(root, Parent(path));
    var last := LastKey(path);
    var pm := AddChild(parent, last, m);
    AttachThenGet(root, path, m);
    var t := Attach(root, path, m).value;
    assert t == Replace(root, Parent(path), pm).value;
    ParentAndLast(path);
    ReplaceLastIsAdd(parent, last, m, b);
    ReplaceNested(t, Parent(path), [last], b);
    ReplaceTwice(root, Parent(path), pm, AddChild(parent, last, b));
  }

  /** Replacing an existing child directly below a module is `addChild` over it. */
  lemma ReplaceLastIsAdd(parent: Module, key: string, m: Module, b: Module)
    ensures Exists(AddChild(parent, key, m), [key])
    ensures Replace(AddChild(parent, key, m), [key], b) == Success(AddChild(parent, key, b))
  {
    var pm := AddChild(parent, key, m);
    Dict.PutOverwrite(parent.children, key, m, b);
    var i := Dict.IndexOf(pm.children, key).value;
    assert [key][1..] == [];
    assert Replace(pm.children[i].1, [], b) == Success(b);
    assert Replace(pm, [key], b) == Success(pm.(children := pm.children[i := (key, b)]));
  }

  /** Attaching one key below an existing module adds the child there. */
  lemma AttachUnder(t: Module, path: seq<string>, k: string, x: Module)
    requires Exists(t, path)
    ensures Parent(path + [k]) == path
    ensures Attach(t, path + [k], x) == Replace(t, path, AddChild(At(t, path), k, x))
  {
    assert Parent(path + [k]) == path;
    assert LastKey(path + [k]) == k;
  }

  /** The key of child `i` is fresh among the first `i` children, so
      `addChild` appends it: one more child of the full build is in place. */
  lemma PartlyBuiltGrows(raw: RawModule, i: nat, runtime: bool, invoke: nat -> Value)
    requires WellFormedRaw(raw) && i < |raw.modules|
    ensures AddChild(PartlyBuilt(raw, i, runtime, invoke), raw.modules[i].0, Build(raw.modules[i].1, runtime, invoke))
         == PartlyBuilt(raw, i + 1, runtime, invoke)
  {
    var b := Build(raw, runtime, invoke);
    PartlyBuiltFresh(raw, i, runtime, invoke);
    BuildChildAt(raw, 0, i, runtime, invoke);
    AddChildTake(b, i);
  }

  /** Adding child `i` under its own key, when that key is not among the
      first `i`, extends the first `i` children to the first `i + 1`. */
  lemma AddChildTake(b: Module, i: nat)
    requires i < |b.children|
    requires !HasChild(b.(children := b.children[..i]), b.children[i].0)
    ensures AddChild(b.(children := b.children[..i]), b.children[i].0, b.children[i].1) == b.(children := b.children[..i + 1])
  {
    assert b.children[..i + 1] == b.children[..i] + [b.children[i]];
  }

  lemma PartlyBuiltFresh(raw: RawModule, i: nat, runtime: bool, invoke: nat -> Value)
    requires WellFormedRaw(raw) && i < |raw.modules|
    ensures !HasChild(PartlyBuilt(raw, i, runtime, invoke), raw.modules[i].0)
  {
    var n := PartlyBuilt(raw, i, runtime, invoke);
    forall j | 0 <= j < |n.children| ensures n.children[j].0 != raw.modules[i].0 {
      assert n.children[j].0 == raw.modules[j].0;
    }
  }

  lemma {:induction false} RegisterChildrenBuilds(t: Module, path: seq<string>, raw: RawModule, i: nat, runtime: bool, invoke: nat -> Value)
    requires WellFormedRaw(raw) && ValidTree(raw)
    requires i <= |raw.modules|
    requires Exists(t, path) && At(t, path) == PartlyBuilt(raw, i, runtime, invoke)
    ensures RegisterChildren(t, path, raw, i, runtime, invoke) == Replace(t, path, Build(raw, runtime, invoke))
    decreases raw, 0, |raw.modules| - i
  {
    var b := Build(raw, runtime, invoke);
    if i == |raw.modules| {
      assert b.children[..i] == b.children;
      ReplaceSame(t, path);
    } else {
      var k := raw.modules[i].0;
      var child := raw.modules[i].1;
      var cb := Build(child, runtime, invoke);
      var n := PartlyBuilt(raw, i, runtime, invoke);
      AttachUnder(t, path, k, cb);
      RegisterBuilds(Some(t), path + [k], child, runtime, invoke);
      PartlyBuiltGrows(raw, i, runtime, invoke);
      var t' := Replace(t, path, AddChild(n, k, cb)).value;
      ReplaceThenGet(t, path, AddChild(n, k, cb));
      RegisterChildrenBuilds(t', path, raw, i + 1, runtime, invoke);
      ReplaceTwice(t, path, AddChild(n, k, cb), b);
    }
  }

  /** Registration of a tree with a malformed handler anywhere fails. */
  lemma {:induction false} RegisterRejectsInvalid(root: Option<Module>, path: seq<string>, raw: RawModule, runtime: bool, invoke: nat -> Value)
    requires !ValidTree(raw)
    ensures Register(root, path, raw, runtime, invoke).Failure?
    decreases raw, 1
  {
    AssertRawModuleAccepts(path, raw);
    if ValidNode(raw) {
      var j :| 0 <= j < |raw.modules| && !ValidTree(raw.modules[j].1);
      var m := NewModule(raw, runtime, invoke);
      var attached :=
        if |path| == 0 then Success(m)
        else if root.None? then Failure(TypeError)
        else Attach(root.value, path, m);
      if attached.Success? {
        RegisterChildrenRejects(attached.value, path, raw, 0, j, runtime, invoke);
      }
    }
  }

  lemma {:induction false} RegisterChildrenRejects(t: Module, path: seq<string>, raw: RawModule, i: nat, j: nat, runtime: bool, invoke: nat -> Value)
    requires i <= j < |raw.modules| && !ValidTree(raw.modules[j].1)
    ensures RegisterChildren(t, path, raw, i, runtime, invoke).Failure?
    decreases raw, 0, |raw.modules| - i
  {
    var r := Register(Some(t), path + [raw.modules[i].0], raw.modules[i].1, runtime, invoke);
    assert r.Failure? ==> RegisterChildren(t, path, raw, i, runtime, invoke).Failure?;
    if i == j {
      RegisterRejectsInvalid(Some(t), path + [raw.modules[i].0], raw.modules[i].1, runtime, invoke);
    } else if r.Success? {
      RegisterChildrenRejects(r.value, path, raw, i + 1, j, runtime, invoke);
      assert RegisterChildren(t, path, raw, i, runtime, invoke) == RegisterChildren(r.value, path, raw, i + 1, runtime, invoke);
    }
  }

  /** `new ModuleCollection(rawRootModule)`: registers the root with `runtime = false`. */
  function NewCollection(raw: RawModule, invoke: nat -> Value): Result<Module> {
    Register(None, [], raw, false, invoke)
  }

  /** A valid options tree yields exactly its built tree, and every statically
      declared module is non-runtime, so none can be unregistered later. */
  lemma NewCollectionIsStatic(raw: RawModule, invoke: nat -> Value)
    requires WellFormedRaw(raw) && ValidTree(raw)
    ensures NewCollection(raw, invoke) == Success(Build(raw, false, invoke))
    ensures AllRuntime(NewCollection(raw, invoke).value, false)
    ensures WellFormedTree(NewCollection(raw, invoke).value)
  {
    RegisterBuilds(None, [], raw, false, invoke);
    BuildShape(raw, false, invoke);
  }

  // ---------------------------------------------------------------- unregistration

  /** The child `unregister` and `isRegistered` look at: `LastKey(path)` of
      the module at `Parent(path)`. */
  function Target(root: Module, path: seq<string>): Option<Module>
    requires Exists(root, Parent(path))
  {
    GetChild(At(root, Parent(path)), LastKey(path))
  }

  /** For a non-empty path, the target is the module registered at `path`. */
  lemma TargetIsAt(root: Module, path: seq<string>)
    requires |path| > 0 && Exists(root, Parent(path))
    ensures Exists(root, path) <==> Target(root, path).Some?
    ensures Exists(root, path) ==> Target(root, path) == Some(At(root, path))
  {
    ParentAndLast(path);
    GetSnoc(root, Parent(path), LastKey(path));
  }

  /** `unregister(path)`: a no-op when the child is absent or was not
      registered at runtime; otherwise the parent loses exactly that key.
      Reading `getChild` of a missing parent throws. */
  function Unregister(root: Module, path: seq<string>): (r: Result<Module>)
    ensures r.Success? <==> Exists(root, Parent(path))
    ensures r.Success? && !(Target(root, path).Some? && Target(root, path).value.runtime) ==> r.value == root
    ensures r.Success? && Target(root, path).Some? && Target(root, path).value.runtime ==>
      && Exists(r.value, Parent(path))
      && At(r.value, Parent(path)) == RemoveChild(At(root, Parent(path)), LastKey(path))
  {
    var key := LastKey(path);
    match Get(root, Parent(path))
    case Failure(e) => Failure(e)
    case Success(None) => Failure(TypeError)
    case Success(Some(parent)) =>
      match GetChild(parent, key)
      case None => Success(root)
      case Some(child) =>
        if !child.runtime then Success(root)
        else
          ReplaceThenGet(root, Parent(path), RemoveChild(parent, key));
          Replace(root, Parent(path), RemoveChild(parent, key))
  }

  /** Unregistering a runtime module removes it, and paths that leave the
      parent's subtree before reaching it find what they found before. A
      statically declared module is never removed. */
  lemma UnregisterRemovesOnlyTarget(root: Module, path: seq<string>, q: seq<string>, j: nat)
    requires |path| > 0 && Exists(root, path)
    ensures Unregister(root, path).Success?
    ensures !At(root, path).runtime ==> Unregister(root, path).value == root
    ensures At(root, path).runtime ==> !Exists(Unregister(root, path).value, path)
    ensures At(root, path).runtime && j < |path| - 1 && j < |q| && q[..j] == path[..j] && q[j] != path[j] ==>
      Get(Unregister(root, path).value, q) == Get(root, q)
  {
    ExistsPrefix(root, path, |path| - 1);
    TargetIsAt(root, path);
    if At(root, path).runtime {
      var parent := At(root, Parent(path));
      var removed := RemoveChild(parent, LastKey(path));
      var t := Unregister(root, path).value;
      assert t == Replace(root, Parent(path), removed).value;
      TargetIsAt(t, path);
      if j < |path| - 1 && j < |q| && q[..j] == path[..j] && q[j] != path[j] {
        assert q[..j] == Parent(path)[..j];
        ReplaceFrame(root, Parent(path), removed, q, j);
      }
    }
  }

  /** `isRegistered(path)`: `false` when the parent lookup yields nothing. */
  function IsRegistered(root: Module, path: seq<string>): Result<bool> {
    match Get(root, Parent(path))
    case Failure(e) => Failure(e)
    case Success(None) => Success(false)
    case Success(Some(parent)) => Success(HasChild(parent, LastKey(path)))
  }

  /** For a non-empty path, `isRegistered` answers `true` exactly when `get`
      finds a module there, and it throws only where `get` finds none. For the
      root path, `path[-1]` is `undefined`, so the root is asked for a child
      under the key "undefined". */
  lemma IsRegisteredIffExists(root: Module, path: seq<string>)
    ensures |path| > 0 ==> (IsRegistered(root, path) == Success(true) <==> Exists(root, path))
    ensures |path| > 0 && IsRegistered(root, path).Failure? ==> !Exists(root, path)
    ensures |path| == 0 ==> IsRegistered(root, path) == Success(HasChild(root, "undefined"))
  {
    if |path| > 0 {
      ParentAndLast(path);
      GetSnoc(root, Parent(path), LastKey(path));
    }
  }

  // ---------------------------------------------------------------- hot update

  /** `update(path, targetModule, newModule)`: validate, update the node in
      place, then walk the new nested modules in key order; at the first key
      the live tree lacks, the whole walk returns, so later keys are skipped. */
  function UpdateNode(path: seq<string>, target: Module, raw: RawModule): Result<Module>
    decreases raw, 1
  {
    match AssertRawModule(path, raw)
    case Fail(e) => Failure(e)
    case Pass => UpdateChildren(path, UpdateRaw(target, raw), raw, 0)
  }

  function UpdateChildren(path: seq<string>, t: Module, raw: RawModule, i: nat): Result<Module>
    requires i <= |raw.modules|
    decreases raw, 0, |raw.modules| - i
  {
    if i == |raw.modules| then Success(t)
    else
      var key := raw.modules[i].0;
      match Dict.IndexOf(t.children, key)
      case None => Success(t)
      case Some(j) =>
        match UpdateNode(path + [key], t.children[j].1, raw.modules[i].1)
        case Failure(e) => Failure(e)
        case Success(c) => UpdateChildren(path, t.(children := t.children[j := (key, c)]), raw, i + 1)
  }

  /** `update(rawRootModule)` of the collection. */
  function Update(root: Module, raw: RawModule): Result<Module> {
    UpdateNode([], root, raw)
  }

  /** A hot update never adds or removes modules and leaves every node's state
      and runtime flag as they were. */
  lemma {:induction false} UpdateKeepsSkeleton(path: seq<string>, target: Module, raw: RawModule)
    requires UpdateNode(path, target, raw).Success?
    ensures SkeletonOf(UpdateNode(path, target, raw).value) == SkeletonOf(target)
    decreases raw, 1
  {
    UpdateChildrenKeepsSkeleton(path, UpdateRaw(target, raw), raw, 0);
    assert SkeletonOf(UpdateRaw(target, raw)) == SkeletonOf(target) by {
      SkeletonChildrenSame(UpdateRaw(target, raw), target, 0);
    }
  }

  lemma {:induction false} SkeletonChildrenSame(a: Module, b: Module, i: nat)
    requires a.children == b.children && i <= |a.children|
    ensures SkeletonChildren(a, i) == SkeletonChildren(b, i)
    decreases |a.children| - i
  {
    if i < |a.children| {
      SkeletonChildrenSame(a, b, i + 1);
    }
  }

  lemma {:induction false} UpdateChildrenKeepsSkeleton(path: seq<string>, t: Module, raw: RawModule, i: nat)
    requires i <= |raw.modules|
    requires UpdateChildren(path, t, raw, i).Success?
    ensures SkeletonOf(UpdateChildren(path, t, raw, i).value) == SkeletonOf(t)
    decreases raw, 0, |raw.modules| - i
  {
    if i < |raw.modules| {
      var key := raw.modules[i].0;
      match Dict.IndexOf(t.children, key)
      case None =>
      case Some(j) =>
        var c := UpdateNode(path + [key], t.children[j].1, raw.modules[i].1).value;
        UpdateKeepsSkeleton(path + [key], t.children[j].1, raw.modules[i].1);
        var t' := t.(children := t.children[j := (key, c)]);
        SkeletonReplaceChild(t, j, c);
        UpdateChildrenKeepsSkeleton(path, t', raw, i + 1);
    }
  }

  /** Swapping one child for another with the same skeleton keeps the parent's skeleton. */
  lemma SkeletonReplaceChild(t: Module, j: nat, c: Module)
    requires j < |t.children| && SkeletonOf(c) == SkeletonOf(t.children[j].1)
    ensures SkeletonOf(t.(children := t.children[j := (t.children[j].0, c)])) == SkeletonOf(t)
  {
    var t' := t.(children := t.children[j := (t.children[j].0, c)]);
    forall i | 0 <= i <= |t.children| ensures SkeletonChildren(t', i) == SkeletonChildren(t, i) {
      SkeletonChildrenFrom(t', t, i);
    }
  }

  lemma {:induction false} SkeletonChildrenFrom(a: Module, b: Module, i: nat)
    requires |a.children| == |b.children| && i <= |a.children|
    requires forall l :: 0 <= l < |a.children| ==>
      a.children[l].0 == b.children[l].0 && SkeletonOf(a.children[l].1) == SkeletonOf(b.children[l].1)
    ensures SkeletonChildren(a, i) == SkeletonChildren(b, i)
    decreases |a.children| - i
  {
    if i < |a.children| {
      SkeletonChildrenFrom(a, b, i + 1);
    }
  }

  /** Every new nested key from `i` up to, not including, `n` names a child
      of the live module. */
  predicate PresentBetween(t: Module, raw: RawModule, i: nat, n: nat)
    requires n <= |raw.modules|
  {
    forall l :: i <= l < n ==> HasChild(t, raw.modules[l].0)
  }

  /** Writing the child found first under its key: that key now reads `c`,
      every other key reads as before, and no key appears or disappears. */
  lemma ChildAfterSet(t: Module, j: nat, c: Module, k: string)
    requires j < |t.children| && Dict.IndexOf(t.children, t.children[j].0) == Some(j)
    ensures var t' := t.(children := t.children[j := (t.children[j].0, c)]);
      && (HasChild(t', k) <==> HasChild(t, k))
      && GetChild(t', k) == if k == t.children[j].0 then Some(c) else GetChild(t, k)
  {
    Dict.IndexOfUpdate(t.children, j, c, k);
  }

  lemma {:induction false} UpdateChildrenApplies(path: seq<string>, t: Module, raw: RawModule, i: nat)
    requires i <= |raw.modules| && Dict.Distinct(raw.modules)
    requires UpdateChildren(path, t, raw, i).Success?
    ensures var r := UpdateChildren(path, t, raw, i).value;
      r.raw == t.raw && r.state == t.state && r.runtime == t.runtime
    ensures var r := UpdateChildren(path, t, raw, i).value;
      forall k :: (forall l :: i <= l < |raw.modules| ==> raw.modules[l].0 != k) ==> GetChild(r, k) == GetChild(t, k)
    ensures var r := UpdateChildren(path, t, raw, i).value;
      forall l :: i <= l < |raw.modules| && PresentBetween(t, raw, i, l + 1) ==>
        && GetChild(t, raw.modules[l].0).Some?
        && UpdateNode(path + [raw.modules[l].0], GetChild(t, raw.modules[l].0).value, raw.modules[l].1).Success?
        && GetChild(r, raw.modules[l].0)
           == Some(UpdateNode(path + [raw.modules[l].0], GetChild(t, raw.modules[l].0).value, raw.modules[l].1).value)
  {
    UpdateChildrenKeeps(path, t, raw, i, "");
    forall k | (forall l :: i <= l < |raw.modules| ==> raw.modules[l].0 != k)
      ensures GetChild(UpdateChildren(path, t, raw, i).value, k) == GetChild(t, k)
    {
      UpdateChildrenKeeps(path, t, raw, i, k);
    }
    forall l | i <= l < |raw.modules| && PresentBetween(t, raw, i, l + 1)
      ensures && GetChild(t, raw.modules[l].0).Some?
        && UpdateNode(path + [raw.modules[l].0], GetChild(t, raw.modules[l].0).value, raw.modules[l].1).Success?
        && GetChild(UpdateChildren(path, t, raw, i).value, raw.modules[l].0)
           == Some(UpdateNode(path + [raw.modules[l].0], GetChild(t, raw.modules[l].0).value, raw.modules[l].1).value)
    {
      UpdateChildrenAt(path, t, raw, i, l);
    }
  }

  /** A successful walk from `i` keeps the node's own fields, and the child
      under a key that no entry from `i` on names. */
  lemma {:induction false} UpdateChildrenKeeps(path: seq<string>, t: Module, raw: RawModule, i: nat, k: string)
    requires i <= |raw.modules|
    requires UpdateChildren(path, t, raw, i).Success?
    ensures var r := UpdateChildren(path, t, raw, i).value;
      r.raw == t.raw && r.state == t.state && r.runtime == t.runtime
    ensures (forall l :: i <= l < |raw.modules| ==> raw.modules[l].0 != k) ==>
      GetChild(UpdateChildren(path, t, raw, i).value, k) == GetChild(t, k)
    decreases |raw.modules| - i
  {
    if i < |raw.modules| {
      if !HasChild(t, raw.modules[i].0) {
        UpdateChildrenMissing(path, t, raw, i);
      } else {
        var j, c := UpdateChildrenPresent(path, t, raw, i);
        UpdateChildrenKeeps(path, t.(children := t.children[j := (raw.modules[i].0, c)]), raw, i + 1, k);
        ChildAfterSet(t, j, c, k);
      }
    }
  }

  /** A successful walk from `i` updates the child under the key at `l` from
      its new definition, provided the live tree has every key from `i`
      through `l`. */
  lemma {:induction false} UpdateChildrenAt(path: seq<string>, t: Module, raw: RawModule, i: nat, l: nat)
    requires i <= l < |raw.modules| && Dict.Distinct(raw.modules)
    requires PresentBetween(t, raw, i, l + 1)
    requires UpdateChildren(path, t, raw, i).Success?
    ensures GetChild(t, raw.modules[l].0).Some?
    ensures UpdateNode(path + [raw.modules[l].0], GetChild(t, raw.modules[l].0).value, raw.modules[l].1).Success?
    ensures GetChild(UpdateChildren(path, t, raw, i).value, raw.modules[l].0)
      == Some(UpdateNode(path + [raw.modules[l].0], GetChild(t, raw.modules[l].0).value, raw.modules[l].1).value)
    decreases l - i
  {
    assert HasChild(t, raw.modules[i].0);
    if l == i {
      UpdateChildrenAtHead(path, t, raw, i);
    } else {
      var j, c := UpdateChildrenPresent(path, t, raw, i);
      var t' := t.(children := t.children[j := (raw.modules[i].0, c)]);
      ChildAfterSet(t, j, c, raw.modules[l].0);
      assert raw.modules[l].0 != raw.modules[i].0;
      PresentAfterSet(t, j, c, raw, i, l);
      UpdateChildrenAt(path, t', raw, i + 1, l);
    }
  }

  /** The first step of a successful walk updates the child under its key. */
  lemma UpdateChildrenAtHead(path: seq<string>, t: Module, raw: RawModule, i: nat)
    requires i < |raw.modules| && Dict.Distinct(raw.modules)
    requires HasChild(t, raw.modules[i].0)
    requires UpdateChildren(path, t, raw, i).Success?
    ensures GetChild(t, raw.modules[i].0).Some?
    ensures UpdateNode(path + [raw.modules[i].0], GetChild(t, raw.modules[i].0).value, raw.modules[i].1).Success?
    ensures GetChild(UpdateChildren(path, t, raw, i).value, raw.modules[i].0)
      == Some(UpdateNode(path + [raw.modules[i].0], GetChild(t, raw.modules[i].0).value, raw.modules[i].1).value)
  {
    var j, c := UpdateChildrenPresent(path, t, raw, i);
    ChildAfterSet(t, j, c, raw.modules[i].0);
    DistinctAt(raw, i);
    UpdateChildrenKeeps(path, t.(children := t.children[j := (raw.modules[i].0, c)]), raw, i + 1, raw.modules[i].0);
  }

  /** A key the live tree lacks ends the walk: the tree comes back unchanged. */
  lemma UpdateChildrenMissing(path: seq<string>, t: Module, raw: RawModule, i: nat)
    requires i < |raw.modules| && !HasChild(t, raw.modules[i].0)
    ensures UpdateChildren(path, t, raw, i) == Success(t)
  {
  }

  /** A key the live tree has, when the walk succeeds: its child updates
      successfully and the walk carries on with that child written back. */
  lemma UpdateChildrenPresent(path: seq<string>, t: Module, raw: RawModule, i: nat) returns (j: nat, c: Module)
    requires i < |raw.modules| && HasChild(t, raw.modules[i].0)
    requires UpdateChildren(path, t, raw, i).Success?
    ensures j < |t.children| && t.children[j].0 == raw.modules[i].0
    ensures Dict.IndexOf(t.children, t.children[j].0) == Some(j)
    ensures GetChild(t, raw.modules[i].0) == Some(t.children[j].1)
    ensures UpdateNode(path + [raw.modules[i].0], t.children[j].1, raw.modules[i].1) == Success(c)
    ensures UpdateChildren(path, t, raw, i)
      == UpdateChildren(path, t.(children := t.children[j := (raw.modules[i].0, c)]), raw, i + 1)
  {
    j := Dict.IndexOf(t.children, raw.modules[i].0).value;
    c := UpdateNode(path + [raw.modules[i].0], t.children[j].1, raw.modules[i].1).value;
  }

  /** With distinct keys, the key at `i` appears at no later index. */
  lemma DistinctAt(raw: RawModule, i: nat)
    requires i < |raw.modules| && Dict.Distinct(raw.modules)
    ensures forall l :: i < l < |raw.modules| ==> raw.modules[l].0 != raw.modules[i].0
  {
  }

  /** Writing back one child keeps the keys present from `i + 1` through `l`. */
  lemma PresentAfterSet(t: Module, j: nat, c: Module, raw: RawModule, i: nat, l: nat)
    requires j < |t.children| && Dict.IndexOf(t.children, t.children[j].0) == Some(j)
    requires i < l < |raw.modules| && PresentBetween(t, raw, i, l + 1)
    ensures PresentBetween(t.(children := t.children[j := (t.children[j].0, c)]), raw, i + 1, l + 1)
  {
    forall m | i + 1 <= m < l + 1
      ensures HasChild(t.(children := t.children[j := (t.children[j].0, c)]), raw.modules[m].0)
    {
      ChildAfterSet(t, j, c, raw.modules[m].0);
    }
  }

  /** A hot update applies the new definition: the node takes the new
      `namespaced` flag and handler maps, and every nested key up to the first
      one the live tree lacks has its child updated in turn from its new
      definition. Children under keys the new definition does not mention
      are left as they were. */
  lemma UpdateApplies(path: seq<string>, target: Module, raw: RawModule)
    requires Dict.Distinct(raw.modules)
    requires UpdateNode(path, target, raw).Success?
    ensures var r := UpdateNode(path, target, raw).value;
      r.raw == UpdateRaw(target, raw).raw && r.state == target.state && r.runtime == target.runtime
    ensures var r := UpdateNode(path, target, raw).value;
      forall k :: (forall l :: 0 <= l < |raw.modules| ==> raw.modules[l].0 != k) ==> GetChild(r, k) == GetChild(target, k)
    ensures var r := UpdateNode(path, target, raw).value;
      forall l :: 0 <= l < |raw.modules| && PresentBetween(target, raw, 0, l + 1) ==>
        && GetChild(target, raw.modules[l].0).Some?
        && UpdateNode(path + [raw.modules[l].0], GetChild(target, raw.modules[l].0).value, raw.modules[l].1).Success?
        && GetChild(r, raw.modules[l].0)
           == Some(UpdateNode(path + [raw.modules[l].0], GetChild(target, raw.modules[l].0).value, raw.modules[l].1).value)
  {
    var t := UpdateRaw(target, raw);
    UpdateChildrenApplies(path, t, raw, 0);
    forall k ensures HasChild(t, k) == HasChild(target, k) {
    }
  }

  /** The hot-update walk over new nested modules stops for good at the first
      key missing from the live tree: entries from there on are neither
      validated nor applied, exactly as if they were not in the definition. */
  lemma {:induction false} UpdateStopsAtFirstMissing(path: seq<string>, t: Module, raw: RawModule, i: nat, stop: nat)
    requires i <= stop < |raw.modules|
    requires !HasChild(t, raw.modules[stop].0)
    requires PresentBetween(t, raw, i, stop)
    ensures UpdateChildren(path, t, raw, i) == UpdateChildren(path, t, raw.(modules := raw.modules[..stop]), i)
    decreases stop - i
  {
    var short := raw.(modules := raw.modules[..stop]);
    if i < stop {
      var j, next := UpdateChildrenNext(path, t, raw, short, i);
      if next.Success? {
        var t' := t.(children := t.children[j := (raw.modules[i].0, next.value)]);
        forall l | i + 1 <= l < stop ensures HasChild(t', raw.modules[l].0) {
          ChildAfterSet(t, j, next.value, raw.modules[l].0);
        }
        ChildAfterSet(t, j, next.value, raw.modules[stop].0);
        UpdateStopsAtFirstMissing(path, t', raw, i + 1, stop);
      }
    } else {
      assert Dict.IndexOf(t.children, raw.modules[stop].0).None?;
    }
  }

  /** One step of the walk over new nested modules, on a present key: the
      child found first under the key is updated, and the walk goes on from
      the next entry, or fails with the child's error. The step depends only
      on entry `i`, so two definitions that agree there take the same step. */
  lemma UpdateChildrenNext(path: seq<string>, t: Module, raw: RawModule, raw2: RawModule, i: nat) returns (j: nat, next: Result<Module>)
    requires i < |raw.modules| && i < |raw2.modules| && raw2.modules[i] == raw.modules[i]
    requires HasChild(t, raw.modules[i].0)
    ensures Dict.IndexOf(t.children, raw.modules[i].0) == Some(j)
    ensures next.Failure? ==>
      UpdateChildren(path, t, raw, i) == Failure(next.error) && UpdateChildren(path, t, raw2, i) == Failure(next.error)
    ensures next.Success? ==>
      var t' := t.(children := t.children[j := (raw.modules[i].0, next.value)]);
      UpdateChildren(path, t, raw, i) == UpdateChildren(path, t', raw, i + 1)
      && UpdateChildren(path, t, raw2, i) == UpdateChildren(path, t', raw2, i + 1)
  {
    j := Dict.IndexOf(t.children, raw.modules[i].0).value;
    next := UpdateNode(path + [raw.modules[i].0], t.children[j].1, raw.modules[i].1);
  }
}

=== FILE: dict.dfy ===
/** A JavaScript object used as a dictionary: its own enumerable string keys in
    insertion order (the order `Object.keys` and `for … in` report), each with
    one value. Module children, raw handler maps and plain state objects are
    all of this shape.
 */
module Dict {
  import opened Base

  type Entries<V> = seq<(string, V)>

  function Keys<V>(d: Entries<V>): (ks: seq<string>)
    ensures |ks| == |d|
    ensures forall i :: 0 <= i < |d| ==> ks[i] == d[i].0
  {
    if |d| == 0 then [] else [d[0].0] + Keys(d[1..])
  }

  /** No key occurs twice: true of every real JavaScript object. */
  predicate Distinct<V>(d: Entries<V>) {
    forall i, j :: 0 <= i < j < |d| ==> d[i].0 != d[j].0
  }

  predicate HasKey<V>(d: Entries<V>, k: string) {
    exists i :: 0 <= i < |d| && d[i].0 == k
  }

  /** Position of the first entry under `k`. */
  function IndexOf<V>(d: Entries<V>, k: string): (r: Option<nat>)
    ensures r.Some? ==> r.value < |d| && d[r.value].0 == k
    ensures r.Some? ==> forall j :: 0 <= j < r.value ==> d[j].0 != k
    ensures r.None? <==> !HasKey(d, k)
  {
    if |d| == 0 then None
    else if d[0].0 == k then Some(0)
    else match IndexOf(d[1..], k)
      case None => None
      case Some(i) => Some(i + 1)
  }

  /** `obj[k]` for an own key, `None` when the key is absent. */
  function Lookup<V>(d: Entries<V>, k: string): (r: Option<V>)
    ensures r.Some? <==> HasKey(d, k)
  {
    match IndexOf(d, k)
    case None => None
    case Some(i) => Some(d[i].1)
  }

  /** `obj[k] = v`: an existing key keeps its position, a new key goes last. */
  function Put<V>(d: Entries<V>, k: string, v: V): (r: Entries<V>)
    ensures Lookup(r, k) == Some(v)
    ensures forall k' :: k' != k ==> Lookup(r, k') == Lookup(d, k')
    ensures HasKey(d, k) ==> Keys(r) == Keys(d)
    ensures !HasKey(d, k) ==> r == d + [(k, v)]
    ensures Distinct(d) ==> Distinct(r)
  {
    match IndexOf(d, k)
    case None =>
      var r := d + [(k, v)];
      assert forall k' :: k' != k ==> IndexOf(r, k') == IndexOf(d, k') by {
        forall k' | k' != k ensures IndexOf(r, k') == IndexOf(d, k') {
          IndexOfAppend(d, (k, v), k');
        }
      }
      assert IndexOf(r, k) == Some(|d|) by { IndexOfAppend(d, (k, v), k); }
      r
    case Some(i) =>
      var r := d[i := (k, v)];
      assert Keys(r) == Keys(d);
      assert forall k' :: IndexOf(r, k') == IndexOf(d, k') by {
        forall k' ensures IndexOf(r, k') == IndexOf(d, k') {
          IndexOfSameKeys(r, d, k');
        }
      }
      r
  }

  /** `delete obj[k]`: every entry under `k` goes, the others keep their order. */
  function Remove<V>(d: Entries<V>, k: string): (r: Entries<V>)
    ensures !HasKey(r, k)
    ensures forall k' :: k' != k ==> Lookup(r, k') == Lookup(d, k')
    ensures !HasKey(d, k) ==> r == d
    ensures Distinct(d) ==> Distinct(r)
    ensures |r| <= |d|
  {
    if |d| == 0 then []
    else
      var rest := Remove(d[1..], k);
      if d[0].0 == k then rest
      else
        var r := [d[0]] + rest;
        assert forall k' :: k' != k ==> Lookup(r, k') == Lookup(d, k') by {
          forall k' | k' != k ensures Lookup(r, k') == Lookup(d, k') {
            if d[0].0 != k' {
              assert r[1..] == rest;
              LookupTail(r, k');
              LookupTail(d, k');
            }
          }
        }
        assert Distinct(d) ==> Distinct(r) by {
          if Distinct(d) {
            forall i, j | 0 <= i < j < |r| ensures r[i].0 != r[j].0 {
              if i == 0 {
                assert r[j] == rest[j - 1];
                assert HasKey(rest, r[j].0);
                assert Lookup(rest, r[j].0) == Lookup(d[1..], r[j].0);
                var m :| 0 <= m < |d[1..]| && d[1..][m].0 == r[j].0;
                assert d[m + 1].0 == r[j].0;
              }
            }
          }
        }
        r
  }

  lemma LookupTail<V>(d: Entries<V>, k: string)
    requires |d| > 0 && d[0].0 != k
    ensures Lookup(d, k) == Lookup(d[1..], k)
  {
  }

  lemma IndexOfAppend<V>(d: Entries<V>, e: (string, V), k: string)
    ensures IndexOf(d + [e], k) ==
      if HasKey(d, k) then IndexOf(d, k) else if e.0 == k then Some(|d|) else None
  {
    if |d| > 0 {
      assert (d + [e])[1..] == d[1..] + [e];
      IndexOfAppend(d[1..], e, k);
      if d[0].0 != k && HasKey(d, k) {
        var m :| 0 <= m < |d| && d[m].0 == k;
        assert d[1..][m - 1].0 == k;
      }
    }
  }

  lemma IndexOfSameKeys<V, W>(a: Entries<V>, b: Entries<W>, k: string)
    requires Keys(a) == Keys(b)
    ensures IndexOf(a, k) == IndexOf(b, k)
  {
    if |a| > 0 {
      assert a[0].0 == Keys(a)[0] == Keys(b)[0] == b[0].0;
      assert Keys(a[1..]) == Keys(a)[1..];
      assert Keys(b[1..]) == Keys(b)[1..];
      IndexOfSameKeys(a[1..], b[1..], k);
    }
  }

  /** Overwriting the value of an entry in place moves no key. */
  lemma IndexOfUpdate<V>(d: Entries<V>, i: nat, v: V, k: string)
    requires i < |d|
    ensures IndexOf(d[i := (d[i].0, v)], k) == IndexOf(d, k)
  {
    var r := d[i := (d[i].0, v)];
    assert Keys(r) == Keys(d);
    IndexOfSameKeys(r, d, k);
  }

  /** Overwriting the entry a `Put` just wrote is putting the new value directly. */
  lemma PutOverwrite<V>(d: Entries<V>, k: string, v: V, w: V)
    ensures IndexOf(Put(d, k, v), k).Some?
    ensures var i := IndexOf(Put(d, k, v), k).value;
      Put(d, k, v)[i := (k, w)] == Put(d, k, w)
  {
    match IndexOf(d, k)
    case None =>
      IndexOfAppend(d, (k, v), k);
      assert (d + [(k, v)])[|d| := (k, w)] == d + [(k, w)];
    case Some(j) =>
      IndexOfUpdate(d, j, v, k);
      assert d[j := (k, v)][j := (k, w)] == d[j := (k, w)];
  }

  /** In a dictionary without repeated keys, an entry is found under its own key. */
  lemma {:induction false} LookupDistinct<V>(d: Entries<V>, i: nat)
    requires Distinct(d)
    requires i < |d|
    ensures IndexOf(d, d[i].0) == Some(i)
    ensures Lookup(d, d[i].0) == Some(d[i].1)
  {
    if i > 0 {
      assert Distinct(d[1..]);
      LookupDistinct(d[1..], i - 1);
    }
  }
}

=== FILE: helpers.dfy ===
/** The component binding helpers `mapState`, `mapGetters`, `mapMutations`
    and `mapActions`: how their arguments are normalised, and what each
    mapped function resolves to when called against a store. The mapped
    function's `this` is a component whose `$store` is the store passed in. */
module Helpers {
  import opened Base
  import opened Js
  import Dict
  import Util
  import opened Registry
  import opened State
  import opened Store
  import opened LocalContext

  /** `normalizeNamespace`: a non-string first argument is the map itself and
      the namespace is empty; a string gets a trailing `/` unless it has one. */
  function NormalizeNamespace(namespace: Value, bindings: Value): (r: (string, Value))
    ensures !namespace.Str? ==> r == ("", namespace)
    ensures namespace.Str? ==> r.1 == bindings && |r.0| > 0 && r.0[|r.0| - 1] == '/'
    ensures namespace.Str? ==> IsPrefix(namespace.s, r.0) && |r.0| <= |namespace.s| + 1
  {
    if !namespace.Str? then ("", namespace)
    else if |namespace.s| > 0 && namespace.s[|namespace.s| - 1] == '/' then (namespace.s, bindings)
    else (namespace.s + "/", bindings)
  }

  /** Normalising an already normalised namespace changes nothing, and the
      empty string becomes `"/"`. */
  lemma NormalizeNamespaceIdempotent(namespace: string, bindings: Value)
    ensures var r := NormalizeNamespace(Str(namespace), bindings);
      NormalizeNamespace(Str(r.0), bindings) == r
    ensures NormalizeNamespace(Str(""), bindings).0 == "/"
    ensures NormalizeNamespace(Str(namespace), bindings).0 == namespace <==> |namespace| > 0 && namespace[|namespace| - 1] == '/'
  {
  }

  /** `isValidMap`: an array or a non-null object. */
  predicate IsValidMap(bindings: Value) {
    Util.IsObject(bindings)
  }

  datatype MapEntry = MapEntry(key: Value, val: Value)

  /** `normalizeMap`: array elements map to themselves, object properties to
      their values in key order, anything else to nothing. */
  function NormalizeMap(bindings: Value): (r: seq<MapEntry>)
    ensures !IsValidMap(bindings) ==> r == []
    ensures bindings.Arr? ==> |r| == |bindings.items| && forall i :: 0 <= i < |r| ==> r[i] == MapEntry(bindings.items[i], bindings.items[i])
    ensures bindings.Obj? ==> |r| == |bindings.fields| && forall i :: 0 <= i < |r| ==> r[i].key == Str(bindings.fields[i].0)
    ensures bindings.Obj? ==> forall i :: 0 <= i < |r| ==> GetProp(bindings, r[i].key.s) == Success(r[i].val) || !Dict.Distinct(bindings.fields)
  {
    match bindings
    case Arr(items) => seq(|items|, i requires 0 <= i < |items| => MapEntry(items[i], items[i]))
    case Obj(fields) =>
      var r := seq(|fields|, i requires 0 <= i < |fields| => MapEntry(Str(fields[i].0), fields[i].1));
      assert forall i :: 0 <= i < |r| && Dict.Distinct(fields) ==> GetProp(bindings, r[i].key.s) == Success(r[i].val) by {
        forall i | 0 <= i < |r| && Dict.Distinct(fields) ensures GetProp(bindings, r[i].key.s) == Success(r[i].val) {
          Dict.LookupDistinct(fields, i);
        }
      }
      r
    case _ => []
  }

  /** Where a mapped function looks: the store itself for an empty (falsy)
      namespace, the registered module's context for a known one, nowhere for
      an unknown one. */
  datatype Scope = Global | Local(ctx: Context) | Missing

  /** `getModuleByNamespace` behind a truthy namespace check. The module under
      a namespace was installed with that namespace as its context's. */
  function Resolve(s: Store, ns: string): (r: Scope)
    ensures r.Missing? <==> ns != "" && ns !in s.reg.namespaces
    ensures r.Global? <==> ns == ""
    ensures r.Local? ==> r.ctx == Context(ns, s.reg.namespaces[ns])
  {
    if ns == "" then Global
    else if ns in s.reg.namespaces then Local(Context(ns, s.reg.namespaces[ns]))
    else Missing
  }

  /** The getters a mapped state function receives. */
  datatype GettersView = AllGetters | ScopedGetters(view: map<string, string>)

  datatype StateRead = Skipped | Read(value: Value) | Computed(fn: Value, state: Value, getters: GettersView)

  /** `mappedState()`: the context's state is read first, then its getters
      (which may fill the local-getters cache); a function value is called
      with both, anything else is a property read of the state. */
  function MappedState(s: Store, ns: string, val: Value): (Store, Result<StateRead>) {
    var scope := Resolve(s, ns);
    if scope.Missing? then (s, Success(Skipped))
    else
      var path := if scope.Local? then scope.ctx.path else [];
      match GetNestedState(s.state, path)
      case Failure(e) => (s, Failure(e))
      case Success(state) =>
        var (s1, getters) :=
          if scope.Local? && scope.ctx.ns != "" then
            var (s1, view) := MakeLocalGetters(s, scope.ctx.ns); (s1, ScopedGetters(view))
          else (s, AllGetters);
        if IsFunction(val) then (s1, Success(Computed(val, state, getters)))
        else match GetProp(state, ToJsString(val))
          case Failure(e) => (s1, Failure(e))
          case Success(v) => (s1, Success(Read(v)))
  }

  /** A string (or other non-function) value reads the property of the same
      name from the state of the module registered under the namespace; a
      function value receives that state and the getters under the namespace
      with the prefix stripped. */
  lemma MappedStateReadsModuleState(s: Store, ns: string, val: Value)
    requires ns != "" && ns in s.reg.namespaces
    ensures var path := s.reg.namespaces[ns];
      var r := MappedState(s, ns, val).1;
      && (!IsFunction(val) ==> (r.Success? <==> GetNestedState(s.state, path + [ToJsString(val)]).Success?))
      && (!IsFunction(val) && r.Success? ==>
            GetNestedState(s.state, path + [ToJsString(val)]).Success? &&
            r.value == Read(GetNestedState(s.state, path + [ToJsString(val)]).value))
      && (IsFunction(val) && r.Success? ==>
            r.value.Computed? && r.value.state == GetNestedState(s.state, path).value &&
            r.value.getters == ScopedGetters(MakeLocalGetters(s, ns).1))
  {
    GetNestedStateSnoc(s.state, s.reg.namespaces[ns], ToJsString(val));
  }

  /** `mappedGetter()`: the key read is `namespace + val`; nothing is read for
      an unknown namespace or a key that is not a getter. */
  function MappedGetter(s: Store, ns: string, val: Value): Option<string> {
    var key := ns + ToJsString(val);
    if ns != "" && ns !in s.reg.namespaces then None
    else if key !in s.reg.getters then None
    else Some(key)
  }

  /** A mapped getter reads a store getter exactly when its namespace is known
      (or empty) and the qualified key is registered, and then it reads that key. */
  lemma MappedGetterQualifies(s: Store, ns: string, val: Value)
    ensures MappedGetter(s, ns, val).Some? <==>
      !Resolve(s, ns).Missing? && ns + ToJsString(val) in s.reg.getters
    ensures MappedGetter(s, ns, val).Some? ==> MappedGetter(s, ns, val).value == ns + ToJsString(val)
  {
  }

  /** An argument the caller may leave out reads as `undefined`. */
  function Arg(args: seq<Value>, i: nat): Value {
    if i < |args| then args[i] else Undefined
  }

  /** What a mapped mutation or action does: nothing, a call to the user's
      function (given the commit or dispatch of the scope), or a delegated run. */
  datatype MapperResult = NotRun | UserCalled(fn: Value, scope: Scope, args: seq<Value>) | Delegated(run: Run)

  /** `mappedMutation(...args)`: a string value is committed, with the extra
      arguments as payload and options, through the store's commit or the
      module's local commit. */
  function MappedMutation(s: Store, w: World, ns: string, val: Value, args: seq<Value>): MapperResult {
    var scope := Resolve(s, ns);
    if scope.Missing? then NotRun
    else if IsFunction(val) then UserCalled(val, scope, args)
    else if scope.Global? then Delegated(Commit(s, w, val, Arg(args, 0), Arg(args, 1)))
    else Delegated(LocalCommit(s, w, scope.ctx, val, Arg(args, 0), Arg(args, 1)))
  }

  /** `mappedAction(...args)`: the store's bound dispatch passes only the type
      and the payload; a module's local dispatch also reads the options. */
  function MappedAction(s: Store, w: World, ns: string, val: Value, args: seq<Value>): MapperResult {
    var scope := Resolve(s, ns);
    if scope.Missing? then NotRun
    else if IsFunction(val) then UserCalled(val, scope, args)
    else if scope.Global? then Delegated(Dispatch(s, w, val, Arg(args, 0)))
    else Delegated(LocalDispatch(s, w, scope.ctx, val, Arg(args, 0), Arg(args, 1)))
  }

  /** With a namespace that is not registered, no mapped helper reads state,
      touches the store, commits or dispatches. */
  lemma MissingNamespaceDoesNothing(s: Store, w: World, ns: string, val: Value, args: seq<Value>)
    requires ns != "" && ns !in s.reg.namespaces
    ensures MappedState(s, ns, val) == (s, Success(Skipped))
    ensures MappedGetter(s, ns, val) == None
    ensures MappedMutation(s, w, ns, val, args) == NotRun
    ensures MappedAction(s, w, ns, val, args) == NotRun
  {
  }

  /** `mapMutations(namespace, [type])` commits exactly the handlers of
      `namespace + type` when the namespace is registered, then notifies the
      subscribers, unless the options ask for the root type. */
  lemma MappedMutationCommitsQualified(s: Store, w: World, ns: string, t: string, args: seq<Value>)
    requires ns != "" && ns in s.reg.namespaces
    requires !OptionFlag(Arg(args, 1), "root")
    requires ns + t in s.reg.mutations
    ensures var r := MappedMutation(s, w, ns, Str(t), args);
      r.Delegated? && (r.run.Ok? ==>
        r.run.store.log == s.log + MutationEvents(s.reg.mutations[ns + t], Arg(args, 0), true)
                                 + NotifyEvents(s.subscribers, ns + t, Arg(args, 0)))
  {
    var ctx := Context(ns, s.reg.namespaces[ns]);
    LocalCommitRunsTarget(s, w, ctx, Str(t), Arg(args, 0), Arg(args, 1));
  }

  /** `mapActions(namespace, [type])` dispatches `namespace + type` when the
      namespace is registered, and does nothing when that type has no action. */
  lemma MappedActionDispatchesQualified(s: Store, w: World, ns: string, t: string, args: seq<Value>)
    requires ns != "" && ns in s.reg.namespaces
    requires !OptionFlag(Arg(args, 1), "root")
    ensures var r := MappedAction(s, w, ns, Str(t), args);
      && r.Delegated?
      && (ns + t in s.reg.actions ==> r.run == Dispatch(s, w, Str(ns + t), Arg(args, 0)))
      && (ns + t !in s.reg.actions ==> r.run == Ok(s, Nothing))
  {
    var ctx := Context(ns, s.reg.namespaces[ns]);
    LocalDispatchResolves(s, w, ctx, Str(t), Arg(args, 0), Arg(args, 1));
  }
}

=== FILE: install.dfy ===
/** `installModule`: walking the module tree, nesting each module's state
    under its parent's, and filling the registries with namespace-qualified
    types; `resetStore` and the store constructor built on it.

    The registrations of a whole tree are described once, independently of
    the store, as the sequence of `Registry.Decl` steps in the order
    `installModule` performs them (`TreeDecls`); installing is then shown to
    be exactly `RegisterAll` of that sequence. */
module Installation {
  import opened Base
  import opened Js
  import Dict
  import opened Modules
  import opened ModuleCollection
  import opened Registry
  import opened State
  import opened Store

  /** A handler map that is absent behaves as an empty one. */
  function Present(hs: Option<Dict.Entries<Value>>): Dict.Entries<Value> {
    if hs.Some? then hs.value else []
  }

  /** `action.root ? key : namespace + key`: reading `root` of `null` or
      `undefined` throws. */
  function ActionType(ns: string, key: string, action: Value): (r: Result<string>)
    ensures r.Failure? <==> action.Undefined? || action.Null?
    ensures r.Success? ==> (r.value == key <==> Truthy(Field(action, "root")) || ns == "")
  {
    match GetProp(action, "root")
    case Failure(e) => Failure(e)
    case Success(root) =>
      if Truthy(root) then Success(key)
      else
        assert ns + key == key ==> ns == "" by {
          if ns + key == key { assert |ns| == 0; }
        }
        Success(ns + key)
  }

  /** `action.handler || action`. */
  function ActionFn(action: Value): Value
    requires !action.Undefined? && !action.Null?
  {
    var h := Field(action, "handler");
    if Truthy(h) then h else action
  }

  function MutationDecls(ns: string, ctx: Context, entries: Dict.Entries<Value>): (r: seq<Decl>)
    ensures |r| == |entries|
    ensures forall i :: 0 <= i < |entries| ==> r[i] == MutationDecl(ns + entries[i].0, Handler(entries[i].1, ctx))
  {
    seq(|entries|, i requires 0 <= i < |entries| => MutationDecl(ns + entries[i].0, Handler(entries[i].1, ctx)))
  }

  function GetterDecls(ns: string, ctx: Context, entries: Dict.Entries<Value>): (r: seq<Decl>)
    ensures |r| == |entries|
    ensures forall i :: 0 <= i < |entries| ==> r[i] == GetterDecl(ns + entries[i].0, Handler(entries[i].1, ctx))
  {
    seq(|entries|, i requires 0 <= i < |entries| => GetterDecl(ns + entries[i].0, Handler(entries[i].1, ctx)))
  }

  /** The action registrations, failing at the first `null` or `undefined` action. */
  function ActionDecls(ns: string, ctx: Context, entries: Dict.Entries<Value>): (r: Result<seq<Decl>>)
    ensures r.Failure? <==> exists i :: 0 <= i < |entries| && (entries[i].1.Undefined? || entries[i].1.Null?)
    ensures r.Success? ==> |r.value| == |entries| && forall i :: 0 <= i < |entries| ==>
      ActionType(ns, entries[i].0, entries[i].1).Success? &&
      r.value[i] == ActionDecl(ActionType(ns, entries[i].0, entries[i].1).value, Handler(ActionFn(entries[i].1), ctx))
  {
    if |entries| == 0 then Success([])
    else match ActionType(ns, entries[0].0, entries[0].1)
      case Failure(e) => Failure(e)
      case Success(t) =>
        match ActionDecls(ns, ctx, entries[1..])
        case Failure(e) => Failure(e)
        case Success(rest) => Success([ActionDecl(t, Handler(ActionFn(entries[0].1), ctx))] + rest)
  }

  /** One module's registrations: its namespace entry when namespaced, then
      mutations, actions and getters, each map in key order. */
  function ModuleDecls(ns: string, path: seq<string>, m: Module): Result<seq<Decl>> {
    var ctx := Context(ns, path);
    match ActionDecls(ns, ctx, Present(m.raw.actions))
    case Failure(e) => Failure(e)
    case Success(actions) =>
      Success((if Namespaced(m) then [NamespaceDecl(ns, path)] else [])
        + MutationDecls(ns, ctx, Present(m.raw.mutations))
        + actions
        + GetterDecls(ns, ctx, Present(m.raw.getters)))
  }

  /** The registrations of the subtree `m` mounted at `path` of `root`, in
      pre-order: a module's own, then each child's subtree in key order. */
  function TreeDecls(root: Module, path: seq<string>, m: Module): Result<seq<Decl>>
    decreases m, 1
  {
    match NamespaceOf(root, path)
    case Failure(e) => Failure(e)
    case Success(ns) =>
      match ModuleDecls(ns, path, m)
      case Failure(e) => Failure(e)
      case Success(own) =>
        match ChildrenDecls(root, path, m, 0)
        case Failure(e) => Failure(e)
        case Success(rest) => Success(own + rest)
  }

  function ChildrenDecls(root: Module, path: seq<string>, m: Module, i: nat): Result<seq<Decl>>
    requires i <= |m.children|
    decreases m, 0, |m.children| - i
  {
    if i == |m.children| then Success([])
    else
      match TreeDecls(root, path + [m.children[i].0], m.children[i].1)
      case Failure(e) => Failure(e)
      case Success(first) =>
        match ChildrenDecls(root, path, m, i + 1)
        case Failure(e) => Failure(e)
        case Success(rest) => Success(first + rest)
  }

  /** Outside a hot reinstall, a non-root module's state is set under its key
      in its parent's state (inside `_withCommit`, which restores the flag). */
  function NestState(s: Store, path: seq<string>, m: Module, hot: bool): Result<Store> {
    if |path| == 0 || hot then Success(s)
    else
      match SetNested(s.state, Parent(path), LastKey(path), m.state)
      case Failure(e) => Failure(e)
      case Success(st) => Success(s.(state := st))
  }

  /** `installModule(store, rootState, path, module, hot)`. */
  function Install(s: Store, path: seq<string>, m: Module, hot: bool): Result<Store>
    decreases m, 1
  {
    match NamespaceOf(s.modules, path)
    case Failure(e) => Failure(e)
    case Success(ns) =>
      match NestState(s, path, m, hot)
      case Failure(e) => Failure(e)
      case Success(s1) =>
        match ModuleDecls(ns, path, m)
        case Failure(e) => Failure(e)
        case Success(ds) => InstallChildren(s1.(reg := RegisterAll(s1.reg, ds)), path, m, 0, hot)
  }

  function InstallChildren(s: Store, path: seq<string>, m: Module, i: nat, hot: bool): Result<Store>
    requires i <= |m.children|
    decreases m, 0, |m.children| - i
  {
    if i == |m.children| then Success(s)
    else
      match Install(s, path + [m.children[i].0], m.children[i].1, hot)
      case Failure(e) => Failure(e)
      case Success(s1) => InstallChildren(s1, path, m, i + 1, hot)
  }

  /** Everything but the registries and the state is left alone. */
  predicate SameOtherwise(a: Store, b: Store) {
    && a.modules == b.modules
    && a.committing == b.committing
    && a.strict == b.strict
    && a.subscribers == b.subscribers
    && a.actionSubscribers == b.actionSubscribers
    && a.nextRef == b.nextRef
    && a.localGettersCache == b.localGettersCache
    && a.log == b.log
  }

  /** Installing performs exactly the tree's registrations, in order, and
      touches nothing but the registries and (unless `hot`) the state. A hot
      install fails exactly when collecting the registrations does. */
  lemma {:induction false} InstallRegistersTree(s: Store, path: seq<string>, m: Module, hot: bool)
    ensures Install(s, path, m, hot).Success? ==>
      && TreeDecls(s.modules, path, m).Success?
      && Install(s, path, m, hot).value.reg == RegisterAll(s.reg, TreeDecls(s.modules, path, m).value)
      && SameOtherwise(Install(s, path, m, hot).value, s)
    ensures hot ==> (Install(s, path, m, hot).Success? <==> TreeDecls(s.modules, path, m).Success?)
    ensures hot && Install(s, path, m, hot).Success? ==> Install(s, path, m, hot).value.state == s.state
    decreases m, 1
  {
    match NamespaceOf(s.modules, path)
    case Failure(_) =>
      assert Install(s, path, m, hot).Failure? && TreeDecls(s.modules, path, m).Failure?;
    case Success(ns) =>
      match NestState(s, path, m, hot)
      case Failure(_) =>
        assert Install(s, path, m, hot).Failure?;
      case Success(s1) =>
        assert SameOtherwise(s1, s) && s1.reg == s.reg && (hot ==> s1 == s);
        match ModuleDecls(ns, path, m)
        case Failure(_) =>
          assert Install(s, path, m, hot).Failure? && TreeDecls(s.modules, path, m).Failure?;
        case Success(ds) =>
          var s2 := s1.(reg := RegisterAll(s1.reg, ds));
          assert Install(s, path, m, hot) == InstallChildren(s2, path, m, 0, hot);
          InstallChildrenRegisters(s2, path, m, 0, hot);
          match ChildrenDecls(s.modules, path, m, 0)
          case Failure(_) =>
            assert TreeDecls(s.modules, path, m).Failure?;
          case Success(rest) =>
            assert TreeDecls(s.modules, path, m) == Success(ds + rest);
            RegisterAllConcat(s.reg, ds, rest);
  }

  lemma {:induction false} InstallChildrenRegisters(s: Store, path: seq<string>, m: Module, i: nat, hot: bool)
    requires i <= |m.children|
    ensures InstallChildren(s, path, m, i, hot).Success? ==>
      && ChildrenDecls(s.modules, path, m, i).Success?
      && InstallChildren(s, path, m, i, hot).value.reg == RegisterAll(s.reg, ChildrenDecls(s.modules, path, m, i).value)
      && SameOtherwise(InstallChildren(s, path, m, i, hot).value, s)
    ensures hot ==> (InstallChildren(s, path, m, i, hot).Success? <==> ChildrenDecls(s.modules, path, m, i).Success?)
    ensures hot && InstallChildren(s, path, m, i, hot).Success? ==> InstallChildren(s, path, m, i, hot).value.state == s.state
    decreases m, 0, |m.children| - i
  {
    if i < |m.children| {
      var key := m.children[i].0;
      var child := m.children[i].1;
      InstallRegistersTree(s, path + [key], child, hot);
      match Install(s, path + [key], child, hot)
      case Failure(_) =>
        assert InstallChildren(s, path, m, i, hot).Failure?;
        if hot {
          assert TreeDecls(s.modules, path + [key], child).Failure?;
          assert ChildrenDecls(s.modules, path, m, i).Failure?;
        }
      case Success(s1) =>
        assert s1.modules == s.modules;
        assert InstallChildren(s, path, m, i, hot) == InstallChildren(s1, path, m, i + 1, hot);
        InstallChildrenRegisters(s1, path, m, i + 1, hot);
        var first := TreeDecls(s.modules, path + [key], child).value;
        match ChildrenDecls(s.modules, path, m, i + 1)
        case Failure(_) =>
          assert ChildrenDecls(s.modules, path, m, i).Failure?;
        case Success(rest) =>
          assert ChildrenDecls(s.modules, path, m, i) == Success(first + rest);
          RegisterAllConcat(s.reg, first, rest);
    }
  }

  /** The registry an install leaves: the module's own registrations
      followed by its subtree's. */
  lemma InstallSplit(s: Store, path: seq<string>, m: Module, hot: bool) returns (rest: seq<Decl>)
    requires Install(s, path, m, hot).Success?
    ensures NamespaceOf(s.modules, path).Success?
    ensures ModuleDecls(NamespaceOf(s.modules, path).value, path, m).Success?
    ensures Install(s, path, m, hot).value.reg
         == RegisterAll(s.reg, ModuleDecls(NamespaceOf(s.modules, path).value, path, m).value + rest)
  {
    InstallRegistersTree(s, path, m, hot);
    rest := ChildrenDecls(s.modules, path, m, 0).value;
  }

  /** After installing a module, each of its mutations is registered under
      `namespace + key` with the module's own context. */
  lemma InstallQualifiesMutations(s: Store, path: seq<string>, m: Module, hot: bool)
    requires Install(s, path, m, hot).Success?
    ensures NamespaceOf(s.modules, path).Success?
    ensures var ns := NamespaceOf(s.modules, path).value;
      var r := Install(s, path, m, hot).value.reg;
      var muts := Present(m.raw.mutations);
      forall i :: 0 <= i < |muts| ==> Handler(muts[i].1, Context(ns, path)) in Entry(r.mutations, ns + muts[i].0)
  {
    var rest := InstallSplit(s, path, m, hot);
    ModuleMutationsRegistered(s.reg, NamespaceOf(s.modules, path).value, path, m, rest);
  }

  /** A module's own mutations, registered ahead of anything else, are each
      found under `namespace + key` with the module's context. */
  lemma ModuleMutationsRegistered(reg: Registry, ns: string, path: seq<string>, m: Module, rest: seq<Decl>)
    requires ModuleDecls(ns, path, m).Success?
    ensures var r := RegisterAll(reg, ModuleDecls(ns, path, m).value + rest);
      var muts := Present(m.raw.mutations);
      forall i :: 0 <= i < |muts| ==> Handler(muts[i].1, Context(ns, path)) in Entry(r.mutations, ns + muts[i].0)
  {
    var all := ModuleDecls(ns, path, m).value + rest;
    var nsd := if Namespaced(m) then [NamespaceDecl(ns, path)] else [];
    var muts := Present(m.raw.mutations);
    forall i | 0 <= i < |muts|
      ensures Handler(muts[i].1, Context(ns, path)) in Entry(RegisterAll(reg, all).mutations, ns + muts[i].0)
    {
      MutationDeclAt(ns, path, m, rest, i);
      DeclaredMutationsHas(all, |nsd| + i);
      MutationsAfterRegisterAll(reg, all, ns + muts[i].0);
    }
  }

  /** Where a module's own mutations, actions and getters sit in its
      registrations followed by anything else. */
  lemma MutationDeclAt(ns: string, path: seq<string>, m: Module, rest: seq<Decl>, i: nat)
    requires ModuleDecls(ns, path, m).Success? && i < |Present(m.raw.mutations)|
    ensures var nsd := if Namespaced(m) then [NamespaceDecl(ns, path)] else [];
      var muts := Present(m.raw.mutations);
      (ModuleDecls(ns, path, m).value + rest)[|nsd| + i] == MutationDecl(ns + muts[i].0, Handler(muts[i].1, Context(ns, path)))
  {
  }

  lemma ActionDeclAt(ns: string, path: seq<string>, m: Module, rest: seq<Decl>, i: nat)
    requires ModuleDecls(ns, path, m).Success? && i < |Present(m.raw.actions)|
    ensures var nsd := if Namespaced(m) then [NamespaceDecl(ns, path)] else [];
      var muts := Present(m.raw.mutations);
      var acts := Present(m.raw.actions);
      && ActionType(ns, acts[i].0, acts[i].1).Success?
      && (ModuleDecls(ns, path, m).value + rest)[|nsd| + |muts| + i]
         == ActionDecl(ActionType(ns, acts[i].0, acts[i].1).value, Handler(ActionFn(acts[i].1), Context(ns, path)))
  {
  }

  lemma GetterDeclAt(ns: string, path: seq<string>, m: Module, rest: seq<Decl>, i: nat)
    requires ModuleDecls(ns, path, m).Success? && i < |Present(m.raw.getters)|
    ensures var nsd := if Namespaced(m) then [NamespaceDecl(ns, path)] else [];
      var muts := Present(m.raw.mutations);
      var acts := Present(m.raw.actions);
      var gets := Present(m.raw.getters);
      (ModuleDecls(ns, path, m).value + rest)[|nsd| + |muts| + |acts| + i]
        == GetterDecl(ns + gets[i].0, Handler(gets[i].1, Context(ns, path)))
  {
  }

  /** Each action is registered under its bare key when it opts out with a
      truthy `root`, else under `namespace + key`; the handler is the
      object's `handler` when there is one. */
  lemma InstallQualifiesActions(s: Store, path: seq<string>, m: Module, hot: bool)
    requires Install(s, path, m, hot).Success?
    ensures NamespaceOf(s.modules, path).Success?
    ensures var ns := NamespaceOf(s.modules, path).value;
      var r := Install(s, path, m, hot).value.reg;
      var acts := Present(m.raw.actions);
      forall i :: 0 <= i < |acts| ==>
        && !acts[i].1.Undefined? && !acts[i].1.Null?
        && var t := if Truthy(Field(acts[i].1, "root")) then acts[i].0 else ns + acts[i].0;
           Handler(ActionFn(acts[i].1), Context(ns, path)) in Entry(r.actions, t)
  {
    var rest := InstallSplit(s, path, m, hot);
    ModuleActionsRegistered(s.reg, NamespaceOf(s.modules, path).value, path, m, rest);
  }

  /** A module's own actions, registered after its mutations, are each found
      under their registered type with the module's context. */
  lemma ModuleActionsRegistered(reg: Registry, ns: string, path: seq<string>, m: Module, rest: seq<Decl>)
    requires ModuleDecls(ns, path, m).Success?
    ensures var r := RegisterAll(reg, ModuleDecls(ns, path, m).value + rest);
      var acts := Present(m.raw.actions);
      forall i :: 0 <= i < |acts| ==>
        && !acts[i].1.Undefined? && !acts[i].1.Null?
        && var t := if Truthy(Field(acts[i].1, "root")) then acts[i].0 else ns + acts[i].0;
           Handler(ActionFn(acts[i].1), Context(ns, path)) in Entry(r.actions, t)
  {
    var all := ModuleDecls(ns, path, m).value + rest;
    var nsd := if Namespaced(m) then [NamespaceDecl(ns, path)] else [];
    var muts := Present(m.raw.mutations);
    var acts := Present(m.raw.actions);
    forall i | 0 <= i < |acts|
      ensures && !acts[i].1.Undefined? && !acts[i].1.Null?
              && var t := if Truthy(Field(acts[i].1, "root")) then acts[i].0 else ns + acts[i].0;
                 Handler(ActionFn(acts[i].1), Context(ns, path)) in Entry(RegisterAll(reg, all).actions, t)
    {
      ActionDeclAt(ns, path, m, rest, i);
      DeclaredActionsHas(all, |nsd| + |muts| + i);
      ActionsAfterRegisterAll(reg, all, ActionType(ns, acts[i].0, acts[i].1).value);
    }
  }

  /** Each getter key is taken under `namespace + key` (by this getter, or by
      one registered before it). */
  lemma InstallQualifiesGetters(s: Store, path: seq<string>, m: Module, hot: bool)
    requires Install(s, path, m, hot).Success?
    ensures NamespaceOf(s.modules, path).Success?
    ensures var ns := NamespaceOf(s.modules, path).value;
      var r := Install(s, path, m, hot).value.reg;
      var gets := Present(m.raw.getters);
      forall i :: 0 <= i < |gets| ==> ns + gets[i].0 in r.getters
  {
    var rest := InstallSplit(s, path, m, hot);
    ModuleGettersRegistered(s.reg, NamespaceOf(s.modules, path).value, path, m, rest);
  }

  /** A module's own getter keys, registered after its actions, are each
      taken under `namespace + key`. */
  lemma ModuleGettersRegistered(reg: Registry, ns: string, path: seq<string>, m: Module, rest: seq<Decl>)
    requires ModuleDecls(ns, path, m).Success?
    ensures var r := RegisterAll(reg, ModuleDecls(ns, path, m).value + rest);
      var gets := Present(m.raw.getters);
      forall i :: 0 <= i < |gets| ==> ns + gets[i].0 in r.getters
  {
    var all := ModuleDecls(ns, path, m).value + rest;
    var nsd := if Namespaced(m) then [NamespaceDecl(ns, path)] else [];
    var muts := Present(m.raw.mutations);
    var acts := Present(m.raw.actions);
    var gets := Present(m.raw.getters);
    forall i | 0 <= i < |gets|
      ensures ns + gets[i].0 in RegisterAll(reg, all).getters
    {
      GetterDeclAt(ns, path, m, rest, i);
      FirstGetterFound(all, |nsd| + |muts| + |acts| + i);
      GettersAfterRegisterAll(reg, all, ns + gets[i].0);
    }
  }

  /** A namespaced module has an entry under its namespace afterwards. */
  lemma InstallRecordsNamespace(s: Store, path: seq<string>, m: Module, hot: bool)
    requires Install(s, path, m, hot).Success?
    ensures NamespaceOf(s.modules, path).Success?
    ensures Namespaced(m) ==> NamespaceOf(s.modules, path).value in Install(s, path, m, hot).value.reg.namespaces
  {
    var rest := InstallSplit(s, path, m, hot);
    var ns := NamespaceOf(s.modules, path).value;
    var all := ModuleDecls(ns, path, m).value + rest;
    if Namespaced(m) {
      assert all[0] == NamespaceDecl(ns, path);
      LastNamespaceFound(all, 0);
      NamespacesAfterRegisterAll(s.reg, all, ns);
    }
  }

  /** `resetStore(store, hot)` up to the view: the four registries start
      empty, the whole tree is reinstalled without touching the state, and
      the local-getters cache is cleared. */
  function ResetStore(s: Store): Result<Store> {
    match Install(s.(reg := Empty), [], s.modules, true)
    case Failure(e) => Failure(e)
    case Success(s1) => Success(s1.(localGettersCache := map[]))
  }

  /** After a reset the registries hold exactly the tree's registrations,
      whatever they held before; state, tree and subscriptions are kept. */
  lemma ResetStoreRebuilds(s: Store)
    ensures ResetStore(s).Success? <==> TreeDecls(s.modules, [], s.modules).Success?
    ensures ResetStore(s).Success? ==>
      && ResetStore(s).value.reg == RegisterAll(Empty, TreeDecls(s.modules, [], s.modules).value)
      && ResetStore(s).value.localGettersCache == map[]
      && ResetStore(s).value.state == s.state
      && ResetStore(s).value == s.(reg := ResetStore(s).value.reg, localGettersCache := map[])
  {
    InstallRegistersTree(s.(reg := Empty), [], s.modules, true);
  }

  /** Resetting twice is resetting once. */
  lemma ResetStoreIdempotent(s: Store)
    requires ResetStore(s).Success?
    ensures ResetStore(ResetStore(s).value) == ResetStore(s)
  {
    var r := ResetStore(s).value;
    ResetStoreRebuilds(s);
    ResetStoreRebuilds(r);
  }

  /** `new Store(options)` up to plugins and the view: build the module tree,
      install it from the root's state, start with an empty local-getters
      cache. */
  function NewStore(raw: RawModule, strict: bool, invoke: nat -> Value): Result<Store> {
    match NewCollection(raw, invoke)
    case Failure(e) => Failure(e)
    case Success(root) =>
      var s0 := Store(root, root.state, false, strict, Empty, [], [], 0, map[], []);
      match Install(s0, [], root, false)
      case Failure(e) => Failure(e)
      case Success(s1) => Success(s1.(localGettersCache := map[]))
  }

  /** A new store holds exactly the registrations of its static tree and
      starts outside any commit, with no subscribers and nothing logged. */
  lemma NewStoreRegistersTree(raw: RawModule, strict: bool, invoke: nat -> Value)
    requires WellFormedRaw(raw) && ValidTree(raw)
    ensures NewStore(raw, strict, invoke).Success? ==>
      var s := NewStore(raw, strict, invoke).value;
      var root := Build(raw, false, invoke);
      && s.modules == root
      && TreeDecls(root, [], root).Success?
      && s.reg == RegisterAll(Empty, TreeDecls(root, [], root).value)
      && !s.committing && s.subscribers == [] && s.actionSubscribers == [] && s.log == []
  {
    NewCollectionIsStatic(raw, invoke);
    var root := Build(raw, false, invoke);
    var s0 := Store(root, root.state, false, strict, Empty, [], [], 0, map[], []);
    InstallRegistersTree(s0, [], root, false);
  }
}

=== FILE: js.dfy ===
/** The JavaScript values the store passes around: payloads, options, state
    trees, raw handler definitions. Functions are opaque identities; numbers
    are integers (floating point, NaN and infinities are not modelled).
 */
module Js {
  import opened Base
  import Dict

  datatype Value =
    | Undefined
    | Null
    | Bool(b: bool)
    | Num(n: int)
    | Str(s: string)
    | Func(id: nat)
    | Arr(items: seq<Value>)
    | Obj(fields: Dict.Entries<Value>)

  /** JavaScript truthiness (`ToBoolean`). */
  predicate Truthy(v: Value) {
    match v
    case Undefined => false
    case Null => false
    case Bool(b) => b
    case Num(n) => n != 0
    case Str(s) => s != ""
    case _ => true
  }

  /** The `typeof` operator. */
  function TypeOf(v: Value): string {
    match v
    case Undefined => "undefined"
    case Null => "object"
    case Bool(_) => "boolean"
    case Num(_) => "number"
    case Str(_) => "string"
    case Func(_) => "function"
    case Arr(_) => "object"
    case Obj(_) => "object"
  }

  predicate IsFunction(v: Value) {
    TypeOf(v) == "function"
  }

  /** Every object in the value has distinct keys, as real JavaScript objects do. */
  predicate WellFormed(v: Value)
    decreases v
  {
    match v
    case Arr(items) => forall i :: 0 <= i < |items| ==> WellFormed(items[i])
    case Obj(fields) =>
      && Dict.Distinct(fields)
      && forall i :: 0 <= i < |fields| ==> WellFormed(fields[i].1)
    case _ => true
  }

  function DigitChar(d: nat): char
    requires d < 10
  {
    ['0', '1', '2', '3', '4', '5', '6', '7', '8', '9'][d]
  }

  /** Decimal rendering of a natural number, without leading zeros. */
  function NatToString(n: nat): (r: string)
    ensures |r| >= 1
    ensures forall i :: 0 <= i < |r| ==> '0' <= r[i] <= '9'
    ensures |r| > 1 ==> r[0] != '0'
    decreases n
  {
    if n < 10 then [DigitChar(n)] else NatToString(n / 10) + [DigitChar(n % 10)]
  }

  function IntToString(n: int): string {
    if n < 0 then "-" + NatToString(-n) else NatToString(n)
  }

  function DigitValue(c: char): nat
    requires '0' <= c <= '9'
  {
    (c as int - '0' as int) as nat
  }

  /** The value of a string of decimal digits. */
  function DigitsValue(s: string): nat
    requires forall i :: 0 <= i < |s| ==> '0' <= s[i] <= '9'
  {
    if |s| == 0 then 0 else DigitsValue(s[..|s| - 1]) * 10 + DigitValue(s[|s| - 1])
  }

  /** A property key that names an array index: canonical decimal, no leading zero. */
  function ArrayIndex(key: string): Option<nat> {
    if |key| == 0 || (|key| > 1 && key[0] == '0') then None
    else if forall i :: 0 <= i < |key| ==> '0' <= key[i] <= '9' then Some(DigitsValue(key))
    else None
  }

  /** `String(v)`: the key a value becomes when used as a property name or concatenated. */
  function ToJsString(v: Value): string
    decreases v
  {
    match v
    case Undefined => "undefined"
    case Null => "null"
    case Bool(b) => if b then "true" else "false"
    case Num(n) => IntToString(n)
    case Str(s) => s
    case Func(_) => "function"
    case Arr(items) => JoinItems(v, 0)
    case Obj(_) => "[object Object]"
  }

  /** `Array.prototype.join(',')`, where `null` and `undefined` items print as nothing. */
  function JoinItems(a: Value, i: nat): string
    requires a.Arr? && i <= |a.items|
    decreases a, |a.items| - i
  {
    if i == |a.items| then ""
    else
      var x := a.items[i];
      var here := if x.Undefined? || x.Null? then "" else ToJsString(x);
      if i == |a.items| - 1 then here else here + "," + JoinItems(a, i + 1)
  }

  /** `v[key]`: reading any property of `undefined` or `null` throws; a missing
      property reads as `undefined`. Arrays and strings expose their indices
      and `length`; inherited prototype members are not modelled. */
  function GetProp(v: Value, key: string): (r: Result<Value>)
    ensures r.Failure? <==> v.Undefined? || v.Null?
    ensures r.Failure? ==> r.error == TypeError
    ensures v.Obj? ==> r == Success(match Dict.Lookup(v.fields, key)
                                       case Some(x) => x
                                       case None => Undefined)
  {
    match v
    case Undefined => Failure(TypeError)
    case Null => Failure(TypeError)
    case Obj(fields) =>
      Success(match Dict.Lookup(fields, key) case Some(x) => x case None => Undefined)
    case Arr(items) =>
      if key == "length" then Success(Num(|items|))
      else (match ArrayIndex(key)
        case Some(i) => if i < |items| then Success(items[i]) else Success(Undefined)
        case None => Success(Undefined))
    case Str(s) =>
      if key == "length" then Success(Num(|s|))
      else (match ArrayIndex(key)
        case Some(i) => if i < |s| then Success(Str([s[i]])) else Success(Undefined)
        case None => Success(Undefined))
    case _ => Success(Undefined)
  }

  /** `a.key` where the caller has already checked that `a` is neither `undefined` nor `null`. */
  function Field(v: Value, key: string): Value
    requires !v.Undefined? && !v.Null?
  {
    GetProp(v, key).value
  }

  function HexDigit(d: nat): char
    requires d < 16
  {
    "0123456789abcdef"[d]
  }

  /** `JSON.stringify` quoting of a string. */
  function Quote(s: string): (r: string)
    ensures |r| >= 2 && r[0] == '"' && r[|r| - 1] == '"'
  {
    "\"" + Escape(s) + "\""
  }

  function Escape(s: string): string {
    if |s| == 0 then ""
    else
      var c := s[0];
      var e :=
        if c == '"' then "\\\""
        else if c == '\\' then "\\\\"
        else if c == '\n' then "\\n"
        else if c == '\r' then "\\r"
        else if c == '\t' then "\\t"
        else if c as int == 8 then "\\b"
        else if c as int == 12 then "\\f"
        else if (c as int) < 0x20 then "\\u00" + [HexDigit(c as int / 16), HexDigit(c as int % 16)]
        else [c];
      e + Escape(s[1..])
  }

  /** `JSON.stringify(v)`: `None` stands for the `undefined` it returns for
      `undefined` and functions. Inside arrays those print as `null`; inside
      objects their keys are skipped. */
  function JsonStringify(v: Value): Option<string>
    decreases v
  {
    match v
    case Undefined => None
    case Func(_) => None
    case Null => Some("null")
    case Bool(b) => Some(if b then "true" else "false")
    case Num(n) => Some(IntToString(n))
    case Str(s) => Some(Quote(s))
    case Arr(_) => Some("[" + JsonItems(v, 0) + "]")
    case Obj(_) => Some("{" + JsonFields(v, 0, false) + "}")
  }

  function JsonItems(a: Value, i: nat): string
    requires a.Arr? && i <= |a.items|
    decreases a, |a.items| - i
  {
    if i == |a.items| then ""
    else
      var here := match JsonStringify(a.items[i]) case Some(t) => t case None => "null";
      (if i == 0 then "" else ",") + here + JsonItems(a, i + 1)
  }

  function JsonFields(o: Value, i: nat, started: bool): string
    requires o.Obj? && i <= |o.fields|
    decreases o, |o.fields| - i
  {
    if i == |o.fields| then ""
    else match JsonStringify(o.fields[i].1)
      case None => JsonFields(o, i + 1, started)
      case Some(t) =>
        (if started then "," else "") + Quote(o.fields[i].0) + ":" + t + JsonFields(o, i + 1, true)
  }

  /** The text a template literal prints for `JSON.stringify(v)`. */
  function StringifiedText(v: Value): string {
    match JsonStringify(v) case Some(t) => t case None => "undefined"
  }

  /** Canonical index keys and numbers round-trip: `String(i)` is the key of index `i`. */
  lemma {:induction false} ArrayIndexOfNatToString(n: nat)
    ensures ArrayIndex(NatToString(n)) == Some(n)
  {
    var s := NatToString(n);
    DigitsOfNatToString(n);
  }

  lemma {:induction false} DigitsOfNatToString(n: nat)
    ensures DigitsValue(NatToString(n)) == n
    decreases n
  {
    var s := NatToString(n);
    if n < 10 {
      DigitCharValue(n);
    } else {
      DigitsOfNatToString(n / 10);
      DigitsSnoc(NatToString(n / 10), n % 10);
      assert s == NatToString(n / 10) + [DigitChar(n % 10)];
      DivMod10(n);
    }
  }

  lemma DigitCharValue(d: nat)
    requires d < 10
    ensures '0' <= DigitChar(d) <= '9' && DigitValue(DigitChar(d)) == d
  {
  }

  /** Appending a digit multiplies the value by ten and adds the digit. */
  lemma DigitsSnoc(s: string, d: nat)
    requires d < 10 && forall i :: 0 <= i < |s| ==> '0' <= s[i] <= '9'
    ensures forall i :: 0 <= i < |s + [DigitChar(d)]| ==> '0' <= (s + [DigitChar(d)])[i] <= '9'
    ensures DigitsValue(s + [DigitChar(d)]) == DigitsValue(s) * 10 + d
  {
    DigitCharValue(d);
    var t := s + [DigitChar(d)];
    assert t[..|t| - 1] == s;
  }

  lemma DivMod10(n: nat)
    ensures n == (n / 10) * 10 + n % 10
  {
  }
}

=== FILE: local.dfy ===
/** The `commit` and `dispatch` a module's handlers receive in their context
    (`makeLocalContext`): in a namespaced module they qualify the type with
    the namespace unless called with `{ root: true }`, and drop a qualified
    type that nothing is registered under. */
module LocalContext {
  import opened Base
  import opened Js
  import opened Registry
  import opened Store

  /** The type a local call resolves to. */
  function Target(ns: string, u: Unified): string {
    if ns == "" || OptionFlag(u.options, "root") then u.utype else ns + u.utype
  }

  /** Local `commit(type, payload, options)`. */
  function LocalCommit(s: Store, w: World, ctx: Context, t: Value, p: Value, o: Value): Run {
    if ctx.ns == "" then Commit(s, w, t, p, o)
    else
      match UnifyObjectStyle(t, p, o)
      case Failure(e) => Threw(s, e)
      case Success(u) =>
        if OptionFlag(u.options, "root") then Commit(s, w, Str(u.utype), u.payload, u.options)
        else
          var qualified := ctx.ns + u.utype;
          if qualified !in s.reg.mutations then Ok(s, Nothing)
          else Commit(s, w, Str(qualified), u.payload, u.options)
  }

  /** Local `dispatch(type, payload, options)`: the options are read for
      `root` but not passed on. */
  function LocalDispatch(s: Store, w: World, ctx: Context, t: Value, p: Value, o: Value): Run {
    if ctx.ns == "" then Dispatch(s, w, t, p)
    else
      match UnifyObjectStyle(t, p, o)
      case Failure(e) => Threw(s, e)
      case Success(u) =>
        if OptionFlag(u.options, "root") then Dispatch(s, w, Str(u.utype), u.payload)
        else
          var qualified := ctx.ns + u.utype;
          if qualified !in s.reg.actions then Ok(s, Nothing)
          else Dispatch(s, w, Str(qualified), u.payload)
  }

  /** Unified arguments are a fixed point: passing them on as a string type
      unifies to the same triple. */
  lemma UnifyFixpoint(u: Unified)
    ensures UnifyObjectStyle(Str(u.utype), u.payload, u.options) == Success(u)
  {
  }

  /** A local commit behaves as a global commit of its target type, and does
      nothing when no mutation is registered under that type. */
  lemma LocalCommitResolves(s: Store, w: World, ctx: Context, t: Value, p: Value, o: Value)
    requires UnifyObjectStyle(t, p, o).Success?
    ensures var u := UnifyObjectStyle(t, p, o).value;
      var target := Target(ctx.ns, u);
      var r := LocalCommit(s, w, ctx, t, p, o);
      && (target !in s.reg.mutations ==> r == Ok(s, Nothing))
      && (target in s.reg.mutations ==> r == Commit(s, w, Str(target), u.payload, u.options))
  {
    var u := UnifyObjectStyle(t, p, o).value;
    var target := Target(ctx.ns, u);
    UnifyFixpoint(Unified(target, u.payload, u.options));
  }

  /** A local commit that returns ran exactly the handlers registered under
      its target type, then every subscriber, and restored the committing
      flag. */
  lemma LocalCommitRunsTarget(s: Store, w: World, ctx: Context, t: Value, p: Value, o: Value)
    requires UnifyObjectStyle(t, p, o).Success?
    requires Target(ctx.ns, UnifyObjectStyle(t, p, o).value) in s.reg.mutations
    ensures var u := UnifyObjectStyle(t, p, o).value;
      var target := Target(ctx.ns, u);
      var r := LocalCommit(s, w, ctx, t, p, o);
      r.Ok? ==>
        && r.store.log == s.log + MutationEvents(s.reg.mutations[target], u.payload, true)
                                + NotifyEvents(s.subscribers, target, u.payload)
        && r.store.committing == s.committing
  {
    var u := UnifyObjectStyle(t, p, o).value;
    var target := Target(ctx.ns, u);
    LocalCommitResolves(s, w, ctx, t, p, o);
    UnifyFixpoint(Unified(target, u.payload, u.options));
    CommitRunsHandlersThenSubscribers(s, w, Str(target), u.payload, u.options);
  }

  /** A local dispatch behaves as a global dispatch of its target type, and
      does nothing when no action is registered under that type. */
  lemma LocalDispatchResolves(s: Store, w: World, ctx: Context, t: Value, p: Value, o: Value)
    requires UnifyObjectStyle(t, p, o).Success?
    ensures var u := UnifyObjectStyle(t, p, o).value;
      var target := Target(ctx.ns, u);
      var r := LocalDispatch(s, w, ctx, t, p, o);
      && (target !in s.reg.actions ==> r == Ok(s, Nothing))
      && (target in s.reg.actions ==> r == Dispatch(s, w, Str(target), u.payload))
  {
    var u := UnifyObjectStyle(t, p, o).value;
    var target := Target(ctx.ns, u);
    if ctx.ns == "" {
      DispatchUnifies(s, w, t, p, o);
    } else if OptionFlag(u.options, "root") {
      assert LocalDispatch(s, w, ctx, t, p, o) == Dispatch(s, w, Str(target), u.payload);
      if target !in s.reg.actions {
        DispatchMissing(s, w, target, u.payload);
      }
    }
  }

  /** Dispatching a type no action is registered under does nothing. */
  lemma DispatchMissing(s: Store, w: World, x: string, p: Value)
    requires x !in s.reg.actions
    ensures Dispatch(s, w, Str(x), p) == Ok(s, Nothing)
  {
    UnifyFixpoint(Unified(x, p, Undefined));
  }

  /** A global dispatch is a dispatch of its unified type and payload, and
      does nothing when no action is registered under that type. The options
      argument plays no part in either. */
  lemma DispatchUnifies(s: Store, w: World, t: Value, p: Value, o: Value)
    requires UnifyObjectStyle(t, p, o).Success?
    ensures var u := UnifyObjectStyle(t, p, o).value;
      && Dispatch(s, w, t, p) == Dispatch(s, w, Str(u.utype), u.payload)
      && (u.utype !in s.reg.actions ==> Dispatch(s, w, t, p) == Ok(s, Nothing))
  {
    var u := UnifyObjectStyle(t, p, o).value;
    UnifyFixpoint(Unified(u.utype, u.payload, Undefined));
    assert UnifyObjectStyle(t, p, Undefined) == Success(Unified(u.utype, u.payload, UnifyObjectStyle(t, p, Undefined).value.options));
  }
}

=== FILE: module.dfy ===
/** One node of the module tree: the raw definition it was built from, its
    own state, whether it was registered at runtime, and its children by key. */
module Modules {
  import opened Base
  import opened Js
  import Dict

  /** A raw module definition as the user writes it. A handler map is `None`
      when the property is absent (or falsy); nested modules with no
      `modules` property are the empty map. */
  datatype RawModule = RawModule(
    state: Value,
    namespaced: Value,
    getters: Option<Dict.Entries<Value>>,
    mutations: Option<Dict.Entries<Value>>,
    actions: Option<Dict.Entries<Value>>,
    modules: Dict.Entries<RawModule>)

  datatype Module = Module(
    raw: RawModule,
    state: Value,
    runtime: bool,
    children: Dict.Entries<Module>)

  /** A raw definition whose `modules` maps, at every depth, have distinct keys. */
  predicate WellFormedRaw(raw: RawModule)
    decreases raw
  {
    && Dict.Distinct(raw.modules)
    && forall i :: 0 <= i < |raw.modules| ==> WellFormedRaw(raw.modules[i].1)
  }

  /** The state a new node starts with: the result of calling `raw.state` when it
      is a function (the call is the `invoke` oracle), else `raw.state` itself. */
  function InitialState(raw: RawModule, invoke: nat -> Value): Value {
    if IsFunction(raw.state) then invoke(raw.state.id) else raw.state
  }

  /** `new Module(rawModule, runtime)`. */
  function NewModule(raw: RawModule, runtime: bool, invoke: nat -> Value): (m: Module)
    ensures m.children == []
    ensures m.raw == raw && m.runtime == runtime
    ensures raw.state.Func? ==> m.state == invoke(raw.state.id)
    ensures !raw.state.Func? ==> m.state == raw.state
  {
    Module(raw, InitialState(raw, invoke), runtime, [])
  }

  /** The `namespaced` getter: the raw flag coerced to a boolean. */
  predicate Namespaced(m: Module) {
    Truthy(m.raw.namespaced)
  }

  function GetChild(m: Module, key: string): Option<Module> {
    Dict.Lookup(m.children, key)
  }

  predicate HasChild(m: Module, key: string) {
    Dict.HasKey(m.children, key)
  }

  /** `addChild(key, module)`: the child is reachable under `key` afterwards and
      every other key, and the node itself, are untouched. */
  function AddChild(m: Module, key: string, child: Module): (r: Module)
    ensures GetChild(r, key) == Some(child)
    ensures forall k :: k != key ==> GetChild(r, k) == GetChild(m, k)
    ensures r.raw == m.raw && r.state == m.state && r.runtime == m.runtime
    ensures Dict.Distinct(m.children) ==> Dict.Distinct(r.children)
    ensures !HasChild(m, key) ==> r.children == m.children + [(key, child)]
  {
    m.(children := Dict.Put(m.children, key, child))
  }

  /** `removeChild(key)`: afterwards `key` is absent and every other key is untouched. */
  function RemoveChild(m: Module, key: string): (r: Module)
    ensures !HasChild(r, key)
    ensures forall k :: k != key ==> GetChild(r, k) == GetChild(m, k)
    ensures r.raw == m.raw && r.state == m.state && r.runtime == m.runtime
    ensures Dict.Distinct(m.children) ==> Dict.Distinct(r.children)
  {
    m.(children := Dict.Remove(m.children, key))
  }

  /** `update(rawModule)` of a node during hot reload: the new `namespaced` flag is
      taken as is; each handler map present in the new definition replaces the
      old one, an absent one keeps the old. State and children are untouched. */
  function UpdateRaw(m: Module, newRaw: RawModule): (r: Module)
    ensures r.state == m.state && r.runtime == m.runtime && r.children == m.children
    ensures Namespaced(r) <==> Truthy(newRaw.namespaced)
    ensures r.raw.mutations == (if newRaw.mutations.Some? then newRaw.mutations else m.raw.mutations)
    ensures r.raw.actions == (if newRaw.actions.Some? then newRaw.actions else m.raw.actions)
    ensures r.raw.getters == (if newRaw.getters.Some? then newRaw.getters else m.raw.getters)
  {
    var raw := m.raw.(namespaced := newRaw.namespaced);
    var raw := if newRaw.actions.Some? then raw.(actions := newRaw.actions) else raw;
    var raw := if newRaw.mutations.Some? then raw.(mutations := newRaw.mutations) else raw;
    var raw := if newRaw.getters.Some? then raw.(getters := newRaw.getters) else raw;
    m.(raw := raw)
  }

  /** The tree a raw definition denotes: one node per raw module, children in
      key order, all with the same `runtime` flag. Reference for registration. */
  function Build(raw: RawModule, runtime: bool, invoke: nat -> Value): Module
    decreases raw, 1
  {
    Module(raw, InitialState(raw, invoke), runtime, BuildChildren(raw, 0, runtime, invoke))
  }

  function BuildChildren(raw: RawModule, i: nat, runtime: bool, invoke: nat -> Value): (r: Dict.Entries<Module>)
    requires i <= |raw.modules|
    ensures |r| == |raw.modules| - i
    ensures forall j :: 0 <= j < |r| ==> r[j].0 == raw.modules[i + j].0
    decreases raw, 0, |raw.modules| - i
  {
    if i == |raw.modules| then []
    else [(raw.modules[i].0, Build(raw.modules[i].1, runtime, invoke))] + BuildChildren(raw, i + 1, runtime, invoke)
  }

  /** Every node of the tree carries the given `runtime` flag. */
  predicate AllRuntime(m: Module, runtime: bool)
    decreases m
  {
    && m.runtime == runtime
    && forall i :: 0 <= i < |m.children| ==> AllRuntime(m.children[i].1, runtime)
  }

  /** Children keys are distinct at every node. */
  predicate WellFormedTree(m: Module)
    decreases m
  {
    && Dict.Distinct(m.children)
    && forall i :: 0 <= i < |m.children| ==> WellFormedTree(m.children[i].1)
  }

  /** Every node of a built tree carries the flag it was built with, and the tree
      has distinct keys wherever the raw definition does. */
  lemma {:induction false} BuildShape(raw: RawModule, runtime: bool, invoke: nat -> Value)
    requires WellFormedRaw(raw)
    ensures AllRuntime(Build(raw, runtime, invoke), runtime)
    ensures WellFormedTree(Build(raw, runtime, invoke))
    decreases raw
  {
    var m := Build(raw, runtime, invoke);
    forall i | 0 <= i < |m.children|
      ensures AllRuntime(m.children[i].1, runtime) && WellFormedTree(m.children[i].1)
    {
      BuildChildAt(raw, 0, i, runtime, invoke);
      BuildShape(raw.modules[i].1, runtime, invoke);
    }
    assert Dict.Distinct(m.children) by {
      forall i, j | 0 <= i < j < |m.children| ensures m.children[i].0 != m.children[j].0 {
        assert m.children[i].0 == raw.modules[i].0;
      }
    }
  }

  lemma {:induction false} BuildChildAt(raw: RawModule, from: nat, j: nat, runtime: bool, invoke: nat -> Value)
    requires from + j < |raw.modules|
    ensures BuildChildren(raw, from, runtime, invoke)[j] == (raw.modules[from + j].0, Build(raw.modules[from + j].1, runtime, invoke))
    decreases j
  {
    if j > 0 {
      BuildChildAt(raw, from + 1, j - 1, runtime, invoke);
    }
  }

  /** The keys and nesting of a tree, together with each node's state and
      runtime flag: what a hot update must leave alone. */
  datatype Skeleton = Skeleton(state: Value, runtime: bool, children: seq<(string, Skeleton)>)

  function SkeletonOf(m: Module): Skeleton
    decreases m, 1
  {
    Skeleton(m.state, m.runtime, SkeletonChildren(m, 0))
  }

  function SkeletonChildren(m: Module, i: nat): (r: seq<(string, Skeleton)>)
    requires i <= |m.children|
    ensures |r| == |m.children| - i
    decreases m, 0, |m.children| - i
  {
    if i == |m.children| then []
    else [(m.children[i].0, SkeletonOf(m.children[i].1))] + SkeletonChildren(m, i + 1)
  }
}

=== FILE: registry.dfy ===
/** The store's flat registries: handler lists per qualified mutation and
    action type, one wrapped getter per qualified getter type, and the
    namespace map from a namespace string to the module registered under it.

    A handler is kept abstractly: the user function (an opaque `Value`)
    together with the local context of the module that declared it. */
module Registry {
  import opened Base
  import opened Js

  /** What a module's local context is built from: its namespace and its path. */
  datatype Context = Context(ns: string, path: seq<string>)

  /** A wrapped handler: the user function and the context it is called with. */
  datatype Handler = Handler(fn: Value, ctx: Context)

  type Handlers = map<string, seq<Handler>>

  datatype Registry = Registry(
    mutations: Handlers,
    actions: Handlers,
    getters: map<string, Handler>,
    namespaces: map<string, seq<string>>)

  /** Four fresh `Object.create(null)` maps. */
  const Empty: Registry := Registry(map[], map[], map[], map[])

  /** `store._mutations[type]` (or `_actions`), where a missing list reads as empty. */
  function Entry(hs: Handlers, t: string): seq<Handler> {
    if t in hs then hs[t] else []
  }

  /** `registerMutation` / `registerAction`: create the list on first use and
      push the handler; earlier handlers and other types are untouched. */
  function RegisterHandler(hs: Handlers, t: string, h: Handler): (r: Handlers)
    ensures t in r && Entry(r, t) == Entry(hs, t) + [h]
    ensures forall t' :: t' != t ==> (t' in r <==> t' in hs) && Entry(r, t') == Entry(hs, t')
  {
    hs[t := Entry(hs, t) + [h]]
  }

  /** `registerGetter`: a type already present keeps its first getter. */
  function RegisterGetter(gs: map<string, Handler>, t: string, h: Handler): map<string, Handler> {
    if t in gs then gs else gs[t := h]
  }

  /** One registration step, in the order `installModule` performs them. */
  datatype Decl =
    | NamespaceDecl(ns: string, path: seq<string>)
    | MutationDecl(mtype: string, mh: Handler)
    | ActionDecl(atype: string, ah: Handler)
    | GetterDecl(gtype: string, gh: Handler)

  function Apply(reg: Registry, d: Decl): Registry {
    match d
    case NamespaceDecl(ns, path) => reg.(namespaces := reg.namespaces[ns := path])
    case MutationDecl(t, h) => reg.(mutations := RegisterHandler(reg.mutations, t, h))
    case ActionDecl(t, h) => reg.(actions := RegisterHandler(reg.actions, t, h))
    case GetterDecl(t, h) => reg.(getters := RegisterGetter(reg.getters, t, h))
  }

  /** Performs the registrations in order. */
  function RegisterAll(reg: Registry, ds: seq<Decl>): Registry
    decreases |ds|
  {
    if |ds| == 0 then reg else RegisterAll(Apply(reg, ds[0]), ds[1..])
  }

  /** The mutation handlers declared for `t`, in declaration order. */
  function DeclaredMutations(ds: seq<Decl>, t: string): seq<Handler> {
    if |ds| == 0 then []
    else (if ds[0].MutationDecl? && ds[0].mtype == t then [ds[0].mh] else []) + DeclaredMutations(ds[1..], t)
  }

  function DeclaredActions(ds: seq<Decl>, t: string): seq<Handler> {
    if |ds| == 0 then []
    else (if ds[0].ActionDecl? && ds[0].atype == t then [ds[0].ah] else []) + DeclaredActions(ds[1..], t)
  }

  /** The first getter declared for `t`. */
  function FirstGetter(ds: seq<Decl>, t: string): Option<Handler> {
    if |ds| == 0 then None
    else if ds[0].GetterDecl? && ds[0].gtype == t then Some(ds[0].gh)
    else FirstGetter(ds[1..], t)
  }

  /** The module path of the last namespace declaration for `ns`. */
  function LastNamespace(ds: seq<Decl>, ns: string): Option<seq<string>> {
    if |ds| == 0 then None
    else match LastNamespace(ds[1..], ns)
      case Some(p) => Some(p)
      case None => if ds[0].NamespaceDecl? && ds[0].ns == ns then Some(ds[0].path) else None
  }

  lemma {:induction false} RegisterAllConcat(reg: Registry, a: seq<Decl>, b: seq<Decl>)
    ensures RegisterAll(reg, a + b) == RegisterAll(RegisterAll(reg, a), b)
    decreases |a|
  {
    if |a| > 0 {
      assert (a + b)[0] == a[0];
      assert (a + b)[1..] == a[1..] + b;
      RegisterAllConcat(Apply(reg, a[0]), a[1..], b);
    } else {
      assert a + b == b;
    }
  }

  lemma {:induction false} DeclaredMutationsConcat(a: seq<Decl>, b: seq<Decl>, t: string)
    ensures DeclaredMutations(a + b, t) == DeclaredMutations(a, t) + DeclaredMutations(b, t)
    decreases |a|
  {
    if |a| > 0 {
      assert (a + b)[0] == a[0];
      assert (a + b)[1..] == a[1..] + b;
      DeclaredMutationsConcat(a[1..], b, t);
    } else {
      assert a + b == b;
    }
  }

  lemma {:induction false} DeclaredActionsConcat(a: seq<Decl>, b: seq<Decl>, t: string)
    ensures DeclaredActions(a + b, t) == DeclaredActions(a, t) + DeclaredActions(b, t)
    decreases |a|
  {
    if |a| > 0 {
      assert (a + b)[0] == a[0];
      assert (a + b)[1..] == a[1..] + b;
      DeclaredActionsConcat(a[1..], b, t);
    } else {
      assert a + b == b;
    }
  }

  /** Handler lists only grow: after any registrations the list for `t` is the
      old list followed by the handlers declared for `t`, in order. */
  lemma {:induction false} MutationsAfterRegisterAll(reg: Registry, ds: seq<Decl>, t: string)
    ensures Entry(RegisterAll(reg, ds).mutations, t) == Entry(reg.mutations, t) + DeclaredMutations(ds, t)
    decreases |ds|
  {
    if |ds| > 0 {
      MutationsAfterRegisterAll(Apply(reg, ds[0]), ds[1..], t);
      ApplyMutationsEntry(reg, ds[0], t);
    }
  }

  /** One registration adds to the list for `t` only when it declares `t`. */
  lemma ApplyMutationsEntry(reg: Registry, d: Decl, t: string)
    ensures Entry(Apply(reg, d).mutations, t)
         == Entry(reg.mutations, t) + if d.MutationDecl? && d.mtype == t then [d.mh] else []
  {
    if !d.MutationDecl? {
      assert Apply(reg, d).mutations == reg.mutations;
    }
  }

  lemma ApplyActionsEntry(reg: Registry, d: Decl, t: string)
    ensures Entry(Apply(reg, d).actions, t)
         == Entry(reg.actions, t) + if d.ActionDecl? && d.atype == t then [d.ah] else []
  {
    if !d.ActionDecl? {
      assert Apply(reg, d).actions == reg.actions;
    }
  }

  lemma {:induction false} ActionsAfterRegisterAll(reg: Registry, ds: seq<Decl>, t: string)
    ensures Entry(RegisterAll(reg, ds).actions, t) == Entry(reg.actions, t) + DeclaredActions(ds, t)
    decreases |ds|
  {
    if |ds| > 0 {
      ActionsAfterRegisterAll(Apply(reg, ds[0]), ds[1..], t);
      ApplyActionsEntry(reg, ds[0], t);
    }
  }

  /** The first getter registered for a type wins; later ones are ignored. */
  lemma {:induction false} GettersAfterRegisterAll(reg: Registry, ds: seq<Decl>, t: string)
    ensures t in reg.getters ==> t in RegisterAll(reg, ds).getters && RegisterAll(reg, ds).getters[t] == reg.getters[t]
    ensures t !in reg.getters ==>
      (t in RegisterAll(reg, ds).getters <==> FirstGetter(ds, t).Some?) &&
      (t in RegisterAll(reg, ds).getters ==> RegisterAll(reg, ds).getters[t] == FirstGetter(ds, t).value)
    decreases |ds|
  {
    if |ds| > 0 {
      GettersAfterRegisterAll(Apply(reg, ds[0]), ds[1..], t);
    }
  }

  /** A later namespace entry overwrites an earlier one. */
  lemma {:induction false} NamespacesAfterRegisterAll(reg: Registry, ds: seq<Decl>, ns: string)
    ensures LastNamespace(ds, ns).Some? ==>
      ns in RegisterAll(reg, ds).namespaces && RegisterAll(reg, ds).namespaces[ns] == LastNamespace(ds, ns).value
    ensures LastNamespace(ds, ns).None? ==>
      (ns in RegisterAll(reg, ds).namespaces <==> ns in reg.namespaces) &&
      (ns in reg.namespaces ==> RegisterAll(reg, ds).namespaces[ns] == reg.namespaces[ns])
    decreases |ds|
  {
    if |ds| > 0 {
      NamespacesAfterRegisterAll(Apply(reg, ds[0]), ds[1..], ns);
    }
  }
  /** A declared mutation handler is among those declared for its type. */
  lemma {:induction false} DeclaredMutationsHas(ds: seq<Decl>, j: nat)
    requires j < |ds| && ds[j].MutationDecl?
    ensures ds[j].mh in DeclaredMutations(ds, ds[j].mtype)
    decreases j
  {
    if j > 0 {
      DeclaredMutationsHas(ds[1..], j - 1);
    }
  }

  lemma {:induction false} DeclaredActionsHas(ds: seq<Decl>, j: nat)
    requires j < |ds| && ds[j].ActionDecl?
    ensures ds[j].ah in DeclaredActions(ds, ds[j].atype)
    decreases j
  {
    if j > 0 {
      DeclaredActionsHas(ds[1..], j - 1);
    }
  }

  lemma {:induction false} FirstGetterFound(ds: seq<Decl>, j: nat)
    requires j < |ds| && ds[j].GetterDecl?
    ensures FirstGetter(ds, ds[j].gtype).Some?
    decreases j
  {
    if j > 0 && !(ds[0].GetterDecl? && ds[0].gtype == ds[j].gtype) {
      FirstGetterFound(ds[1..], j - 1);
    }
  }

  lemma {:induction false} LastNamespaceFound(ds: seq<Decl>, j: nat)
    requires j < |ds| && ds[j].NamespaceDecl?
    ensures LastNamespace(ds, ds[j].ns).Some?
    decreases j
  {
    if j > 0 {
      LastNamespaceFound(ds[1..], j - 1);
    }
  }
}

=== FILE: state.dfy ===
/** The store's state tree: reading the state of a module by path, and
    attaching a module's state under its key in its parent's state. */
module State {
  import opened Base
  import opened Js
  import Dict

  /** `getNestedState(state, path)`: reads `state[key]` key by key; reading a
      property of `undefined` or `null` throws. */
  function GetNestedState(v: Value, path: seq<string>): (r: Result<Value>)
    ensures |path| == 0 ==> r == Success(v)
    ensures r.Failure? ==> r.error == TypeError
    decreases |path|
  {
    if |path| == 0 then Success(v)
    else match GetProp(v, path[0])
      case Failure(e) => Failure(e)
      case Success(c) => GetNestedState(c, path[1..])
  }

  /** Reading one key further down is one more property read. */
  lemma {:induction false} GetNestedStateSnoc(v: Value, path: seq<string>, key: string)
    ensures GetNestedState(v, path + [key]) ==
      match GetNestedState(v, path)
      case Failure(e) => Failure(e)
      case Success(c) => GetProp(c, key)
    decreases |path|
  {
    if |path| == 0 {
      assert path + [key] == [key];
      assert [key][1..] == [];
    } else {
      assert (path + [key])[1..] == path[1..] + [key];
      match GetProp(v, path[0])
      case Failure(_) =>
      case Success(c) => GetNestedStateSnoc(c, path[1..], key);
    }
  }

  /** A value that can take a new property in this model: an object, or an
      array for a canonical index key. */
  predicate Settable(target: Value, key: string) {
    target.Obj? || (target.Arr? && ArrayIndex(key).Some?)
  }

  function Holes(n: nat): (r: seq<Value>)
    ensures |r| == n
    ensures forall i :: 0 <= i < n ==> r[i] == Undefined
  {
    if n == 0 then [] else Holes(n - 1) + [Undefined]
  }

  /** `moduleName in parentState` followed by `Vue.set(parentState, moduleName, val)`.
      The `in` test throws on a primitive, `undefined` or `null`; an array
      index is written in place, growing the array with holes if needed. */
  function SetField(target: Value, key: string, val: Value): (r: Result<Value>)
    ensures r.Success? <==> Settable(target, key)
    ensures r.Success? ==> GetProp(r.value, key) == Success(val)
    ensures r.Success? && target.Obj? ==> r.value.Obj? && forall k :: k != key ==> GetProp(r.value, k) == GetProp(target, k)
    ensures !Settable(target, key) && !target.Arr? && !target.Func? ==> r == Failure(TypeError)
  {
    match target
    case Obj(fields) => Success(Obj(Dict.Put(fields, key, val)))
    case Arr(items) =>
      (match ArrayIndex(key)
       case Some(i) =>
         var grown := if i < |items| then items[i := val] else items + Holes(i - |items|) + [val];
         assert key != "length" by { assert key[0] != 'l'; }
         Success(Arr(grown))
       case None => Failure(Unmodelled))
    case Func(_) => Failure(Unmodelled)
    case _ => Failure(TypeError)
  }

  /** The state with `val` written under `key` of the value at `path`, the
      containers on the way rebuilt around it (JavaScript mutates the shared
      parent object in place). */
  function SetNested(v: Value, path: seq<string>, key: string, val: Value): Result<Value>
    decreases |path|
  {
    if |path| == 0 then SetField(v, key, val)
    else match v
      case Obj(fields) =>
        (match Dict.Lookup(fields, path[0])
         case None => Failure(TypeError)
         case Some(c) =>
           (match SetNested(c, path[1..], key, val)
            case Failure(e) => Failure(e)
            case Success(c') => Success(Obj(Dict.Put(fields, path[0], c')))))
      case Arr(items) =>
        (match ArrayIndex(path[0])
         case Some(i) =>
           if i < |items| then
             (match SetNested(items[i], path[1..], key, val)
              case Failure(e) => Failure(e)
              case Success(c') => Success(Arr(items[i := c'])))
           else Failure(TypeError)
         case None => Failure(TypeError))
      case _ => Failure(TypeError)
  }

  /** Reading from a primitive, `undefined`, `null` or a function never yields
      an object or an array. */
  lemma {:induction false} NoContainerBelowPrimitive(v: Value, path: seq<string>)
    requires !v.Obj? && !v.Arr?
    ensures GetNestedState(v, path).Success? ==> !GetNestedState(v, path).value.Obj? && !GetNestedState(v, path).value.Arr?
    decreases |path|
  {
    if |path| > 0 {
      match GetProp(v, path[0])
      case Failure(_) =>
      case Success(c) => NoContainerBelowPrimitive(c, path[1..]);
    }
  }

  /** Writing succeeds exactly when the parent path resolves to a settable
      value, and afterwards the new value is read back at `path + [key]`. */
  lemma {:induction false} SetNestedThenGet(v: Value, path: seq<string>, key: string, val: Value)
    ensures SetNested(v, path, key, val).Success? <==>
      GetNestedState(v, path).Success? && Settable(GetNestedState(v, path).value, key)
    ensures SetNested(v, path, key, val).Success? ==>
      GetNestedState(SetNested(v, path, key, val).value, path + [key]) == Success(val)
    decreases |path|, 1
  {
    if |path| == 0 {
      GetNestedStateSnoc(v, path, key);
    } else {
      match v {
        case Obj(fields) => SetNestedThenGetObj(fields, path, key, val);
        case Arr(items) => SetNestedThenGetArr(items, path, key, val);
        case _ =>
          GetNestedStateSnoc(v, path, key);
          NoContainerBelowPrimitive(v, path);
      }
    }
  }

  /** `SetNestedThenGet` for a path that starts inside an object. */
  lemma {:induction false} SetNestedThenGetObj(fields: Dict.Entries<Value>, path: seq<string>, key: string, val: Value)
    requires |path| > 0
    ensures SetNested(Obj(fields), path, key, val).Success? <==>
      GetNestedState(Obj(fields), path).Success? && Settable(GetNestedState(Obj(fields), path).value, key)
    ensures SetNested(Obj(fields), path, key, val).Success? ==>
      GetNestedState(SetNested(Obj(fields), path, key, val).value, path + [key]) == Success(val)
    decreases |path|, 0
  {
    var v := Obj(fields);
    match Dict.Lookup(fields, path[0]) {
      case None =>
        GetNestedStateSnoc(v, path, key);
        NoContainerBelowPrimitive(Undefined, path[1..]);
      case Some(c) =>
        SetNestedThenGet(c, path[1..], key, val);
        var r := SetNested(v, path, key, val);
        if r.Success? {
          var c' := SetNested(c, path[1..], key, val).value;
          assert GetProp(r.value, path[0]) == Success(c');
          SetNestedDescends(r.value, c', path, key);
        }
    }
  }

  /** `SetNestedThenGet` for a path that starts inside an array. */
  lemma {:induction false} SetNestedThenGetArr(items: seq<Value>, path: seq<string>, key: string, val: Value)
    requires |path| > 0
    ensures SetNested(Arr(items), path, key, val).Success? <==>
      GetNestedState(Arr(items), path).Success? && Settable(GetNestedState(Arr(items), path).value, key)
    ensures SetNested(Arr(items), path, key, val).Success? ==>
      GetNestedState(SetNested(Arr(items), path, key, val).value, path + [key]) == Success(val)
    decreases |path|, 0
  {
    var v := Arr(items);
    match ArrayIndex(path[0]) {
      case Some(i) =>
        assert path[0] != "length" by { assert path[0][0] != 'l'; }
        if i < |items| {
          SetNestedThenGet(items[i], path[1..], key, val);
          var r := SetNested(v, path, key, val);
          if r.Success? {
            var c' := SetNested(items[i], path[1..], key, val).value;
            assert GetProp(r.value, path[0]) == Success(c');
            SetNestedDescends(r.value, c', path, key);
          }
        } else {
          NoContainerBelowPrimitive(Undefined, path[1..]);
        }
      case None =>
        match GetProp(v, path[0]) {
          case Failure(_) =>
          case Success(c) => NoContainerBelowPrimitive(c, path[1..]);
        }
    }
  }

  /** Reading `path + [key]` from a value whose first step leads to `c` is
      reading `path[1..] + [key]` from `c`. */
  lemma SetNestedDescends(v: Value, c: Value, path: seq<string>, key: string)
    requires |path| > 0 && GetProp(v, path[0]) == Success(c)
    ensures GetNestedState(v, path + [key]) == GetNestedState(c, path[1..] + [key])
  {
    assert (path + [key])[1..] == path[1..] + [key];
  }
}

=== FILE: store.dfy ===
/** The store's runtime: object-style argument unification, the committing
    flag, `commit`, the synchronous part of `dispatch`, subscriptions and the
    local-getters cache.

    User code (mutation and action handlers, subscribers) is not interpreted:
    a `World` says what each call does to the state and whether it throws.
    Each call the store itself makes into user code is recorded in the
    store's `log`, so the order in which handlers and subscribers run is
    observable. Commits made inside an action are folded into the state the
    action returns and are not logged. */
module Store {
  import opened Base
  import opened Js
  import Util
  import opened Modules
  import opened Registry
  import opened State

  datatype Event =
    | MutationRan(mh: Handler, mpayload: Value, committing: bool)
    | SubscriberCalled(sub: Value, mtype: string, spayload: Value)
    | BeforeCalled(before: Value, atype: string, bpayload: Value)
    | ActionRan(ah: Handler, apayload: Value)

  /** An action subscriber object with its identity: `indexOf` compares references. */
  datatype ActionSub = ActionSub(ref: nat, sub: Value)

  datatype Store = Store(
    modules: Module,
    state: Value,
    committing: bool,
    strict: bool,
    reg: Registry,
    subscribers: seq<Value>,
    actionSubscribers: seq<ActionSub>,
    nextRef: nat,
    localGettersCache: map<string, map<string, string>>,
    log: seq<Event>)

  /** What user code does. `mutate` gets the handler, its local state, the
      payload and the root state, and yields the new root state; `act` also
      yields the handler's return value; `notify` and `before` are subscriber
      calls. A `Failure` or `Fail` is an exception thrown by user code. User
      code cannot re-enter the store: a subscriber call yields only whether
      it threw, and an action's own commits are folded into its new state. */
  datatype World = World(
    mutate: (Handler, Value, Value, Value) -> Result<Value>,
    notify: (Value, string, Value, Value) -> Outcome,
    before: (Value, string, Value, Value) -> Outcome,
    act: (Handler, Value, Value, Value) -> Result<(Value, Value)>)

  /** What `dispatch` hands to the promise it returns: nothing for an unknown
      type, the single handler's result, or the results `Promise.all` joins. */
  datatype Returned = Nothing | Single(value: Value) | Joined(values: seq<Value>)

  /** A store operation either returns, or throws leaving the store as it was
      at the throw. */
  datatype Run = Ok(store: Store, returned: Returned) | Threw(store: Store, error: Error)

  // ---------------------------------------------------------------- arguments

  datatype Unified = Unified(utype: string, payload: Value, options: Value)

  /** `commit({type, ...})` style: an object (or array) with a truthy `type`. */
  predicate ObjectStyle(t: Value) {
    Util.IsObject(t) && Truthy(Field(t, "type"))
  }

  /** `unifyObjectStyle(type, payload, options)`: the object form moves the
      object into the payload and the payload into the options; then the type
      must be a string. */
  function UnifyObjectStyle(t: Value, p: Value, o: Value): (r: Result<Unified>)
    ensures ObjectStyle(t) ==>
      (r.Success? <==> Field(t, "type").Str?) &&
      (r.Success? ==> r.value == Unified(Field(t, "type").s, t, p))
    ensures !ObjectStyle(t) ==>
      (r.Success? <==> t.Str?) &&
      (r.Success? ==> r.value == Unified(t.s, p, o))
    ensures r.Failure? ==> r.error.VuexError?
  {
    var (t', p', o') := if ObjectStyle(t) then (Field(t, "type"), t, p) else (t, p, o);
    match Util.Assert(Bool(TypeOf(t') == "string"), "expects string as the type, but found " + TypeOf(t') + ".")
    case Fail(e) => Failure(e)
    case Pass => Success(Unified(t'.s, p', o'))
  }

  /** `options && options[name]`. */
  predicate OptionFlag(options: Value, name: string) {
    Truthy(options) && Truthy(Field(options, name))
  }

  // ---------------------------------------------------------------- committing flag

  /** `_withCommit(fn)`: runs `fn` with the flag set and restores the saved
      value afterwards. There is no `finally`: when `fn` throws, the flag is
      left as `fn` left it. */
  function WithCommit(s: Store, f: Store -> Run): (r: Run)
    ensures f(s.(committing := true)).Ok? ==> r.Ok? && r.store.committing == s.committing
    ensures f(s.(committing := true)).Threw? ==> r == f(s.(committing := true))
  {
    match f(s.(committing := true))
    case Ok(s', v) => Ok(s'.(committing := s.committing), v)
    case Threw(s', e) => Threw(s', e)
  }

  /** Nested `_withCommit` calls restore each level's saved value: the inner
      one restores `true` whatever the body left, the outer one the value
      from before. */
  lemma WithCommitNested(s: Store, f: Store -> Run)
    requires f(s.(committing := true)).Ok?
    ensures WithCommit(s, (s1: Store) => WithCommit(s1, f)).Ok?
    ensures WithCommit(s, (s1: Store) => WithCommit(s1, f)).store.committing == s.committing
  {
    var s1 := s.(committing := true);
    assert s1.(committing := true) == s1;
    assert WithCommit(s1, f).store.committing;
  }

  // ---------------------------------------------------------------- commit

  /** The events of running `entry` in order, each seeing the committing flag `c`. */
  function MutationEvents(entry: seq<Handler>, payload: Value, c: bool): (r: seq<Event>)
    ensures |r| == |entry|
    ensures forall j :: 0 <= j < |entry| ==> r[j] == MutationRan(entry[j], payload, c)
  {
    seq(|entry|, j requires 0 <= j < |entry| => MutationRan(entry[j], payload, c))
  }

  function NotifyEvents(subs: seq<Value>, t: string, payload: Value): (r: seq<Event>)
    ensures |r| == |subs|
    ensures forall j :: 0 <= j < |subs| ==> r[j] == SubscriberCalled(subs[j], t, payload)
  {
    seq(|subs|, j requires 0 <= j < |subs| => SubscriberCalled(subs[j], t, payload))
  }

  /** `entry.forEach(handler => handler(payload))`: each wrapped handler reads
      its module's local state, then calls the user function. */
  function RunMutations(s: Store, w: World, entry: seq<Handler>, i: nat, payload: Value): Run
    requires i <= |entry|
    decreases |entry| - i
  {
    if i == |entry| then Ok(s, Nothing)
    else
      var h := entry[i];
      match GetNestedState(s.state, h.ctx.path)
      case Failure(e) => Threw(s, e)
      case Success(local) =>
        var s1 := s.(log := s.log + [MutationRan(h, payload, s.committing)]);
        match w.mutate(h, local, payload, s.state)
        case Failure(e) => Threw(s1, e)
        case Success(st) => RunMutations(s1.(state := st), w, entry, i + 1, payload)
  }

  /** `subscribers.slice().forEach(sub => sub(mutation, state))`: nothing
      catches an exception from a subscriber. */
  function NotifySubscribers(s: Store, w: World, subs: seq<Value>, i: nat, t: string, payload: Value): Run
    requires i <= |subs|
    decreases |subs| - i
  {
    if i == |subs| then Ok(s, Nothing)
    else if !IsFunction(subs[i]) then Threw(s, TypeError)
    else
      var s1 := s.(log := s.log + [SubscriberCalled(subs[i], t, payload)]);
      match w.notify(subs[i], t, payload, s.state)
      case Fail(e) => Threw(s1, e)
      case Pass => NotifySubscribers(s1, w, subs, i + 1, t, payload)
  }

  /** `commit(type, payload, options)`. */
  function Commit(s: Store, w: World, t: Value, p: Value, o: Value): Run {
    match UnifyObjectStyle(t, p, o)
    case Failure(e) => Threw(s, e)
    case Success(u) =>
      if u.utype !in s.reg.mutations then Ok(s, Nothing)
      else
        var entry := s.reg.mutations[u.utype];
        match WithCommit(s, (s1: Store) => RunMutations(s1, w, entry, 0, u.payload))
        case Threw(s2, e) => Threw(s2, e)
        case Ok(s2, _) => NotifySubscribers(s2, w, s2.subscribers, 0, u.utype, u.payload)
  }

  /** Committing an unknown type runs nothing, notifies nobody and changes nothing. */
  lemma CommitUnknownType(s: Store, w: World, t: Value, p: Value, o: Value)
    requires UnifyObjectStyle(t, p, o).Success?
    requires UnifyObjectStyle(t, p, o).value.utype !in s.reg.mutations
    ensures Commit(s, w, t, p, o) == Ok(s, Nothing)
  {
  }

  lemma {:induction false} RunMutationsOk(s: Store, w: World, entry: seq<Handler>, i: nat, payload: Value)
    requires i <= |entry|
    ensures RunMutations(s, w, entry, i, payload).Ok? ==>
      var r := RunMutations(s, w, entry, i, payload).store;
      && r.log == s.log + MutationEvents(entry[i..], payload, s.committing)
      && r == s.(log := r.log, state := r.state)
    decreases |entry| - i
  {
    var run := RunMutations(s, w, entry, i, payload);
    if i == |entry| {
      assert MutationEvents(entry[i..], payload, s.committing) == [];
    } else if run.Ok? {
      var h := entry[i];
      assert GetNestedState(s.state, h.ctx.path).Success?;
      var local := GetNestedState(s.state, h.ctx.path).value;
      var s1 := s.(log := s.log + [MutationRan(h, payload, s.committing)]);
      assert w.mutate(h, local, payload, s.state).Success?;
      var st := w.mutate(h, local, payload, s.state).value;
      var s2 := s1.(state := st);
      assert run == RunMutations(s2, w, entry, i + 1, payload);
      RunMutationsOk(s2, w, entry, i + 1, payload);
      MutationEventsStep(s.log, entry, i, payload, s.committing);
    }
  }

  lemma MutationEventsStep(log: seq<Event>, entry: seq<Handler>, i: nat, payload: Value, c: bool)
    requires i < |entry|
    ensures (log + [MutationRan(entry[i], payload, c)]) + MutationEvents(entry[i + 1..], payload, c)
         == log + MutationEvents(entry[i..], payload, c)
  {
    assert MutationEvents(entry[i..], payload, c)
        == [MutationRan(entry[i], payload, c)] + MutationEvents(entry[i + 1..], payload, c);
  }

  lemma {:induction false} NotifySubscribersOk(s: Store, w: World, subs: seq<Value>, i: nat, t: string, payload: Value)
    requires i <= |subs|
    ensures NotifySubscribers(s, w, subs, i, t, payload).Ok? ==>
      var r := NotifySubscribers(s, w, subs, i, t, payload).store;
      && r.log == s.log + NotifyEvents(subs[i..], t, payload)
      && r.state == s.state && r.committing == s.committing
      && r.reg == s.reg && r.subscribers == s.subscribers && r.modules == s.modules
    decreases |subs| - i
  {
    var run := NotifySubscribers(s, w, subs, i, t, payload);
    if i == |subs| {
      assert NotifyEvents(subs[i..], t, payload) == [];
    } else if run.Ok? {
      assert IsFunction(subs[i]) && w.notify(subs[i], t, payload, s.state).Pass?;
      var s1 := s.(log := s.log + [SubscriberCalled(subs[i], t, payload)]);
      assert run == NotifySubscribers(s1, w, subs, i + 1, t, payload);
      assert s1.state == s.state && s1.reg == s.reg && s1.subscribers == s.subscribers;
      NotifySubscribersOk(s1, w, subs, i + 1, t, payload);
      NotifyEventsStep(s.log, subs, i, t, payload);
    }
  }

  lemma NotifyEventsStep(log: seq<Event>, subs: seq<Value>, i: nat, t: string, payload: Value)
    requires i < |subs|
    ensures (log + [SubscriberCalled(subs[i], t, payload)]) + NotifyEvents(subs[i + 1..], t, payload)
         == log + NotifyEvents(subs[i..], t, payload)
  {
    assert NotifyEvents(subs[i..], t, payload)
        == [SubscriberCalled(subs[i], t, payload)] + NotifyEvents(subs[i + 1..], t, payload);
  }

  /** A commit that returns ran every handler of the type exactly once, in
      registration order, with the committing flag set; then called every
      subscriber in order with the type and payload; and restored the flag.
      Registrations and subscriptions are untouched. */
  lemma CommitRunsHandlersThenSubscribers(s: Store, w: World, t: Value, p: Value, o: Value)
    requires UnifyObjectStyle(t, p, o).Success?
    requires UnifyObjectStyle(t, p, o).value.utype in s.reg.mutations
    ensures var u := UnifyObjectStyle(t, p, o).value;
      var entry := s.reg.mutations[u.utype];
      var r := Commit(s, w, t, p, o);
      r.Ok? ==>
        && r.store.log == s.log + MutationEvents(entry, u.payload, true) + NotifyEvents(s.subscribers, u.utype, u.payload)
        && r.store.committing == s.committing
        && r.store.reg == s.reg
        && r.store.subscribers == s.subscribers
        && r.store.modules == s.modules
  {
    var u := UnifyObjectStyle(t, p, o).value;
    var entry := s.reg.mutations[u.utype];
    var s1 := s.(committing := true);
    var f := (s1: Store) => RunMutations(s1, w, entry, 0, u.payload);
    RunMutationsOk(s1, w, entry, 0, u.payload);
    assert entry[0..] == entry;
    match WithCommit(s, f)
    case Threw(_, _) =>
    case Ok(s2, _) =>
      NotifySubscribersOk(s2, w, s2.subscribers, 0, u.utype, u.payload);
      assert s2.subscribers[0..] == s2.subscribers;
  }

  /** A commit whose first handler throws leaves the committing flag set, even
      when it was clear before: `_withCommit` restores it only on return. */
  lemma CommitThrowLeavesFlagSet(s: Store, w: World, t: Value, p: Value, o: Value)
    requires UnifyObjectStyle(t, p, o).Success?
    requires UnifyObjectStyle(t, p, o).value.utype in s.reg.mutations
    requires var u := UnifyObjectStyle(t, p, o).value;
      var entry := s.reg.mutations[u.utype];
      && |entry| > 0
      && GetNestedState(s.state, entry[0].ctx.path).Success?
      && w.mutate(entry[0], GetNestedState(s.state, entry[0].ctx.path).value, u.payload, s.state).Failure?
    ensures Commit(s, w, t, p, o).Threw?
    ensures Commit(s, w, t, p, o).store.committing
  {
  }

  // ---------------------------------------------------------------- local getters

  /** The getter keys under `ns`, each with the prefix stripped, pointing at the
      global key it reads. */
  function LocalGetterMap(types: set<string>, ns: string): (r: map<string, string>)
    ensures forall k :: k in r <==> ns + k in types
    ensures forall k :: k in r ==> r[k] == ns + k
  {
    var keys := set t | t in types && IsPrefix(ns, t) :: t[|ns|..];
    var r := map k | k in keys :: ns + k;
    assert forall k :: k in keys <==> ns + k in types by {
      forall k ensures k in keys <==> ns + k in types {
        if ns + k in types {
          assert IsPrefix(ns, ns + k) && (ns + k)[|ns|..] == k;
        }
        if k in keys {
          var t :| t in types && IsPrefix(ns, t) && t[|ns|..] == k;
          assert t == ns + k;
        }
      }
    }
    r
  }

  /** `makeLocalGetters(store, namespace)`: built once per namespace from the
      getter keys present at that moment, then served from the cache. */
  function MakeLocalGetters(s: Store, ns: string): (r: (Store, map<string, string>))
    ensures ns in r.0.localGettersCache && r.0.localGettersCache[ns] == r.1
    ensures r.0 == s.(localGettersCache := r.0.localGettersCache)
    ensures ns in s.localGettersCache ==> r == (s, s.localGettersCache[ns])
    ensures ns !in s.localGettersCache ==>
      r.1 == LocalGetterMap(s.reg.getters.Keys, ns) &&
      forall n :: n != ns ==> (n in r.0.localGettersCache <==> n in s.localGettersCache)
  {
    if ns in s.localGettersCache then (s, s.localGettersCache[ns])
    else
      var proxy := LocalGetterMap(s.reg.getters.Keys, ns);
      (s.(localGettersCache := s.localGettersCache[ns := proxy]), proxy)
  }

  /** A second lookup for the same namespace returns the cached view even if
      getters were registered in between. */
  lemma LocalGettersCached(s: Store, ns: string, newGetters: map<string, Handler>)
    ensures var s1 := MakeLocalGetters(s, ns).0;
      MakeLocalGetters(s1.(reg := s1.reg.(getters := newGetters)), ns).1 == MakeLocalGetters(s, ns).1
  {
  }

  // ---------------------------------------------------------------- dispatch

  /** The `before` property of a subscriber, `undefined` where reading it throws. */
  function BeforeOf(a: ActionSub): Value {
    match GetProp(a.sub, "before")
    case Success(b) => b
    case Failure(_) => Undefined
  }

  /** The `before` property of every subscriber, in list order. */
  function Befores(subs: seq<ActionSub>): (r: seq<Value>)
    ensures |r| == |subs|
    ensures forall j :: 0 <= j < |subs| ==> r[j] == BeforeOf(subs[j])
  {
    seq(|subs|, j requires 0 <= j < |subs| => BeforeOf(subs[j]))
  }

  /** `_actionSubscribers.filter(sub => sub.before)`: reading `before` of a
      `null` or `undefined` subscriber throws; otherwise the hooks kept are
      the truthy `before` properties, in subscription order. */
  function BeforeHooks(subs: seq<ActionSub>): (r: Result<seq<Value>>)
    ensures r.Success? ==> forall j :: 0 <= j < |r.value| ==> Truthy(r.value[j])
    ensures r.Success? ==> r.value == Util.Filter(Befores(subs), Truthy)
    ensures r.Failure? <==> exists j :: 0 <= j < |subs| && (subs[j].sub.Undefined? || subs[j].sub.Null?)
  {
    if |subs| == 0 then Success([])
    else match GetProp(subs[0].sub, "before")
      case Failure(e) => Failure(e)
      case Success(b) =>
        match BeforeHooks(subs[1..])
        case Failure(e) => Failure(e)
        case Success(rest) =>
          assert Befores(subs)[1..] == Befores(subs[1..]);
          Success(if Truthy(b) then [b] + rest else rest)
  }

  /** `r`'s log is `s`'s log followed by calls to hooks `i` to `n - 1`, for some `n`. */
  predicate CalledPrefix(s: Store, r: Store, hooks: seq<Value>, i: nat, t: string, payload: Value)
    requires i <= |hooks|
  {
    exists n :: i <= n <= |hooks| && r.log == s.log + BeforeEvents(hooks[i..n], t, payload)
  }

  /** `.forEach(sub => sub.before(action, state))` inside one `try`: the first
      throw (or a hook that is not callable) ends the loop, and is swallowed. */
  function CallBefores(s: Store, w: World, hooks: seq<Value>, i: nat, t: string, payload: Value): (r: Store)
    requires i <= |hooks|
    ensures r == s.(log := r.log)
    decreases |hooks| - i
  {
    if i == |hooks| || !IsFunction(hooks[i]) then s
    else
      var s1 := s.(log := s.log + [BeforeCalled(hooks[i], t, payload)]);
      match w.before(hooks[i], t, payload, s.state)
      case Fail(_) => s1
      case Pass => CallBefores(s1, w, hooks, i + 1, t, payload)
  }

  /** Whatever the hooks do, the calls made are those to a prefix of the
      hooks, in order. */
  lemma {:induction false} CallBeforesPrefix(s: Store, w: World, hooks: seq<Value>, i: nat, t: string, payload: Value)
    requires i <= |hooks|
    ensures CalledPrefix(s, CallBefores(s, w, hooks, i, t, payload), hooks, i, t, payload)
    decreases |hooks| - i
  {
    var r := CallBefores(s, w, hooks, i, t, payload);
    if i == |hooks| || !IsFunction(hooks[i]) {
      CalledNone(s, hooks, i, t, payload);
    } else {
      var s1 := s.(log := s.log + [BeforeCalled(hooks[i], t, payload)]);
      if w.before(hooks[i], t, payload, s.state).Fail? {
        CalledNone(s1, hooks, i + 1, t, payload);
      } else {
        assert r == CallBefores(s1, w, hooks, i + 1, t, payload);
        CallBeforesPrefix(s1, w, hooks, i + 1, t, payload);
      }
      CalledStep(s, s1, r, hooks, i, t, payload);
    }
  }

  lemma CalledNone(s: Store, hooks: seq<Value>, i: nat, t: string, payload: Value)
    requires i <= |hooks|
    ensures CalledPrefix(s, s, hooks, i, t, payload)
  {
    assert s.log == s.log + BeforeEvents(hooks[i..i], t, payload);
  }

  lemma CalledStep(s: Store, s1: Store, r: Store, hooks: seq<Value>, i: nat, t: string, payload: Value)
    requires i < |hooks|
    requires s1.log == s.log + [BeforeCalled(hooks[i], t, payload)]
    requires CalledPrefix(s1, r, hooks, i + 1, t, payload) || r == s1
    ensures CalledPrefix(s, r, hooks, i, t, payload)
  {
    if r == s1 {
      CalledNone(s1, hooks, i + 1, t, payload);
    }
    var n :| i + 1 <= n <= |hooks| && r.log == s1.log + BeforeEvents(hooks[i + 1..n], t, payload);
    BeforeEventsCons(hooks, i, n, t, payload);
    assert r.log == s.log + BeforeEvents(hooks[i..n], t, payload);
  }

  function BeforeEvents(hooks: seq<Value>, t: string, payload: Value): (r: seq<Event>)
    ensures |r| == |hooks|
    ensures forall j {:trigger r[j]} :: 0 <= j < |hooks| ==> r[j] == BeforeCalled(hooks[j], t, payload)
  {
    seq(|hooks|, j requires 0 <= j < |hooks| => BeforeCalled(hooks[j], t, payload))
  }

  /** A before-hook that can be called and returns normally. */
  predicate HookPasses(w: World, h: Value, t: string, payload: Value, st: Value) {
    IsFunction(h) && w.before(h, t, payload, st).Pass?
  }

  lemma BeforeEventsCons(hooks: seq<Value>, i: nat, n: nat, t: string, payload: Value)
    requires i < n <= |hooks|
    ensures BeforeEvents(hooks[i..n], t, payload)
         == [BeforeCalled(hooks[i], t, payload)] + BeforeEvents(hooks[i + 1..n], t, payload)
  {
  }

  /** Hooks `i` to `n - 1` can all be called and return normally. */
  predicate PassesBetween(w: World, hooks: seq<Value>, i: nat, n: nat, t: string, payload: Value, st: Value)
    requires i <= n <= |hooks|
  {
    forall j :: i <= j < n ==> HookPasses(w, hooks[j], t, payload, st)
  }

  /** When every before-hook returns normally, each one is called, in order. */
  lemma {:induction false} CallBeforesAll(s: Store, w: World, hooks: seq<Value>, i: nat, t: string, payload: Value)
    requires i <= |hooks|
    requires PassesBetween(w, hooks, i, |hooks|, t, payload, s.state)
    ensures CallBefores(s, w, hooks, i, t, payload).log == s.log + BeforeEvents(hooks[i..], t, payload)
    decreases |hooks| - i
  {
    if i < |hooks| {
      assert HookPasses(w, hooks[i], t, payload, s.state);
      var s1 := s.(log := s.log + [BeforeCalled(hooks[i], t, payload)]);
      assert CallBefores(s, w, hooks, i, t, payload) == CallBefores(s1, w, hooks, i + 1, t, payload);
      CallBeforesAll(s1, w, hooks, i + 1, t, payload);
      BeforeEventsCons(hooks, i, |hooks|, t, payload);
    }
  }

  /** The calls stop at the first hook `n` that fails: a hook that is not a
      function is not called; a hook that throws is the last one called. */
  lemma {:induction false} CallBeforesStops(s: Store, w: World, hooks: seq<Value>, i: nat, n: nat, t: string, payload: Value)
    requires i <= n < |hooks|
    requires PassesBetween(w, hooks, i, n, t, payload, s.state)
    requires !HookPasses(w, hooks[n], t, payload, s.state)
    ensures CallBefores(s, w, hooks, i, t, payload).log
         == s.log + BeforeEvents(hooks[i..if IsFunction(hooks[n]) then n + 1 else n], t, payload)
    decreases n - i
  {
    if i < n {
      assert HookPasses(w, hooks[i], t, payload, s.state);
      var s1 := s.(log := s.log + [BeforeCalled(hooks[i], t, payload)]);
      assert CallBefores(s, w, hooks, i, t, payload) == CallBefores(s1, w, hooks, i + 1, t, payload);
      CallBeforesStops(s1, w, hooks, i + 1, n, t, payload);
      BeforeEventsCons(hooks, i, if IsFunction(hooks[n]) then n + 1 else n, t, payload);
    } else {
      CallBeforesStopsHere(s, w, hooks, n, t, payload);
    }
  }

  /** The hook at `n` does not return normally: it is logged if it is a
      function, and nothing after it is called. */
  lemma CallBeforesStopsHere(s: Store, w: World, hooks: seq<Value>, n: nat, t: string, payload: Value)
    requires n < |hooks|
    requires !HookPasses(w, hooks[n], t, payload, s.state)
    ensures CallBefores(s, w, hooks, n, t, payload).log
         == s.log + BeforeEvents(hooks[n..if IsFunction(hooks[n]) then n + 1 else n], t, payload)
  {
    if IsFunction(hooks[n]) {
      assert hooks[n..n + 1] == [hooks[n]];
    } else {
      assert hooks[n..n] == [];
    }
  }

  /** The before-subscriber phase: it never throws out of `dispatch`. */
  function NotifyBefore(s: Store, w: World, t: string, payload: Value): Store {
    match BeforeHooks(s.actionSubscribers)
    case Failure(_) => s
    case Success(hooks) => CallBefores(s, w, hooks, 0, t, payload)
  }

  /** `wrappedActionHandler(payload)`: builds the context (local getters, which
      may fill the cache, then local state), then calls the user function.
      A throw keeps what happened before it: the filled cache, and the
      logged call when the user function was reached. */
  function RunAction(s: Store, w: World, h: Handler, payload: Value): (r: Run)
    ensures r.Ok? ==> r.returned.Single?
  {
    var s0 := if h.ctx.ns == "" then s else MakeLocalGetters(s, h.ctx.ns).0;
    match GetNestedState(s0.state, h.ctx.path)
    case Failure(e) => Threw(s0, e)
    case Success(local) =>
      var s1 := s0.(log := s0.log + [ActionRan(h, payload)]);
      match w.act(h, local, payload, s0.state)
      case Failure(e) => Threw(s1, e)
      case Success(res) => Ok(s1.(state := res.0), Single(res.1))
  }

  /** `entry.map(handler => handler(payload))`: a synchronous throw stops the map. */
  function RunActions(s: Store, w: World, entry: seq<Handler>, i: nat, payload: Value, acc: seq<Value>): (r: Run)
    requires i <= |entry|
    ensures r.Ok? ==> r.returned.Joined? && |r.returned.values| == |acc| + |entry| - i
    decreases |entry| - i
  {
    if i == |entry| then Ok(s, Joined(acc))
    else match RunAction(s, w, entry[i], payload)
      case Threw(s', e) => Threw(s', e)
      case Ok(s', ret) => RunActions(s', w, entry, i + 1, payload, acc + [ret.value])
  }

  /** Running the handlers of an entry one after another: `stores[j]` is the
      store handler `j` runs against, `stores[j + 1]` the one it leaves, and
      `values[j]` what it returns. */
  predicate ActionChain(w: World, entry: seq<Handler>, payload: Value, stores: seq<Store>, values: seq<Value>) {
    && |stores| == |entry| + 1
    && |values| == |entry|
    && forall j :: 0 <= j < |entry| ==> RunAction(stores[j], w, entry[j], payload) == Ok(stores[j + 1], Single(values[j]))
  }

  /** The handlers of `entry`, run in turn from store `s`, return `values`
      and leave store `final`. */
  ghost predicate ChainFrom(w: World, entry: seq<Handler>, payload: Value, s: Store, values: seq<Value>, final: Store) {
    exists stores :: ActionChain(w, entry, payload, stores, values) && stores[0] == s && stores[|entry|] == final
  }

  /** One more handler run in front of a chain extends the chain. */
  lemma ChainFromCons(w: World, h: Handler, tail: seq<Handler>, payload: Value, s: Store, s': Store, v: Value, vs: seq<Value>, final: Store)
    requires ChainFrom(w, tail, payload, s', vs, final)
    requires RunAction(s, w, h, payload) == Ok(s', Single(v))
    ensures ChainFrom(w, [h] + tail, payload, s, [v] + vs, final)
  {
    var st :| ActionChain(w, tail, payload, st, vs) && st[0] == s' && st[|tail|] == final;
    var entry := [h] + tail;
    var stores := [s] + st;
    var values := [v] + vs;
    forall j | 0 <= j < |entry|
      ensures RunAction(stores[j], w, entry[j], payload) == Ok(stores[j + 1], Single(values[j]))
    {
      if j > 0 {
        assert entry[j] == tail[j - 1] && stores[j] == st[j - 1] && stores[j + 1] == st[j] && values[j] == vs[j - 1];
        assert RunAction(st[j - 1], w, tail[j - 1], payload) == Ok(st[j], Single(vs[j - 1]));
      } else {
        assert entry[0] == h && stores[0] == s && stores[1] == s' && values[0] == v;
      }
    }
    assert ActionChain(w, entry, payload, stores, values) && stores[0] == s && stores[|entry|] == final;
  }

  lemma ChainFromNil(w: World, payload: Value, s: Store)
    ensures ChainFrom(w, [], payload, s, [], s)
  {
    assert ActionChain(w, [], payload, [s], []);
  }

  /** A list that starts with `acc + [x]` starts with `acc`, and after `acc`
      comes `x`. */
  lemma AccStep<T>(acc: seq<T>, x: T, xs: seq<T>)
    requires |acc| + 1 <= |xs| && xs[..|acc| + 1] == acc + [x]
    ensures |acc| <= |xs| && xs[..|acc|] == acc
    ensures xs[|acc|..] == [x] + xs[|acc| + 1..]
  {
    assert xs[..|acc|] == xs[..|acc| + 1][..|acc|];
    assert xs[|acc|] == xs[..|acc| + 1][|acc|];
  }

  lemma SliceCons<T>(xs: seq<T>, k: nat)
    requires k < |xs|
    ensures xs[k..] == [xs[k]] + xs[k + 1..]
  {
  }

  /** The joined values are the earlier ones followed by each handler's own
      result, handler by handler, each handler running on the store the
      previous one left. */
  lemma {:induction false} RunActionsResults(s: Store, w: World, entry: seq<Handler>, i: nat, payload: Value, acc: seq<Value>)
    requires i <= |entry|
    ensures var r := RunActions(s, w, entry, i, payload, acc);
      r.Ok? ==>
        && |acc| <= |r.returned.values|
        && r.returned.values[..|acc|] == acc
        && ChainFrom(w, entry[i..], payload, s, r.returned.values[|acc|..], r.store)
    decreases |entry| - i
  {
    var r := RunActions(s, w, entry, i, payload, acc);
    if i == |entry| {
      ChainFromNil(w, payload, s);
      assert entry[i..] == [] && r.returned.values[|acc|..] == [];
    } else {
      match RunAction(s, w, entry[i], payload)
      case Threw(_, _) =>
      case Ok(s', ret) =>
        var acc' := acc + [ret.value];
        assert r == RunActions(s', w, entry, i + 1, payload, acc');
        RunActionsResults(s', w, entry, i + 1, payload, acc');
        if r.Ok? {
          var vs := r.returned.values;
          AccStep(acc, ret.value, vs);
          SliceCons(entry, i);
          ChainFromCons(w, entry[i], entry[i + 1..], payload, s, s', ret.value, vs[|acc'|..], r.store);
        }
    }
  }

  /** `dispatch(type, payload)` up to the promise it returns: before-subscribers
      first, then every handler when there are several (joined with
      `Promise.all`), or the only one alone. */
  function Dispatch(s: Store, w: World, t: Value, p: Value): Run {
    match UnifyObjectStyle(t, p, Undefined)
    case Failure(e) => Threw(s, e)
    case Success(u) =>
      if u.utype !in s.reg.actions then Ok(s, Nothing)
      else
        var entry := s.reg.actions[u.utype];
        var s1 := NotifyBefore(s, w, u.utype, u.payload);
        if |entry| > 1 then RunActions(s1, w, entry, 0, u.payload, [])
        else if |entry| == 1 then RunAction(s1, w, entry[0], u.payload)
        else Threw(s1, TypeError)
  }

  function ActionEvents(entry: seq<Handler>, payload: Value): (r: seq<Event>)
    ensures |r| == |entry|
    ensures forall j :: 0 <= j < |entry| ==> r[j] == ActionRan(entry[j], payload)
  {
    seq(|entry|, j requires 0 <= j < |entry| => ActionRan(entry[j], payload))
  }

  lemma {:induction false} RunActionsOk(s: Store, w: World, entry: seq<Handler>, i: nat, payload: Value, acc: seq<Value>)
    requires i <= |entry|
    ensures var r := RunActions(s, w, entry, i, payload, acc);
      r.Ok? ==>
        && r.store.log == s.log + ActionEvents(entry[i..], payload)
        && r.store.reg == s.reg && r.store.subscribers == s.subscribers && r.store.modules == s.modules
    decreases |entry| - i
  {
    var run := RunActions(s, w, entry, i, payload, acc);
    if i == |entry| {
      assert ActionEvents(entry[i..], payload) == [];
    } else if run.Ok? {
      var one := RunAction(s, w, entry[i], payload);
      RunActionSteps(s, w, entry[i], payload);
      assert run == RunActions(one.store, w, entry, i + 1, payload, acc + [one.returned.value]);
      RunActionsOk(one.store, w, entry, i + 1, payload, acc + [one.returned.value]);
      ActionEventsStep(s.log, entry, i, payload);
    }
  }

  lemma ActionEventsStep(log: seq<Event>, entry: seq<Handler>, i: nat, payload: Value)
    requires i < |entry|
    ensures (log + [ActionRan(entry[i], payload)]) + ActionEvents(entry[i + 1..], payload)
         == log + ActionEvents(entry[i..], payload)
  {
    assert ActionEvents(entry[i..], payload)
        == [ActionRan(entry[i], payload)] + ActionEvents(entry[i + 1..], payload);
  }

  /** One action call appends its event and touches only the state and the
      local-getters cache. */
  lemma RunActionSteps(s: Store, w: World, h: Handler, payload: Value)
    ensures RunAction(s, w, h, payload).Ok? ==>
      var r := RunAction(s, w, h, payload).store;
      && r.log == s.log + [ActionRan(h, payload)]
      && r == s.(log := r.log, state := r.state, localGettersCache := r.localGettersCache)
  {
  }

  /** A throwing action call keeps the state, and keeps the local getters it
      cached while building the context. The call is logged exactly when the
      local state could be read, that is, when the user function was reached. */
  lemma RunActionThrows(s: Store, w: World, h: Handler, payload: Value)
    requires RunAction(s, w, h, payload).Threw?
    ensures var r := RunAction(s, w, h, payload).store;
      && r == s.(log := r.log, localGettersCache := r.localGettersCache)
      && (h.ctx.ns != "" ==> h.ctx.ns in r.localGettersCache)
      && (forall ns :: ns in s.localGettersCache ==> ns in r.localGettersCache)
      && (GetNestedState(s.state, h.ctx.path).Success? <==> r.log == s.log + [ActionRan(h, payload)])
      && (GetNestedState(s.state, h.ctx.path).Failure? <==> r.log == s.log)
  {
    if h.ctx.ns != "" {
      var g := MakeLocalGetters(s, h.ctx.ns);
    }
  }

  /** Dispatching an unknown type runs nothing and changes nothing. A known
      type runs the before-subscribers (a throw among them only cuts that
      phase short), then every handler once, in registration order; the
      result is joined exactly when there is more than one handler. */
  lemma DispatchSelectsHandlers(s: Store, w: World, t: Value, p: Value)
    requires UnifyObjectStyle(t, p, Undefined).Success?
    ensures var u := UnifyObjectStyle(t, p, Undefined).value;
      u.utype !in s.reg.actions ==> Dispatch(s, w, t, p) == Ok(s, Nothing)
    ensures var u := UnifyObjectStyle(t, p, Undefined).value;
      var r := Dispatch(s, w, t, p);
      u.utype in s.reg.actions && r.Ok? ==>
        var entry := s.reg.actions[u.utype];
        var s1 := NotifyBefore(s, w, u.utype, u.payload);
        && r.store.log == s1.log + ActionEvents(entry, u.payload)
        && (|entry| > 1 <==> r.returned.Joined?)
        && (|entry| > 1 ==> |r.returned.values| == |entry|)
        && (|entry| == 1 <==> r.returned.Single?)
  {
    var u := UnifyObjectStyle(t, p, Undefined).value;
    if u.utype in s.reg.actions {
      var entry := s.reg.actions[u.utype];
      var s1 := NotifyBefore(s, w, u.utype, u.payload);
      assert entry[0..] == entry;
      if |entry| > 1 {
        RunActionsOk(s1, w, entry, 0, u.payload, []);
      } else if |entry| == 1 {
        assert ActionEvents(entry, u.payload) == [ActionRan(entry[0], u.payload)];
      }
    }
  }

  // ---------------------------------------------------------------- subscriptions

  predicate NoDup<T(==)>(xs: seq<T>) {
    forall i, j :: 0 <= i < j < |xs| ==> xs[i] != xs[j]
  }

  /** `genericSubscribe(fn, subs, options)`: adds `fn` unless `indexOf` finds
      it, at the front with `prepend`, else at the back. */
  function Subscribe<T(==)>(subs: seq<T>, fn: T, prepend: bool): (r: seq<T>)
    ensures fn in subs ==> r == subs
    ensures fn !in subs && prepend ==> r == [fn] + subs
    ensures fn !in subs && !prepend ==> r == subs + [fn]
  {
    if fn in subs then subs
    else if prepend then [fn] + subs
    else subs + [fn]
  }

  /** The returned unsubscribe: splices out the first occurrence, if any. */
  function Unsubscribe<T(==)>(subs: seq<T>, fn: T): (r: seq<T>)
    ensures fn !in subs ==> r == subs
    ensures fn in subs ==> |r| == |subs| - 1
    ensures forall x :: x in r ==> x in subs
    ensures forall x :: x != fn && x in subs ==> x in r
  {
    if |subs| == 0 then []
    else if subs[0] == fn then subs[1..]
    else [subs[0]] + Unsubscribe(subs[1..], fn)
  }

  /** Subscribing keeps the list free of duplicates and makes `fn` a member;
      a present `fn` leaves the list alone. */
  lemma SubscribeKeepsNoDup<T>(subs: seq<T>, fn: T, prepend: bool)
    requires NoDup(subs)
    ensures NoDup(Subscribe(subs, fn, prepend))
    ensures fn in Subscribe(subs, fn, prepend)
    ensures forall x :: x in Subscribe(subs, fn, prepend) <==> x in subs || x == fn
    ensures fn in subs ==> Subscribe(subs, fn, prepend) == subs
  {
  }

  /** Unsubscribing right after a fresh subscription restores the list. */
  lemma {:induction false} SubscribeThenUnsubscribe<T>(subs: seq<T>, fn: T, prepend: bool)
    requires fn !in subs
    ensures Unsubscribe(Subscribe(subs, fn, prepend), fn) == subs
  {
    if !prepend {
      UnsubscribeAppended(subs, fn);
    }
  }

  lemma {:induction false} UnsubscribeAppended<T>(subs: seq<T>, fn: T)
    requires fn !in subs
    ensures Unsubscribe(subs + [fn], fn) == subs
  {
    if |subs| > 0 {
      assert (subs + [fn])[1..] == subs[1..] + [fn];
      UnsubscribeAppended(subs[1..], fn);
    }
  }

  /** Unsubscribing removes the first occurrence of `fn` and keeps the others
      in order. */
  lemma UnsubscribeSplices<T>(subs: seq<T>, fn: T)
    requires fn in subs
    ensures exists i :: 0 <= i < |subs| && subs[i] == fn && fn !in subs[..i] && Unsubscribe(subs, fn) == subs[..i] + subs[i + 1..]
  {
    var i := FirstOccurrence(subs, fn);
    UnsubscribeAt(subs, fn, i);
  }

  /** The first position of a member, as `indexOf` finds it. */
  lemma {:induction false} FirstOccurrence<T>(subs: seq<T>, fn: T) returns (i: nat)
    requires fn in subs
    ensures i < |subs| && subs[i] == fn && fn !in subs[..i]
  {
    if subs[0] == fn {
      i := 0;
    } else {
      assert fn in subs[1..];
      var k := FirstOccurrence(subs[1..], fn);
      i := k + 1;
      assert subs[..i] == [subs[0]] + subs[1..][..k];
    }
  }

  /** When `i` is the first occurrence of `fn`, unsubscribing splices out `i`. */
  lemma {:induction false} UnsubscribeAt<T>(subs: seq<T>, fn: T, i: nat)
    requires i < |subs| && subs[i] == fn && fn !in subs[..i]
    ensures Unsubscribe(subs, fn) == subs[..i] + subs[i + 1..]
  {
    if i == 0 {
      assert subs[..0] == [];
    } else {
      assert subs[0] in subs[..i];
      assert subs[1..][..i - 1] == subs[1..i];
      assert subs[..i] == [subs[0]] + subs[1..i];
      UnsubscribeAt(subs[1..], fn, i - 1);
      assert subs[i + 1..] == subs[1..][i..];
    }
  }

  /** On a duplicate-free list, unsubscribing removes every trace of `fn`, so a
      second call is a no-op, and the list stays duplicate-free. */
  lemma UnsubscribeIdempotent<T>(subs: seq<T>, fn: T)
    requires NoDup(subs)
    ensures fn !in Unsubscribe(subs, fn)
    ensures NoDup(Unsubscribe(subs, fn))
    ensures Unsubscribe(Unsubscribe(subs, fn), fn) == Unsubscribe(subs, fn)
  {
    if fn in subs {
      var i := FirstOccurrence(subs, fn);
      UnsubscribeAt(subs, fn, i);
      SpliceNoDup(subs, i);
    }
  }

  /** Splicing one element out of a duplicate-free list leaves a
      duplicate-free list without that element. */
  lemma SpliceNoDup<T>(xs: seq<T>, i: nat)
    requires i < |xs| && NoDup(xs)
    ensures xs[i] !in xs[..i] + xs[i + 1..]
    ensures NoDup(xs[..i] + xs[i + 1..])
  {
    var r := xs[..i] + xs[i + 1..];
    assert forall j :: 0 <= j < |r| ==> r[j] == if j < i then xs[j] else xs[j + 1];
    forall j | 0 <= j < |r| ensures r[j] != xs[i] {
      if j >= i { assert xs[j + 1] != xs[i]; }
    }
  }

  /** `store.subscribe(fn, options)`. Subscribers are compared by value here,
      where `indexOf` compares object references: two distinct but equal
      subscriber objects count as one. */
  function StoreSubscribe(s: Store, fn: Value, options: Value): (r: Store)
    ensures r == s.(subscribers := r.subscribers)
    ensures fn in r.subscribers
    ensures fn in s.subscribers ==> r.subscribers == s.subscribers
    ensures fn !in s.subscribers ==> |r.subscribers| == |s.subscribers| + 1
    ensures fn !in s.subscribers && OptionFlag(options, "prepend") ==> r.subscribers[0] == fn && r.subscribers[1..] == s.subscribers
    ensures fn !in s.subscribers && !OptionFlag(options, "prepend") ==>
      r.subscribers[|s.subscribers|] == fn && r.subscribers[..|s.subscribers|] == s.subscribers
  {
    s.(subscribers := Subscribe(s.subscribers, fn, OptionFlag(options, "prepend")))
  }

  /** `store.subscribeAction(fn, options)`: a function is wrapped in a fresh
      `{before: fn}` object; an object subscriber keeps its own identity
      `ref`. The subscriber added is returned for the unsubscribe call. */
  function SubscribeAction(s: Store, fn: Value, ref: nat, options: Value): (r: (Store, ActionSub))
    ensures IsFunction(fn) ==> r.1 == ActionSub(s.nextRef, Obj([("before", fn)])) && r.0.nextRef == s.nextRef + 1
    ensures !IsFunction(fn) ==> r.1 == ActionSub(ref, fn) && r.0.nextRef == s.nextRef
    ensures r.0 == s.(actionSubscribers := r.0.actionSubscribers, nextRef := r.0.nextRef)
    ensures r.1 in s.actionSubscribers ==> r.0.actionSubscribers == s.actionSubscribers
    ensures r.1 !in s.actionSubscribers && OptionFlag(options, "prepend") ==>
      r.0.actionSubscribers == [r.1] + s.actionSubscribers
    ensures r.1 !in s.actionSubscribers && !OptionFlag(options, "prepend") ==>
      r.0.actionSubscribers == s.actionSubscribers + [r.1]
  {
    var (sub, next) := if IsFunction(fn) then (ActionSub(s.nextRef, Obj([("before", fn)])), s.nextRef + 1) else (ActionSub(ref, fn), s.nextRef);
    (s.(actionSubscribers := Subscribe(s.actionSubscribers, sub, OptionFlag(options, "prepend")), nextRef := next), sub)
  }

  /** Every action subscriber holds a reference older than the next fresh one. */
  predicate RefsBelowNext(s: Store) {
    forall j :: 0 <= j < |s.actionSubscribers| ==> s.actionSubscribers[j].ref < s.nextRef
  }

  /** Unlike `subscribe`, subscribing the same function twice with
      `subscribeAction` adds it twice: each call wraps it in a new object. */
  lemma SubscribeActionTwice(s: Store, fn: Value)
    requires IsFunction(fn) && RefsBelowNext(s)
    ensures var (s1, a) := SubscribeAction(s, fn, 0, Undefined);
      var (s2, b) := SubscribeAction(s1, fn, 0, Undefined);
      a != b && s2.actionSubscribers == s.actionSubscribers + [a, b]
  {
    var (s1, a) := SubscribeAction(s, fn, 0, Undefined);
    assert a !in s.actionSubscribers by {
      forall j | 0 <= j < |s.actionSubscribers| ensures s.actionSubscribers[j] != a {
        assert s.actionSubscribers[j].ref < s.nextRef;
      }
    }
    var (s2, b) := SubscribeAction(s1, fn, 0, Undefined);
    assert b !in s1.actionSubscribers by {
      forall j | 0 <= j < |s1.actionSubscribers| ensures s1.actionSubscribers[j] != b {
        if j < |s.actionSubscribers| {
          assert s1.actionSubscribers[j] == s.actionSubscribers[j];
        }
      }
    }
  }
}

=== FILE: util.dfy ===
/** The store's general-purpose helpers: first match, deep copy of acyclic
    values, the object test, the `[vuex]` assertion and argument binding. */
module Util {
  import opened Base
  import opened Js
  import Dict

  function Filter<T>(list: seq<T>, f: T -> bool): (r: seq<T>)
    ensures |r| <= |list|
    ensures forall x :: x in r ==> x in list && f(x)
  {
    if |list| == 0 then []
    else (if f(list[0]) then [list[0]] else []) + Filter(list[1..], f)
  }

  /** `list.filter(f)[0]`: the first element satisfying `f`, `None` for `undefined`. */
  function Find<T>(list: seq<T>, f: T -> bool): (r: Option<T>)
    ensures r.Some? ==> exists i :: 0 <= i < |list| && list[i] == r.value && f(list[i])
                         && forall j :: 0 <= j < i ==> !f(list[j])
    ensures r.None? <==> forall i :: 0 <= i < |list| ==> !f(list[i])
  {
    var hits := Filter(list, f);
    FilterHead(list, f);
    if |hits| == 0 then None else Some(hits[0])
  }

  lemma {:induction false} FilterHead<T>(list: seq<T>, f: T -> bool)
    ensures |Filter(list, f)| == 0 <==> forall i :: 0 <= i < |list| ==> !f(list[i])
    ensures |Filter(list, f)| > 0 ==>
      exists i :: 0 <= i < |list| && list[i] == Filter(list, f)[0] && f(list[i])
        && forall j :: 0 <= j < i ==> !f(list[j])
  {
    if |list| > 0 {
      FilterHead(list[1..], f);
      if !f(list[0]) && |Filter(list[1..], f)| > 0 {
        var i :| 0 <= i < |list[1..]| && list[1..][i] == Filter(list[1..], f)[0] && f(list[1..][i])
                 && forall j :: 0 <= j < i ==> !f(list[1..][j]);
        assert list[i + 1] == Filter(list, f)[0];
        assert forall j :: 0 <= j < i + 1 ==> !f(list[j]) by {
          forall j | 0 <= j < i + 1 ensures !f(list[j]) {
            if j > 0 { assert list[j] == list[1..][j - 1]; }
          }
        }
      }
      if !f(list[0]) && |Filter(list[1..], f)| == 0 {
        assert forall i :: 0 <= i < |list| ==> !f(list[i]) by {
          forall i | 0 <= i < |list| ensures !f(list[i]) {
            if i > 0 { assert list[i] == list[1..][i - 1]; }
          }
        }
      }
    }
  }

  /** `isObject`: not `null` and of type `object`, which is exactly arrays and plain objects. */
  predicate IsObject(v: Value)
    ensures IsObject(v) <==> v.Arr? || v.Obj?
  {
    !v.Null? && TypeOf(v) == "object"
  }

  /** `assert(condition, msg)`: throws an `Error('[vuex] ' + msg)` exactly when the condition is falsy. */
  function Assert(condition: Value, msg: string): (r: Outcome)
    ensures r.Fail? <==> !Truthy(condition)
    ensures r.Fail? ==> r.error == VuexError("[vuex] " + msg)
  {
    if !Truthy(condition) then Fail(VuexError("[vuex] " + msg)) else Pass
  }

  /** `partial(fn, arg)`: a thunk that calls `fn(arg)` when invoked. */
  function Partial<A, R>(fn: A -> R, arg: A): (thunk: () -> R)
    ensures thunk() == fn(arg)
  {
    () => fn(arg)
  }

  /** `deepCopy` of an acyclic value: immutable values are returned as they are,
      an array becomes a fresh array and an object a fresh plain object filled
      key by key in `Object.keys` order. */
  function DeepCopy(v: Value): (r: Value)
    ensures !IsObject(v) ==> r == v
    ensures v.Arr? <==> r.Arr?
    ensures v.Obj? <==> r.Obj?
    ensures v.Arr? ==> |r.items| == |v.items|
    decreases v
  {
    if v.Null? || TypeOf(v) != "object" then v
    else match v
      case Arr(items) => Arr(CopyItems(v, 0))
      case Obj(_) => Obj(CopyFields(v, 0, []))
  }

  function CopyItems(a: Value, i: nat): (r: seq<Value>)
    requires a.Arr? && i <= |a.items|
    ensures |r| == |a.items| - i
    decreases a, |a.items| - i
  {
    if i == |a.items| then [] else [DeepCopy(a.items[i])] + CopyItems(a, i + 1)
  }

  /** `Object.keys(obj).forEach(key => copy[key] = deepCopy(obj[key]))`, from key `i` on. */
  function CopyFields(o: Value, i: nat, copy: Dict.Entries<Value>): Dict.Entries<Value>
    requires o.Obj? && i <= |o.fields|
    decreases o, |o.fields| - i
  {
    if i == |o.fields| then copy
    else CopyFields(o, i + 1, Dict.Put(copy, o.fields[i].0, DeepCopy(o.fields[i].1)))
  }

  /** On an acyclic value whose objects have distinct keys, the copy is
      structurally equal to the original: same kinds, same keys in the same
      order, same leaves. */
  lemma {:induction false} DeepCopyIsIdentity(v: Value)
    requires WellFormed(v)
    ensures DeepCopy(v) == v
    decreases v, 2
  {
    match v
    case Arr(items) =>
      CopyItemsIsIdentity(v, 0);
      assert items[0..] == items;
    case Obj(fields) =>
      CopyFieldsIsIdentity(v, 0);
      assert fields[..0] == [];
    case _ =>
  }

  lemma {:induction false} CopyItemsIsIdentity(a: Value, i: nat)
    requires a.Arr? && i <= |a.items| && WellFormed(a)
    ensures CopyItems(a, i) == a.items[i..]
    decreases a, 1, |a.items| - i
  {
    if i < |a.items| {
      DeepCopyIsIdentity(a.items[i]);
      CopyItemsIsIdentity(a, i + 1);
    }
  }

  lemma {:induction false} CopyFieldsIsIdentity(o: Value, i: nat)
    requires o.Obj? && i <= |o.fields| && WellFormed(o)
    ensures CopyFields(o, i, o.fields[..i]) == o.fields
    decreases o, 1, |o.fields| - i
  {
    if i == |o.fields| {
      assert o.fields[..i] == o.fields;
    } else {
      var k := o.fields[i].0;
      DeepCopyIsIdentity(o.fields[i].1);
      assert !Dict.HasKey(o.fields[..i], k) by {
        forall j | 0 <= j < i ensures o.fields[..i][j].0 != k {
          assert o.fields[..i][j] == o.fields[j];
        }
      }
      assert Dict.Put(o.fields[..i], k, o.fields[i].1) == o.fields[..i + 1];
      CopyFieldsIsIdentity(o, i + 1);
    }
  }

  /** The copy of an object has the same key sequence as the original. */
  lemma DeepCopyKeepsKeys(v: Value)
    requires WellFormed(v) && v.Obj?
    ensures DeepCopy(v).Obj? && Dict.Keys(DeepCopy(v).fields) == Dict.Keys(v.fields)
  {
    DeepCopyIsIdentity(v);
  }
}
